=== FILE: README.md ===
# YouTube RAG chatbot core, modelled in Dafny

This project models the core of a retrieval-augmented chatbot that answers questions about YouTube videos from their transcripts. The same pipeline exists twice in the repository: in C# (`YouTubeRAGChatbot.Core`) and in Python. It has four stages:

- **Fetching.** A video ID is read out of a URL (`TranscriptFetcherService`, `transcript_fetcher.py`). A caption track is chosen, and the captions are assembled into a `TranscriptData`.
- **Chunking.** Transcript text is cut into overlapping windows. Each window ends at a sentence or word boundary where possible and is trimmed, numbered and tagged with metadata (`TextChunkerService`, `text_chunker.py`).
- **Storing.** An in-memory vector database holds (chunk, embedding) records, answers cosine-similarity top-k searches, and saves to and loads from a `vectordb.json` snapshot. There is one implementation per embedding provider: `VectorDatabaseService` and `HuggingFaceVectorDatabaseService`.
- **Answering.** An orchestrator retrieves the four best chunks, builds a grounded prompt, asks a language model, and formats the answer with numbered sources. This is `RAGChatbotService` and `HuggingFaceRAGChatbotService` in C#, and `rag_chatbot.py`, whose Gemini path is spelled out.

Modules:

| file | module | what it holds |
|---|---|---|
| common.dfy | `Common` | `Option`, `Result`, the exceptions, and C#'s 32-bit `int` with unchecked wrap-around |
| models.dfy | `Models` | the records of `TranscriptData.cs` and their default values |
| text.dfy | `Text` | .NET/Python string operations: white space, `Trim`, `Contains`, `Split`, `Join`, decimal rendering |
| dotnet_search.dfy | `DotNetSearch` | .NET `LastIndexOf` with its argument checks |
| chunker.dfy | `Chunker` | `TextChunkerService`, as written and corrected |
| fetcher.dfy | `Fetcher` | `TranscriptFetcherService` |
| ranking.dfy | `Ranking` | LINQ's stable `OrderByDescending` and `Take` |
| vector_store.dfy | `VectorStore` | both vector database services |
| orchestrator.dfy | `Orchestrator` | both C# chatbot services |
| py_fetcher.dfy | `PyFetcher` | `transcript_fetcher.py` |
| py_chunker.dfy | `PyChunker` | `text_chunker.py` |
| py_chatbot.dfy | `PyChatbot` | `rag_chatbot.py` |

The external parts are function-valued parameters that may fail with an exception:

- the YouTube client and the transcript API;
- the embedding service;
- the chat-completion services;
- LangChain's splitter and retrieval chain;
- `new Uri(...)`, `Math.Sqrt` and `TimeSpan.ToString()`.

The clock reading is a parameter. The file system is a map from paths to snapshot contents. Every thrown exception is an `Err`, and the services' own messages are modelled character for character.

### Where the code departs from its evident intent

The model follows the code in each of these cases except the progress rule, where `Chunker.ChunkText` is the corrected loop and `Chunker.ChunkTextAsWrittenDiverges` models the code.

- **Chunker progress rule.** The code (`TextChunkerService.cs:74-80`) sets the next start to `end - overlap` and falls back to `end` only when that value is `<= 0` or `>= text.Length`. The evident intent is a window that always moves past the previous start. See Findings: with any overlap between 1 and the text length, the loop never exits. The model has both rules. `Chunker.ChunkText` uses the corrected one, and `Chunker.ChunkTextAsWritten` runs the code's rule on fuel.
- **Vector-length mismatch.** There is no dedicated dimension-mismatch error. The code throws `ArgumentException("Vectors must have the same length")` from `CosineSimilarity`. A `topK <= 0` search never scores, so it never throws.
- **Result count.** A search returns `min(max(topK, 0), storeSize)` results: a negative `topK` gives none rather than a negative count.
- **Failed query embedding.** The OpenAI store wraps only `HttpRequestException`, and every other failure propagates unwrapped. The Hugging Face store wraps every failure.
- **Sources header.** `RAGChatbotService.cs:135` and `rag_chatbot.py:168` print `ðŸ“š Sources:`. This is the UTF-8 encoding of U+1F4DA read as Windows-1252. `HuggingFaceRAGChatbotService.cs:104` prints the emoji itself. Both literals are modelled as they are.

## Model

| member | source | states |
|---|---|---|
| Common.Wrap32 | YouTubeRAGChatbot.Core/Services/TextChunkerService.cs:74 | C#'s unchecked `int` subtraction: the result is the 32-bit value congruent to the exact one modulo 2^32. It equals the exact value when that fits, and is negative when the exact value overflows upwards |
| Models.NewTranscriptData | YouTubeRAGChatbot.Core/Models/TranscriptData.cs:3-11 | a new transcript has empty ID, title and text, no segments, a zero duration and the minimum `DateTime` as its fetch time |
| Models.NewTranscriptSegment | YouTubeRAGChatbot.Core/Models/TranscriptData.cs:13-18 | a new segment has empty text and zero start and duration |
| Models.NewTextChunk | YouTubeRAGChatbot.Core/Models/TranscriptData.cs:20-26 | a new chunk has empty content, empty metadata, index 0 and an empty video ID |
| Models.NewChatMessage | YouTubeRAGChatbot.Core/Models/TranscriptData.cs:28-33 | a new message has empty role and content and is stamped with the current UTC time |
| Models.NewChatResponse | YouTubeRAGChatbot.Core/Models/TranscriptData.cs:35-39 | a new response has an empty answer and no sources |
| Models.NewSourceReference | YouTubeRAGChatbot.Core/Models/TranscriptData.cs:41-47 | a new reference has an empty ID and content, index 0 and score 0 |
| Text.Trim | YouTubeRAGChatbot.Core/Services/TextChunkerService.cs:52 | the trimmed text is empty exactly when the input is all white space; otherwise it starts and ends with a non-white-space character |
| Text.TrimIsInfix | YouTubeRAGChatbot.Core/Services/TextChunkerService.cs:52 | the trimmed text is a slice of the input with only white space before and after it |
| Text.TrimUnique | YouTubeRAGChatbot.Core/Services/TextChunkerService.cs:52 | any slice with only white space around it and non-white-space ends is the trimmed text, so `Trim` is the one such slice |
| Text.TrimIdempotent | YouTubeRAGChatbot.Core/Services/TextChunkerService.cs:52 | trimming trimmed text changes nothing |
| Text.TrimSpace | YouTubeRAGChatbot.Core/Services/TranscriptFetcherService.cs:77-80 | the trailing space the caption loop appends does not survive `Trim` |
| Text.IndexOf | transcript_fetcher.py:31-33 | finds an occurrence exactly when the text contains the pattern, and it is the first one |
| Text.Before | transcript_fetcher.py:33 | `split(sep)[0]` is a prefix without `sep`, followed in the text by `sep` unless it is the whole text |
| Text.After | transcript_fetcher.py:33 | the text is the part before `sep`, then `sep`, then the result |
| Text.Split | YouTubeRAGChatbot.Core/Services/TranscriptFetcherService.cs:173 | at least one part, no part holds the separator, and joining the parts with it gives the text back |
| Text.SplitJoin | rag_chatbot.py:150 | splitting a join on a character that no part contains gives the parts back |
| Text.JoinAppend | transcript_fetcher.py:55 | joining two non-empty lists puts one separator between the two joins |
| Text.IntToStringRoundTrip | rag_chatbot.py:146 | interpolating an integer renders its decimal digits, which parse back to it |
| DotNetSearch.LastIndexOfOrdinal | YouTubeRAGChatbot.Core/Services/TextChunkerService.cs:35 | throws ArgumentOutOfRange exactly for a bad start or count; otherwise gives the last ". " lying wholly in the searched window, or -1 |
| DotNetSearch.LastIndexOfChar | YouTubeRAGChatbot.Core/Services/TextChunkerService.cs:43 | throws ArgumentOutOfRange exactly for a bad start or count; otherwise gives the last space in the window, or -1 |
| Chunker.WindowEnd | YouTubeRAGChatbot.Core/Services/TextChunkerService.cs:29-49 | the window end throws exactly when `start + chunkSize` overflows, the size is negative, or the size is zero at start 0. Otherwise it lies in `[start, start + chunkSize]`, past `start` for a positive size, and at the text end when the window reaches it |
| Chunker.WindowEndBreaks | YouTubeRAGChatbot.Core/Services/TextChunkerService.cs:32-49 | a window inside the text ends after its last ". " within the last 100 positions, else at its last space within the last 50, else mid-word |
| Chunker.WindowEndAtPeriod | YouTubeRAGChatbot.Core/Services/TextChunkerService.cs:35-39 | a window inside the text with a ". " past its start among its last 100 positions ends just after the last such ". " |
| Chunker.WindowEndAtSpace | YouTubeRAGChatbot.Core/Services/TextChunkerService.cs:40-48 | failing a ". ", a window with a space past its start among its last 50 positions ends at the last such space |
| Chunker.WindowEndMidWord | YouTubeRAGChatbot.Core/Services/TextChunkerService.cs:29-48 | a window with neither break ends at `start + chunkSize`, mid-word |
| Chunker.ChunkMetadata | YouTubeRAGChatbot.Core/Services/TextChunkerService.cs:61-67 | a chunk's metadata holds exactly video_id, chunk_id, start_position and end_position |
| Chunker.Emit | YouTubeRAGChatbot.Core/Services/TextChunkerService.cs:52-71 | a blank window changes nothing; a non-blank one appends its trimmed text under the next index |
| Chunker.NextStart | YouTubeRAGChatbot.Core/Services/TextChunkerService.cs:73-80 | the code's rule moves back `overlap` from the window end when that lands strictly inside the text, and otherwise goes to the window end; the corrected rule also demands landing past the previous start, so it always moves right |
| Chunker.Step | YouTubeRAGChatbot.Core/Services/TextChunkerService.cs:26-80 | one loop iteration throws exactly when the window end throws; otherwise it emits the window `WindowEnd` gives and resumes where `NextStart` says, moving right under the corrected rule |
| Chunker.AsWrittenNextInside | YouTubeRAGChatbot.Core/Services/TextChunkerService.cs:74-80 | with `0 < overlap < length` the code's rule never sets the start to the text length |
| Chunker.AsWrittenStepStaysInside | YouTubeRAGChatbot.Core/Services/TextChunkerService.cs:26-80 | with `0 < overlap < length` every completed iteration leaves the loop condition true |
| Chunker.AsWrittenIteration | YouTubeRAGChatbot.Core/Services/TextChunkerService.cs:26-80 | with `0 < overlap < length`, one iteration of the code's loop from inside the text either throws or lands inside the text again; without overflow it never throws |
| Chunker.RunAsWrittenNeverFinishes | YouTubeRAGChatbot.Core/Services/TextChunkerService.cs:26-81 | from inside the text the code's loop never exits normally, whatever the number of iterations allowed |
| Chunker.RunAsWrittenKeepsRunning | YouTubeRAGChatbot.Core/Services/TextChunkerService.cs:26-81 | when no `start + chunkSize` can overflow, the code's loop neither exits nor throws: it is still running after any number of iterations |
| Chunker.RunAsWritten | YouTubeRAGChatbot.Core/Services/TextChunkerService.cs:26-81 | the code's loop, run for a bounded number of iterations, keeps the chunks so far, throws only ArgumentOutOfRange, and when still running stands inside the text |
| Chunker.ChunkTextAsWritten | YouTubeRAGChatbot.Core/Services/TextChunkerService.cs:14-84 | the code's `ChunkText`: blank text gives no chunks, only ArgumentOutOfRange is thrown, and a non-positive size throws at the first iteration |
| Chunker.ChunkTextAsWrittenDiverges | YouTubeRAGChatbot.Core/Services/TextChunkerService.cs:14-84 | for non-blank text and `0 < overlap < length`, `ChunkText` as written never returns |
| Chunker.DefaultSettingsDiverge | YouTubeRAGChatbot.Core/Services/TextChunkerService.cs:14 | with the default 1000/200 every non-blank text longer than 200 characters hangs |
| Chunker.WindowEndAtTail | YouTubeRAGChatbot.Core/Services/TextChunkerService.cs:29-32 | a window that reaches past the text ends at the text end, without a boundary search |
| Chunker.TailIsFixedPoint | YouTubeRAGChatbot.Core/Services/TextChunkerService.cs:29-80 | at start `length - overlap` the code's loop steps back to the same start |
| Chunker.TailStep | YouTubeRAGChatbot.Core/Services/TextChunkerService.cs:52-80 | one iteration at the tail keeps the start; unless the tail is blank it adds the trimmed tail window once more, under the next number and with the tail's positions |
| Chunker.TailRepeats | YouTubeRAGChatbot.Core/Services/TextChunkerService.cs:26-81 | at the tail, `n` further iterations stay there and add `n` copies of the trimmed tail window, numbered on from the chunks so far (none for a blank tail) |
| Chunker.CopiesAt | YouTubeRAGChatbot.Core/Services/TextChunkerService.cs:54-71 | copy `j` of the repeated tail chunk carries the number `index + j` |
| Chunker.EmitKeepsNumbering | YouTubeRAGChatbot.Core/Services/TextChunkerService.cs:52-71 | emitting a window keeps the chunks numbered 0, 1, 2, ... with strictly increasing starts |
| Chunker.EmitSpansWindow | YouTubeRAGChatbot.Core/Services/TextChunkerService.cs:52-71 | a window holding a non-white-space character becomes a chunk recording exactly that window |
| Chunker.EmitExtendsCoverage | YouTubeRAGChatbot.Core/Services/TextChunkerService.cs:52-71 | after emitting, every non-white-space character up to the window end lies in some chunk's window |
| Chunker.StepPreservesValid | YouTubeRAGChatbot.Core/Services/TextChunkerService.cs:26-80 | a corrected iteration keeps the loop invariant: numbering, windows ending where `WindowEnd` ends them, increasing starts, coverage up to the start, and each chunk starting where the loop resumed after the previous one |
| Chunker.Run | YouTubeRAGChatbot.Core/Services/TextChunkerService.cs:23-83 | the corrected loop keeps earlier chunks, throws only ArgumentOutOfRange, and succeeds for a positive size without overflow |
| Chunker.RunKeepsValid | YouTubeRAGChatbot.Core/Services/TextChunkerService.cs:26-81 | the corrected loop returns well-numbered chunks whose windows `WindowEnd` ends, each starting where the loop resumed after the previous one or past blank windows only, and for a non-negative overlap they cover every non-white-space character |
| Chunker.ChunkText | YouTubeRAGChatbot.Core/Services/TextChunkerService.cs:14-84 | blank text gives no chunks, a non-positive size throws, and success gives trimmed, numbered, left-to-right chunks whose windows end where `WindowEnd` ends them. Each chunk starts where the corrected rule resumes after the previous window (`overlap` before its end when that is past its start), or past blank windows only, and they miss no text |
| Chunker.NoOverlapStepsAgree | YouTubeRAGChatbot.Core/Services/TextChunkerService.cs:73-80 | with overlap 0 the code's rule and the corrected rule pick the same next start |
| Chunker.RunAgreesWithoutOverlap | YouTubeRAGChatbot.Core/Services/TextChunkerService.cs:26-81 | with overlap 0 the code's loop, given enough iterations, ends exactly as the corrected loop does |
| Chunker.NoOverlapAgrees | YouTubeRAGChatbot.Core/Services/TextChunkerService.cs:14-84 | with overlap 0 the code's `ChunkText` returns or throws exactly what the corrected one does |
| Chunker.Decorate | YouTubeRAGChatbot.Core/Services/TextChunkerService.cs:91-96 | adds title, duration and url to a chunk's metadata and changes nothing else |
| Chunker.ChunkTranscript | YouTubeRAGChatbot.Core/Services/TextChunkerService.cs:86-101 | succeeds exactly when chunking the text does; chunk `i` is plain chunk `i` decorated with the transcript's title, duration and watch URL |
| Chunker.ChunkTranscriptMetadata | YouTubeRAGChatbot.Core/Services/TextChunkerService.cs:86-101 | every transcript chunk keeps its text, number and video and carries the seven metadata keys with their values |
| Chunker.DecoratedChunk | YouTubeRAGChatbot.Core/Services/TextChunkerService.cs:88-96 | decorating a chunk keeps what the chunker recorded |
| Chunker.ChunkMultipleTranscripts | YouTubeRAGChatbot.Core/Services/TextChunkerService.cs:103-116 | succeeds exactly when every transcript chunks successfully |
| Chunker.ChunkMultipleOne | YouTubeRAGChatbot.Core/Services/TextChunkerService.cs:103-116 | a one-transcript list gives exactly that transcript's chunks, or its exception |
| Chunker.ChunkMultipleFirstFailure | YouTubeRAGChatbot.Core/Services/TextChunkerService.cs:103-116 | the first transcript whose chunking throws decides the outcome: its exception propagates, whatever follows it |
| Chunker.ChunkMultipleAppend | YouTubeRAGChatbot.Core/Services/TextChunkerService.cs:103-116 | chunking a list is chunking its halves and concatenating, so each transcript's chunks form one block, in input order |
| Fetcher.TrimStartChar | YouTubeRAGChatbot.Core/Services/TranscriptFetcherService.cs:172 | `TrimStart(c)` drops exactly the leading run of `c` |
| Fetcher.VideoParam | YouTubeRAGChatbot.Core/Services/TranscriptFetcherService.cs:176-180 | a parameter names the video exactly when it splits on `=` into `v` and one value |
| Fetcher.FirstVideoParam | YouTubeRAGChatbot.Core/Services/TranscriptFetcherService.cs:174-181 | finds a value exactly when some parameter is a video parameter, and it is the first one |
| Fetcher.WatchId | YouTubeRAGChatbot.Core/Services/TranscriptFetcherService.cs:169-183 | the ID is the value of the first query parameter that splits on `=` into exactly `v` and one value, so it holds no `&` or `=`; throws "Invalid YouTube URL - no video ID found" exactly when no parameter splits that way (so `?v=a=b` throws) |
| Fetcher.ShortId | YouTubeRAGChatbot.Core/Services/TranscriptFetcherService.cs:184-187 | the short-link ID is the path without its leading slashes, cut at its first `?` (the whole of it when there is none) |
| Fetcher.ExtractVideoId | YouTubeRAGChatbot.Core/Services/TranscriptFetcherService.cs:163-191 | a non-YouTube input is returned as is; a URL that fails to parse throws its exception; a watch link gives `WatchId`, a youtu.be/ link gives `ShortId`, and any other YouTube URL is returned as is |
| Fetcher.VideoParamOfId | YouTubeRAGChatbot.Core/Services/TranscriptFetcherService.cs:176-180 | `v=<id>` is read back as `id` when the ID has no `&` or `=` |
| Fetcher.FirstVideoParamAt | YouTubeRAGChatbot.Core/Services/TranscriptFetcherService.cs:174-181 | the first matching parameter is the one chosen |
| Fetcher.WatchUrlRoundTrip | YouTubeRAGChatbot.Core/Services/TranscriptFetcherService.cs:163-191 | an ID put into a watch URL's query as its first video parameter is extracted again |
| Fetcher.SelectTrack | YouTubeRAGChatbot.Core/Services/TranscriptFetcherService.cs:42-50 | a track is chosen exactly when there is one: the first English track if any, else the first track |
| Fetcher.FirstEnglish | YouTubeRAGChatbot.Core/Services/TranscriptFetcherService.cs:42 | finds the first track whose language code starts with "en", or none when no track does |
| Fetcher.CaptionBufferIsJoin | YouTubeRAGChatbot.Core/Services/TranscriptFetcherService.cs:66-78 | the builder holds the caption texts joined by single spaces, plus one trailing space |
| Fetcher.TranscriptText | YouTubeRAGChatbot.Core/Services/TranscriptFetcherService.cs:66-80 | the stored text is the caption texts joined by spaces, trimmed |
| Fetcher.Segments | YouTubeRAGChatbot.Core/Services/TranscriptFetcherService.cs:68-76 | one segment per caption, in order, with its text, offset and duration |
| Fetcher.FetchTranscript | YouTubeRAGChatbot.Core/Services/TranscriptFetcherService.cs:24-91 | the first failing step (ID extraction, video, manifest, captions) has its exception rethrown as is, and an empty manifest throws "No captions available". When every step succeeds the fetch succeeds, recording the ID, title, duration (zero if unknown), clock reading, segments and trimmed text |
| Fetcher.FetchMultiple | YouTubeRAGChatbot.Core/Services/TranscriptFetcherService.cs:93-116 | the successful fetches in input order: failures are skipped, all successes give all, all failures give none |
| Fetcher.FetchMultipleAppend | YouTubeRAGChatbot.Core/Services/TranscriptFetcherService.cs:93-116 | fetching a list in two parts gives the same transcripts in the same order |
| Ranking.Insert | YouTubeRAGChatbot.Core/Services/VectorDatabaseService.cs:85 | inserting into a sorted list keeps it sorted and adds exactly the one item |
| Ranking.SortDesc | YouTubeRAGChatbot.Core/Services/VectorDatabaseService.cs:85 | `OrderByDescending` gives a permutation, ordered by descending score with ties in source order |
| Ranking.Take | YouTubeRAGChatbot.Core/Services/VectorDatabaseService.cs:86 | `Take(k)` is the prefix of length `min(max(k, 0), n)` |
| Ranking.TakeIsTop | YouTubeRAGChatbot.Core/Services/VectorDatabaseService.cs:85-86 | every item left out ranks after every item taken |
| Ranking.OrderedPermutationUnique | YouTubeRAGChatbot.Core/Services/VectorDatabaseService.cs:85 | a stable descending sort has exactly one possible result |
| Ranking.SortDescOfNumbered | YouTubeRAGChatbot.Core/Services/VectorDatabaseService.cs:80-85 | sorting the scored records keeps each one paired with its place in the store, and no place twice |
| VectorStore.Count | YouTubeRAGChatbot.Core/Services/VectorDatabaseService.cs:131-134 | the chunk count is the number of stored records; a successful `AddChunks` raises it by the number of chunks |
| VectorStore.Initialize | YouTubeRAGChatbot.Core/Services/VectorDatabaseService.cs:34-39 | initializing empties the store |
| VectorStore.CosineSimilarity | YouTubeRAGChatbot.Core/Services/VectorDatabaseService.cs:136-163 | throws exactly for vectors of different lengths; otherwise the dot product over the product of the magnitudes, 0 when either is 0 |
| VectorStore.SimilaritySymmetric | YouTubeRAGChatbot.Core/Services/HuggingFaceVectorDatabaseService.cs:114-141 | the score does not depend on which vector is the query |
| VectorStore.ZeroVectorScoresZero | YouTubeRAGChatbot.Core/Services/VectorDatabaseService.cs:154-160 | an all-zero vector scores 0 against anything |
| VectorStore.SelfSimilarityIsOne | YouTubeRAGChatbot.Core/Services/VectorDatabaseService.cs:143-162 | a vector of non-zero magnitude scores exactly 1 against itself |
| VectorStore.AddChunks | YouTubeRAGChatbot.Core/Services/VectorDatabaseService.cs:41-52 | appends one record per chunk, in order, with that chunk's embedding. It succeeds exactly when every embedding does; a failure propagates and keeps the records added before it |
| VectorStore.QueryFailure | YouTubeRAGChatbot.Core/Services/VectorDatabaseService.cs:65-77 | the OpenAI store wraps only network errors in its advice message; the Hugging Face store wraps every error |
| VectorStore.ScoreAll | YouTubeRAGChatbot.Core/Services/VectorDatabaseService.cs:80-84 | each record scored against the query, numbered by its place in the store |
| VectorStore.Search | YouTubeRAGChatbot.Core/Services/VectorDatabaseService.cs:54-90 | an empty store gives no hits and embeds nothing, and a failed query embedding surfaces per store. A length mismatch throws exactly when `topK > 0`; success gives `min(max(topK, 0), n)` hits |
| VectorStore.SearchHits | YouTubeRAGChatbot.Core/Services/HuggingFaceVectorDatabaseService.cs:36-68 | the hits are distinct stored records with their true scores, best first, ties in store order |
| VectorStore.SearchReturnsBest | YouTubeRAGChatbot.Core/Services/VectorDatabaseService.cs:80-87 | no record left out scores higher than a hit or wins a tie against one |
| VectorStore.SnapshotPath | YouTubeRAGChatbot.Core/Services/VectorDatabaseService.cs:103 | the snapshot path is the directory, one `/` unless it already ends in one, and `vectordb.json`; the bare name for an empty directory |
| VectorStore.Save | YouTubeRAGChatbot.Core/Services/VectorDatabaseService.cs:92-107 | writes every record to the snapshot file, changes no other file, and throws for the empty directory |
| VectorStore.Load | YouTubeRAGChatbot.Core/Services/VectorDatabaseService.cs:109-129 | a missing file throws FileNotFound and a `null` snapshot keeps the store; otherwise the snapshot's records replace the store |
| VectorStore.LoadAfterSave | YouTubeRAGChatbot.Core/Services/HuggingFaceVectorDatabaseService.cs:70-107 | loading what was just saved, into any store, gives the saved store back |
| VectorStore.SaveOverwrites | YouTubeRAGChatbot.Core/Services/VectorDatabaseService.cs:92-107 | a second save to the same directory replaces the first |
| VectorStore.SearchAfterReload | YouTubeRAGChatbot.Core/Services/VectorDatabaseService.cs:54-129 | a reloaded store answers every query as the saved one did |
| Orchestrator.DefaultOpenAIConfig | YouTubeRAGChatbot.Core/Services/RAGChatbotService.cs:22-41 | the OpenAI service defaults to gpt-3.5-turbo at temperature 0.3 |
| Orchestrator.DefaultHuggingFaceConfig | YouTubeRAGChatbot.Core/Services/HuggingFaceRAGChatbotService.cs:13-23 | the Hugging Face service defaults to temperature 0.7 and 1000 tokens |
| Orchestrator.Context | YouTubeRAGChatbot.Core/Services/RAGChatbotService.cs:57-63 | no hits give an empty context; otherwise it starts with the best hit's entry |
| Orchestrator.ContextAppend | YouTubeRAGChatbot.Core/Services/HuggingFaceRAGChatbotService.cs:39-45 | the context of a list is the contexts of its parts, one after the other |
| Orchestrator.ContextEntries | YouTubeRAGChatbot.Core/Services/RAGChatbotService.cs:57-63 | hit `i`'s entry stands between the entries of the hits before and after it |
| Orchestrator.Prompt | YouTubeRAGChatbot.Core/Services/RAGChatbotService.cs:66-80 | the prompt opens with the grounding instruction and the context header, and closes with the answering rules and `Answer:` |
| Orchestrator.InstructionPrompt | YouTubeRAGChatbot.Core/Services/HuggingFaceRAGChatbotService.cs:48-62 | the Hugging Face prompt is the OpenAI prompt between `<s>[INST] ` and ` [/INST]`, and nothing else |
| Orchestrator.PromptEmbeds | YouTubeRAGChatbot.Core/Services/RAGChatbotService.cs:66-80 | the prompt holds the context and the question verbatim, at known places between the fixed instructions |
| Orchestrator.Snippet | YouTubeRAGChatbot.Core/Services/RAGChatbotService.cs:110-112 | content of at most 200 characters is cited whole; longer content is cut to its first 200 characters plus "..." |
| Orchestrator.Sources | YouTubeRAGChatbot.Core/Services/RAGChatbotService.cs:106-114 | one reference per hit, in rank order, with the hit's video, index and score, and as content the hit's text when it has at most 200 characters, else its first 200 characters and "..." |
| Orchestrator.OpenAIFailure | YouTubeRAGChatbot.Core/Services/RAGChatbotService.cs:86-103 | a failed completion is rethrown with the network advice for HttpRequestException and the general advice otherwise, keeping the cause |
| Orchestrator.HuggingFaceFailure | YouTubeRAGChatbot.Core/Services/HuggingFaceRAGChatbotService.cs:64-72 | a failed completion is rethrown with "Error calling Hugging Face API: ", keeping the cause |
| Orchestrator.FallbackResponse | YouTubeRAGChatbot.Core/Services/RAGChatbotService.cs:48-55 | the fallback answer carries no sources |
| Orchestrator.AskOpenAI | YouTubeRAGChatbot.Core/Services/RAGChatbotService.cs:43-121 | searches for 4 first. No hits answer the fallback without calling the model; otherwise the model gets the prompt at the configured temperature and 1000 tokens, a null reply is the empty answer, and sources follow rank |
| Orchestrator.AskHuggingFace | YouTubeRAGChatbot.Core/Services/HuggingFaceRAGChatbotService.cs:25-90 | the same flow with the instruction prompt and the configured token limit |
| Orchestrator.AskOpenAICallsModelOnlyWithContext | YouTubeRAGChatbot.Core/Services/RAGChatbotService.cs:46-103 | the model is called exactly when the search found something, and the answer fails exactly when the search or the model did |
| Orchestrator.AskHuggingFaceCallsModelOnlyWithContext | YouTubeRAGChatbot.Core/Services/HuggingFaceRAGChatbotService.cs:28-72 | the same for the Hugging Face service |
| Orchestrator.AskCitesBestRecords | YouTubeRAGChatbot.Core/Services/HuggingFaceRAGChatbotService.cs:28 | over the real store, the cited sources are at most 4 distinct stored records, each with its record's video and index, in descending score order |
| Orchestrator.NumberedBlock | YouTubeRAGChatbot.Core/Services/RAGChatbotService.cs:137-143 | the citations start with the first source under the first number |
| Orchestrator.NumberedBlockAppend | YouTubeRAGChatbot.Core/Services/HuggingFaceRAGChatbotService.cs:106-112 | numbering runs on across a split of the source list |
| Orchestrator.SourceNumbered | YouTubeRAGChatbot.Core/Services/RAGChatbotService.cs:137-143 | source `k` is cited under number `k + 1`, between the sources before and after it |
| Orchestrator.ChatText | YouTubeRAGChatbot.Core/Services/RAGChatbotService.cs:127-145 | the bare answer when sources are excluded or absent; else the answer, an empty line, the header and the numbered citations |
| Orchestrator.ChatOpenAI | YouTubeRAGChatbot.Core/Services/RAGChatbotService.cs:123-146 | chatting propagates the ask's failure and formats its answer under the mojibake header |
| Orchestrator.ChatHuggingFace | YouTubeRAGChatbot.Core/Services/HuggingFaceRAGChatbotService.cs:92-115 | chatting propagates the ask's failure and formats its answer under the U+1F4DA header |
| Orchestrator.ChatFallbackIsBare | YouTubeRAGChatbot.Core/Services/HuggingFaceRAGChatbotService.cs:30-37 | with nothing retrieved, chatting answers the fallback text alone |
| PyFetcher.ExtractVideoId | transcript_fetcher.py:20-36 | a YouTube URL with `v=` gives exactly the text after the first `v=`, cut at the first `&` or the next `v=` after it; else a youtu.be link gives the text after the first `youtu.be/`, cut at the first `?` or the next `youtu.be/`; anything else is returned as is; the result always occurs in the URL |
| PyFetcher.WatchUrlRoundTrip | transcript_fetcher.py:20-36 | an ID without `&` or `v=` is recovered from its watch URL |
| PyFetcher.EndOfLast | transcript_fetcher.py:62 | the duration is the last segment's start plus its length, or 0 without segments |
| PyFetcher.FetchFailure | transcript_fetcher.py:72-77 | disabled transcripts, missing transcripts and other errors are re-raised with their three messages |
| PyFetcher.FetchTranscript | transcript_fetcher.py:38-77 | succeeds exactly when the API does: the text is the entries joined by spaces, with the segments and the metadata of lines 58-63 |
| PyFetcher.TranscriptMatchesService | YouTubeRAGChatbot.Core/Services/TranscriptFetcherService.cs:77-80 | the C# service's text is the Python transcript, trimmed |
| PyFetcher.FetchedUrlNamesVideo | transcript_fetcher.py:58-63 | the recorded URL leads back to the fetched video |
| PyChunker.BaseOf | text_chunker.py:37-38 | missing metadata becomes the empty dictionary |
| PyChunker.Decorate | text_chunker.py:46-48 | each copy gains chunk_id and chunk_total and keeps every other caller key |
| PyChunker.ChunkText | text_chunker.py:26-55 | one document per split piece, in order, with the caller's metadata plus its 0-based id and the total |
| PyChunker.CallerMetadataKept | text_chunker.py:46 | removing the two chunk keys gives the caller's dictionary back |
| PyChunker.TranscriptMetadata | text_chunker.py:68-72 | a transcript's metadata is its video ID, "YouTube: " label and watch URL |
| PyChunker.ChunkTranscript | text_chunker.py:57-74 | every document carries the video's ID, label and URL, its piece, its id and the total |
| PyChunker.ChunkUrlNamesVideo | text_chunker.py:68-72 | the URL a chunk carries extracts to its video_id |
| PyChunker.VideoIdOf | text_chunker.py:89 | a missing video_id reads as "unknown" |
| PyChunker.ChunkEntry | text_chunker.py:88-95 | an entry without a non-empty transcript adds nothing; otherwise it adds its transcript's documents |
| PyChunker.ChunkMultipleTranscripts | text_chunker.py:76-98 | every document comes from a kept entry, and no kept entry gives no documents |
| PyChunker.ChunkMultipleAppend | text_chunker.py:76-98 | chunking a list is chunking its halves, concatenated |
| PyChunker.SkippedEntryAddsNothing | text_chunker.py:92 | an entry without a transcript changes nothing wherever it stands |
| PyChunker.KeptEntryChunks | text_chunker.py:89-94 | a kept entry contributes exactly `chunk_transcript` of its text |
| PyChatbot.ProviderOf | rag_chatbot.py:28-39 | only "openai" and "gemini" are accepted; anything else raises the ValueError message |
| PyChatbot.Get | rag_chatbot.py:142-144 | `get` returns the stored value, printed, or the default |
| PyChatbot.DocLines | rag_chatbot.py:142-148 | a source gives its numbered line, then its URL line when it has a URL |
| PyChatbot.SourceLinesAppend | rag_chatbot.py:141-148 | the listing of a list continues the listing of its first part, numbers included |
| PyChatbot.FormatSources | rag_chatbot.py:135-150 | no documents give "No sources found"; otherwise the listing starts with source 1's line and is never empty |
| PyChatbot.SourcesReadBack | rag_chatbot.py:140-150 | split at newlines, the listing gives every source's lines back, in order |
| PyChatbot.GeminiContext | rag_chatbot.py:103-107 | no documents give an empty context; otherwise it starts with the first document's entry |
| PyChatbot.GeminiContextAppend | rag_chatbot.py:104-107 | the context of a list is its parts' contexts a blank line apart |
| PyChatbot.GeminiPrompt | rag_chatbot.py:109-124 | the prompt holds the context and the question verbatim, at the places the C# prompt does |
| PyChatbot.AskOpenAI | rag_chatbot.py:88-96 | the chain's answer and documents, with their formatted listing; the chain's failure propagates |
| PyChatbot.AskGemini | rag_chatbot.py:98-133 | searches for 4, asks the model with the prompt of those documents, and returns its text with the documents and their listing |
| PyChatbot.GeminiAnswersWithoutSources | rag_chatbot.py:98-138 | with no documents the model is still asked, and the listing says "No sources found" |
| PyChatbot.Ask | rag_chatbot.py:73-86 | dispatches on the provider, and an answer's listing is always that of its documents |
| PyChatbot.ChatText | rag_chatbot.py:165-170 | the answer alone unless verbose with sources; then the answer, a blank line, the header and the listing |
| PyChatbot.Chat | rag_chatbot.py:152-170 | fails exactly when the ask fails, and otherwise starts with its answer |
| PyChatbot.ChatAppendsSourcesExactlyWhenVerbose | rag_chatbot.py:167-168 | a verbose chat always appends the sources block, since the listing is never empty |

## Left out

- Network clients are not modelled. These are YoutubeExplode, youtube_transcript_api, the OpenAI and Hugging Face embedding and completion services, Gemini, and LangChain's `RetrievalQA` chain and `RecursiveCharacterTextSplitter`. Each is a parameter that returns a value or an exception, because their behaviour is outside this code.
- `System.Uri` parsing is not modelled. `new Uri(...)` is an input: its `Query` and `AbsolutePath`, or its exception, because URI grammar is a library's concern.
- JSON is not modelled: the serialised form of `vectordb.json` and of the `JsonElement` metadata a loaded chunk carries. A snapshot is an abstract file value (records, `null`, or malformed), since the encoding is the serializer's.
- Floating point is not modelled. Embeddings and scores are exact reals, and `Math.Sqrt`, the `{score:F3}` formatting and `TimeSpan.ToString()` are parameters. `float`/`double` rounding is not represented.
- Transcript file I/O is not modelled: `SaveTranscriptAsync` and `LoadTranscriptAsync` in C#, and `save_transcript`, `fetch_and_save`, `load_transcript`, `load_all_transcripts` and `chunk_from_files` in Python. They only move the modelled values to and from disk.
- Async execution, console logging, configuration loading (`AppSettings.cs`, `config.py`) and the console, web and Streamlit front ends are not part of this model.
- The Python vector store (`vector_database.py`) is not part of this model; `rag_chatbot.py` reaches it only through `search` and the retrieval chain.
- C# strings are taken as non-null. `string.IsNullOrWhiteSpace(null)` at `TextChunkerService.cs:18` returns an empty list, and a null text is not represented.
- VectorStore.SnapshotPath: models `Path.Combine` with the Unix separator `/` only. On Windows the separator is `\`, and a directory already ending in `\` gets no further separator.
- Chunker.RunAsWritten: runs the code's loop for a given number of iterations (fuel). This is how a loop that never exits is stated, and `ChunkTextAsWrittenDiverges` holds for every amount of fuel.
- Chunker.ChunkTranscript: decorates the chunks of the corrected `ChunkText`. With `0 < overlap < length` the code's own `ChunkText` never returns (`Chunker.ChunkTextAsWrittenDiverges`), so in the code this method hangs on those inputs.
- Chunker.ChunkMultipleTranscripts: built on the corrected `ChunkTranscript`. In the code it hangs at the first transcript whose chunking hangs (see `Chunker.ChunkTextAsWrittenDiverges`).
- Text lengths are counted in Unicode code points, since a Dafny `string` is a sequence of `char`s. .NET counts UTF-16 code units, so for text outside the Basic Multilingual Plane `Length`, the window positions and `start_position`/`end_position` differ. `Substring(0, 200)` in `RAGChatbotService.cs:110-112` can also split a surrogate pair, which the model cannot express.
- Fetcher.SelectTrack: `IsEnglish` compares the language code's first two characters with "en" ordinally. The code's `StartsWith("en")` is culture-sensitive, which differs only under unusual cultures.
- VectorStore.SelfSimilarityIsOne: requires the magnitude to be non-zero, as the code's own zero check does. A zero vector scores 0 (`ZeroVectorScoresZero`).
- PyChunker.TranscriptEntry: models only the two keys `chunk_multiple_transcripts` reads, as optional strings; other dictionary values are not represented.
- PyChunker.ChunkMultipleTranscripts: states where each document comes from and the split into halves, but not the document count per entry in one formula; `ChunkMultipleAppend` and `KeptEntryChunks` together give it.

## Findings

| source | as written | input that shows it | evidently intended | confidence | as-written member | corrected member |
|---|---|---|---|---|---|---|
| YouTubeRAGChatbot.Core/Services/TextChunkerService.cs:74-80 | the next start is `endIndex - overlap`, reset to `endIndex` only when it is `<= 0` or `>= text.Length`. Once a window reaches the text end, the next start is `length - overlap`, which is inside the text, so the loop re-emits the tail forever | any non-blank text with `0 < overlap < length`, e.g. 300 letters with the default chunk size 1000 and overlap 200 | move the next start past the previous start, falling back to `endIndex`, so that the loop terminates | not executed | Chunker.ChunkTextAsWrittenDiverges | Chunker.ChunkText |

=== FILE: chunker.dfy ===
/**
 * TextChunkerService (YouTubeRAGChatbot.Core/Services/TextChunkerService.cs).
 *
 * `ChunkText` walks the text in windows of at most `chunkSize` characters,
 * pulls a window's end back to a ". " or a space near its end, trims each
 * window, numbers the non-blank ones, and starts the next window `overlap`
 * characters before the end of the last one.
 *
 * The loop body is `Step`, a pure function on `ChunkState`. The source picks
 * the next start with the rule `AsWritten` (reset to the window end only when
 * `end - overlap` is <= 0 or >= the text length). With `0 < overlap < |text|`
 * that loop can never exit (`ChunkTextAsWrittenDiverges`), so the as-written
 * loop is run on fuel (`RunAsWritten`). The `Corrected` rule resets the start
 * whenever `end - overlap` does not move past the previous start; with it the
 * loop terminates (`Run`, `ChunkText`), and it agrees with the source whenever
 * `overlap == 0` (`NoOverlapAgrees`).
 */
module Chunker {
  import opened Common
  import opened Text
  import opened DotNetSearch
  import opened Models

  const DEFAULT_CHUNK_SIZE: Int32 := 1000
  const DEFAULT_OVERLAP: Int32 := 200

  /** How far back from a window's end a ". " and a space are looked for. */
  const SENTENCE_LOOKBACK: int := 100
  const WORD_LOOKBACK: int := 50

  /** Loop variables of ChunkText: the window start, the next index, the chunks so far. */
  datatype ChunkState = ChunkState(start: int, chunkIndex: nat, emitted: seq<TextChunk>)

  const INITIAL_STATE: ChunkState := ChunkState(0, 0, [])

  /** Which rule picks the next window start. */
  datatype ProgressRule = AsWritten | Corrected

  /** No ". " lies wholly inside `text[lo..hi]`. */
  ghost predicate NoSentenceBreak(text: string, lo: int, hi: int) {
    forall p :: lo <= p && p + 2 <= hi ==> !OccursAt(text, ". ", p)
  }

  /** No space lies in `text[lo..hi]`. */
  ghost predicate NoSpace(text: string, lo: int, hi: int)
    requires 0 <= lo && hi <= |text|
  {
    forall p :: lo <= p < hi ==> text[p] != ' '
  }

  /**
   * The end of the window that starts at `start` (lines 29-49). The searches
   * throw for `chunkSize <= 0` or a 32-bit overflow of `start + chunkSize`;
   * `chunkSize == 0` only throws at `start == 0`. Where the window reaches
   * past the text, it ends with the text; the break points inside the text
   * are stated by `WindowEndBreaks`.
   */
  function WindowEnd(text: string, chunkSize: Int32, start: int): (r: Result<int, Exception>)
    requires 0 <= start < |text| <= INT32_MAX
    ensures r.Err? <==> start + chunkSize > INT32_MAX || chunkSize < 0 || (chunkSize == 0 && start == 0)
    ensures r.Err? ==> r.error.kind.ArgumentOutOfRange?
    ensures r.Ok? ==> start <= r.value <= |text| && r.value <= start + chunkSize
    ensures r.Ok? && chunkSize > 0 ==> start < r.value
    ensures chunkSize > 0 && start + chunkSize >= |text| && r.Ok? ==> r.value == |text|
  {
    var cand := Min(Wrap32(start + chunkSize), |text|);
    if cand < |text| then
      var count := Wrap32(cand - start);
      var lastPeriod :- LastIndexOfOrdinal(text, ". ", cand, Min(count, SENTENCE_LOOKBACK));
      if lastPeriod > start then
        Ok(lastPeriod + 1)
      else
        var lastSpace :- LastIndexOfChar(text, ' ', Wrap32(cand - 1), Min(count, WORD_LOOKBACK));
        if lastSpace > start then Ok(lastSpace) else Ok(cand)
    else
      Ok(cand)
  }

  /**
   * Where a window inside the text ends: just after the last ". " among its
   * final min(chunkSize, 100) positions (the pair may end on the candidate end
   * itself); failing that, at the last space after `start` among its final
   * min(chunkSize, 50) positions; failing that, at `start + chunkSize`.
   */
  lemma WindowEndBreaks(text: string, chunkSize: Int32, start: int)
    requires 0 <= start < |text| <= INT32_MAX
    requires chunkSize > 0 && start + chunkSize < |text|
    ensures var r := WindowEnd(text, chunkSize, start);
      var cand := start + chunkSize;
      var periodLo := cand - Min(chunkSize, SENTENCE_LOOKBACK) + 1;
      var spaceLo := Max(cand - Min(chunkSize, WORD_LOOKBACK), start + 1);
      && r.Ok?
      && (!NoSentenceBreak(text, Max(periodLo, start + 1), cand + 1) ==>
            periodLo <= r.value - 1 && OccursAt(text, ". ", r.value - 1) && NoSentenceBreak(text, r.value, cand + 1))
      && (NoSentenceBreak(text, Max(periodLo, start + 1), cand + 1) && !NoSpace(text, spaceLo, cand) ==>
            spaceLo <= r.value < cand && text[r.value] == ' ' && NoSpace(text, r.value + 1, cand))
      && (NoSentenceBreak(text, Max(periodLo, start + 1), cand + 1) && NoSpace(text, spaceLo, cand) ==> r.value == cand)
  {
    var cand := start + chunkSize;
    var periodLo := cand - Min(chunkSize, SENTENCE_LOOKBACK) + 1;
    var spaceLo := Max(cand - Min(chunkSize, WORD_LOOKBACK), start + 1);
    if !NoSentenceBreak(text, Max(periodLo, start + 1), cand + 1) {
      WindowEndAtPeriod(text, chunkSize, start);
    } else if !NoSpace(text, spaceLo, cand) {
      WindowEndAtSpace(text, chunkSize, start);
    } else {
      WindowEndMidWord(text, chunkSize, start);
    }
  }

  /** A window with a ". " among its final positions ends just after the last one. */
  lemma WindowEndAtPeriod(text: string, chunkSize: Int32, start: int)
    requires 0 <= start < |text| <= INT32_MAX
    requires chunkSize > 0 && start + chunkSize < |text|
    requires !NoSentenceBreak(text, Max(start + chunkSize - Min(chunkSize, SENTENCE_LOOKBACK) + 1, start + 1), start + chunkSize + 1)
    ensures var r := WindowEnd(text, chunkSize, start);
      && r.Ok? && start + chunkSize - Min(chunkSize, SENTENCE_LOOKBACK) + 1 <= r.value - 1
      && OccursAt(text, ". ", r.value - 1) && NoSentenceBreak(text, r.value, start + chunkSize + 1)
  {
  }

  /** Failing a ". ", a window with a space among its final positions ends at the last one. */
  lemma WindowEndAtSpace(text: string, chunkSize: Int32, start: int)
    requires 0 <= start < |text| <= INT32_MAX
    requires chunkSize > 0 && start + chunkSize < |text|
    requires NoSentenceBreak(text, Max(start + chunkSize - Min(chunkSize, SENTENCE_LOOKBACK) + 1, start + 1), start + chunkSize + 1)
    requires !NoSpace(text, Max(start + chunkSize - Min(chunkSize, WORD_LOOKBACK), start + 1), start + chunkSize)
    ensures var r := WindowEnd(text, chunkSize, start);
      && r.Ok? && Max(start + chunkSize - Min(chunkSize, WORD_LOOKBACK), start + 1) <= r.value < start + chunkSize
      && text[r.value] == ' ' && NoSpace(text, r.value + 1, start + chunkSize)
  {
  }

  /** A window with neither break among its final positions ends mid-word, at full size. */
  lemma WindowEndMidWord(text: string, chunkSize: Int32, start: int)
    requires 0 <= start < |text| <= INT32_MAX
    requires chunkSize > 0 && start + chunkSize < |text|
    requires NoSentenceBreak(text, Max(start + chunkSize - Min(chunkSize, SENTENCE_LOOKBACK) + 1, start + 1), start + chunkSize + 1)
    requires NoSpace(text, Max(start + chunkSize - Min(chunkSize, WORD_LOOKBACK), start + 1), start + chunkSize)
    ensures WindowEnd(text, chunkSize, start) == Ok(start + chunkSize)
  {
  }

  /** The metadata a chunk is created with (lines 61-67). */
  function ChunkMetadata(videoId: string, index: int, start: int, end: int): (m: Metadata)
    ensures m.Keys == {"video_id", "chunk_id", "start_position", "end_position"}
    ensures m["video_id"] == MetaString(videoId) && m["chunk_id"] == MetaInt(index)
    ensures m["start_position"] == MetaInt(start) && m["end_position"] == MetaInt(end)
  {
    map["video_id" := MetaString(videoId), "chunk_id" := MetaInt(index),
        "start_position" := MetaInt(start), "end_position" := MetaInt(end)]
  }

  /** The window offsets a chunk's metadata records (0 when absent). */
  function StartOf(c: TextChunk): int {
    if "start_position" in c.metadata && c.metadata["start_position"].MetaInt? then c.metadata["start_position"].number else 0
  }

  function EndOf(c: TextChunk): int {
    if "end_position" in c.metadata && c.metadata["end_position"].MetaInt? then c.metadata["end_position"].number else 0
  }

  /**
   * Lines 52-71: the window `text[st.start..end]`, trimmed, becomes the next
   * numbered chunk unless it is blank; a blank window uses up no index.
   */
  function Emit(text: string, videoId: string, st: ChunkState, end: int): (r: ChunkState)
    requires 0 <= st.start <= end <= |text|
    ensures r.start == st.start
    ensures AllWhite(text[st.start..end]) ==> r == st
    ensures !AllWhite(text[st.start..end]) ==>
      && r.chunkIndex == st.chunkIndex + 1
      && |r.emitted| == |st.emitted| + 1 && r.emitted[..|st.emitted|] == st.emitted
      && var c := r.emitted[|st.emitted|];
         c.content == Trim(text[st.start..end]) && c.content != [] && c.chunkIndex == st.chunkIndex
         && c.videoId == videoId && c.metadata == ChunkMetadata(videoId, st.chunkIndex, st.start, end)
  {
    var content := Trim(text[st.start..end]);
    if AllWhite(content) then
      st
    else
      var c := TextChunk(content, ChunkMetadata(videoId, st.chunkIndex, st.start, end), st.chunkIndex, videoId);
      st.(chunkIndex := st.chunkIndex + 1, emitted := st.emitted + [c])
  }

  /**
   * Lines 74-80 (`AsWritten`) and the progress-forcing variant (`Corrected`).
   * The code computes `end - overlap` in 32 bits; the ensures state the
   * outcome in exact arithmetic, since a sum that wraps is negative and so
   * falls back to `end` just as the exact sum, beyond the text, does.
   */
  function NextStart(rule: ProgressRule, text: string, start: int, end: int, overlap: Int32): (next: int)
    requires 0 <= start <= end <= |text| <= INT32_MAX
    ensures 0 <= next <= |text|
    ensures rule.Corrected? && start < end ==> start < next
    ensures overlap >= 0 ==> next <= end
    ensures rule.AsWritten? ==> next == if 0 < end - overlap < |text| then end - overlap else end
    ensures rule.Corrected? ==> next == if start < end - overlap < |text| then end - overlap else end
  {
    var candidate := Wrap32(end - overlap);
    match rule
    case AsWritten => if candidate <= 0 || candidate >= |text| then end else candidate
    case Corrected => if candidate <= start || candidate >= |text| then end else candidate
  }

  /** One iteration of the `while (startIndex < text.Length)` loop. */
  function Step(rule: ProgressRule, text: string, videoId: string, chunkSize: Int32, overlap: Int32, st: ChunkState)
    : (r: Result<ChunkState, Exception>)
    requires 0 <= st.start < |text| <= INT32_MAX
    ensures r.Ok? ==> 0 <= r.value.start <= |text| && st.emitted <= r.value.emitted
    ensures r.Ok? && rule.Corrected? && chunkSize > 0 ==> st.start < r.value.start
    ensures r.Err? <==> WindowEnd(text, chunkSize, st.start).Err?
    ensures r.Ok? ==> var end := WindowEnd(text, chunkSize, st.start).value;
      && r.value.start == NextStart(rule, text, st.start, end, overlap)
      && r.value.emitted == Emit(text, videoId, st, end).emitted
      && r.value.chunkIndex == Emit(text, videoId, st, end).chunkIndex
  {
    var end :- WindowEnd(text, chunkSize, st.start);
    var emitted := Emit(text, videoId, st, end);
    Ok(emitted.(start := NextStart(rule, text, st.start, end, overlap)))
  }

  // ---------------------------------------------------------------------
  // The loop as written, run on fuel.
  // ---------------------------------------------------------------------

  /** Where a fuelled run stands: returned, threw, or still looping when the fuel ran out. */
  datatype RunOutcome = Finished(chunks: seq<TextChunk>) | Threw(error: Exception) | Running(state: ChunkState)

  /**
   * The iterations left after one more. Proofs about the fuelled loop pass
   * this term, not `fuel - 1`, so that the solver meets the same term in the
   * loop's definition and in the inductive hypothesis.
   */
  function OneLess(fuel: nat): nat
    requires fuel > 0
  {
    fuel - 1
  }

  /**
   * The loop as written from state `st`, for at most `fuel` iterations: it
   * keeps the chunks already emitted, throws only where a window end
   * throws, and is left running only inside the text.
   */
  function RunAsWritten(text: string, videoId: string, chunkSize: Int32, overlap: Int32, st: ChunkState, fuel: nat)
    : (r: RunOutcome)
    requires 0 <= st.start <= |text| <= INT32_MAX
    ensures r.Finished? ==> st.emitted <= r.chunks
    ensures r.Running? ==> st.emitted <= r.state.emitted && 0 <= r.state.start < |text|
    ensures r.Threw? ==> r.error.kind.ArgumentOutOfRange?
    decreases fuel
  {
    if st.start >= |text| then Finished(st.emitted)
    else if fuel == 0 then Running(st)
    else
      match Step(AsWritten, text, videoId, chunkSize, overlap, st)
      case Err(e) => Threw(e)
      case Ok(next) => RunAsWritten(text, videoId, chunkSize, overlap, next, OneLess(fuel))
  }

  /**
   * `ChunkText` as written, for at most `fuel` loop iterations: blank text
   * gives no chunks, and the only exception is ArgumentOutOfRange, which a
   * non-positive chunk size raises on the first iteration.
   */
  function ChunkTextAsWritten(text: string, videoId: string, chunkSize: Int32, overlap: Int32, fuel: nat): (r: RunOutcome)
    requires |text| <= INT32_MAX
    ensures AllWhite(text) ==> r == Finished([])
    ensures r.Threw? ==> r.error.kind.ArgumentOutOfRange?
    ensures !AllWhite(text) && chunkSize <= 0 && fuel > 0 ==> r.Threw?
  {
    if AllWhite(text) then Finished([])
    else RunAsWritten(text, videoId, chunkSize, overlap, INITIAL_STATE, fuel)
  }

  /** With 0 < overlap < |text| a successful as-written step never reaches the end of the text. */
  lemma AsWrittenStepStaysInside(text: string, videoId: string, chunkSize: Int32, overlap: Int32, st: ChunkState)
    requires 0 <= st.start < |text| <= INT32_MAX
    requires 0 < overlap < |text|
    ensures var r := Step(AsWritten, text, videoId, chunkSize, overlap, st); r.Ok? ==> r.value.start < |text|
  {
    var w := WindowEnd(text, chunkSize, st.start);
    if w.Ok? {
      AsWrittenNextInside(text, st.start, w.value, overlap);
    }
  }

  /** With 0 < overlap < |text| the as-written rule never restarts at the end of the text. */
  lemma AsWrittenNextInside(text: string, start: int, end: int, overlap: Int32)
    requires 0 <= start <= end <= |text| <= INT32_MAX && 0 < overlap < |text|
    ensures NextStart(AsWritten, text, start, end, overlap) < |text|
  {
  }

  /**
   * One iteration of the as-written loop from inside the text: it throws, or
   * it moves to a state still inside the text from which the rest of the run,
   * with one iteration less, continues.
   */
  lemma AsWrittenIteration(text: string, videoId: string, chunkSize: Int32, overlap: Int32, st: ChunkState, fuel: nat)
    returns (next: Option<ChunkState>)
    requires 0 <= st.start < |text| <= INT32_MAX
    requires 0 < overlap < |text| && fuel > 0
    ensures next.Some? ==> 0 <= next.value.start < |text|
    ensures next.Some? ==>
      RunAsWritten(text, videoId, chunkSize, overlap, st, fuel) == RunAsWritten(text, videoId, chunkSize, overlap, next.value, OneLess(fuel))
    ensures next.None? ==> RunAsWritten(text, videoId, chunkSize, overlap, st, fuel).Threw?
    ensures chunkSize > 0 && |text| + chunkSize <= INT32_MAX ==> next.Some?
  {
    match Step(AsWritten, text, videoId, chunkSize, overlap, st)
    case Ok(n) =>
      AsWrittenStepStaysInside(text, videoId, chunkSize, overlap, st);
      RunAsWrittenStep(text, videoId, chunkSize, overlap, st, n, fuel);
      next := Some(n);
    case Err(e) =>
      next := None;
  }

  /** From inside the text, the as-written loop never returns, whatever the fuel. */
  lemma {:induction false} RunAsWrittenNeverFinishes(
    text: string, videoId: string, chunkSize: Int32, overlap: Int32, st: ChunkState, fuel: nat)
    requires 0 <= st.start < |text| <= INT32_MAX
    requires 0 < overlap < |text|
    ensures !RunAsWritten(text, videoId, chunkSize, overlap, st, fuel).Finished?
    decreases fuel
  {
    if fuel > 0 {
      var next := AsWrittenIteration(text, videoId, chunkSize, overlap, st, fuel);
      if next.Some? {
        RunAsWrittenNeverFinishes(text, videoId, chunkSize, overlap, next.value, OneLess(fuel));
      }
    } else {
      TailRunStops(text, videoId, chunkSize, overlap, st);
    }
  }

  /**
   * When no window end can overflow, the as-written loop does not throw
   * either: from inside the text it is still running whatever the fuel.
   */
  lemma {:induction false} RunAsWrittenKeepsRunning(
    text: string, videoId: string, chunkSize: Int32, overlap: Int32, st: ChunkState, fuel: nat)
    requires 0 <= st.start < |text| <= INT32_MAX
    requires 0 < overlap < |text|
    requires chunkSize > 0 && |text| + chunkSize <= INT32_MAX
    ensures RunAsWritten(text, videoId, chunkSize, overlap, st, fuel).Running?
    decreases fuel
  {
    if fuel > 0 {
      var next := AsWrittenIteration(text, videoId, chunkSize, overlap, st, fuel);
      RunAsWrittenKeepsRunning(text, videoId, chunkSize, overlap, next.value, OneLess(fuel));
    } else {
      TailRunStops(text, videoId, chunkSize, overlap, st);
    }
  }

  /**
   * The defect: for non-blank text and 0 < overlap < |text| the source's
   * ChunkText never returns. It loops forever, or throws when
   * `start + chunkSize` overflows.
   */
  lemma ChunkTextAsWrittenDiverges(text: string, videoId: string, chunkSize: Int32, overlap: Int32, fuel: nat)
    requires |text| <= INT32_MAX && !AllWhite(text)
    requires 0 < overlap < |text|
    ensures !ChunkTextAsWritten(text, videoId, chunkSize, overlap, fuel).Finished?
    ensures chunkSize > 0 && |text| + chunkSize <= INT32_MAX ==>
      ChunkTextAsWritten(text, videoId, chunkSize, overlap, fuel).Running?
  {
    RunAsWrittenNeverFinishes(text, videoId, chunkSize, overlap, INITIAL_STATE, fuel);
    if chunkSize > 0 && |text| + chunkSize <= INT32_MAX {
      RunAsWrittenKeepsRunning(text, videoId, chunkSize, overlap, INITIAL_STATE, fuel);
    }
  }

  /** With the default 1000/200 settings, every non-blank text longer than 200 characters hangs. */
  lemma DefaultSettingsDiverge(text: string, videoId: string, fuel: nat)
    requires !AllWhite(text) && DEFAULT_OVERLAP < |text| <= INT32_MAX - DEFAULT_CHUNK_SIZE
    ensures ChunkTextAsWritten(text, videoId, DEFAULT_CHUNK_SIZE, DEFAULT_OVERLAP, fuel).Running?
  {
    ChunkTextAsWrittenDiverges(text, videoId, DEFAULT_CHUNK_SIZE, DEFAULT_OVERLAP, fuel);
  }

  /**
   * Once a window reaches the end of the text, the next start is
   * |text| - overlap, and (for chunkSize >= overlap) that state steps to
   * itself, re-emitting the tail window as a new chunk.
   */
  lemma TailIsFixedPoint(text: string, videoId: string, chunkSize: Int32, overlap: Int32, st: ChunkState)
    requires |text| <= INT32_MAX && 0 < overlap < |text| && overlap <= chunkSize
    requires |text| - overlap + chunkSize <= INT32_MAX
    requires st.start == |text| - overlap
    ensures var r := Step(AsWritten, text, videoId, chunkSize, overlap, st);
      && r == Ok(Emit(text, videoId, st, |text|))
      && r.value.start == st.start
  {
    WindowEndAtTail(text, chunkSize, st.start);
    assert NextStart(AsWritten, text, st.start, |text|, overlap) == st.start;
  }

  /** A window that can reach the end of the text ends there. */
  lemma WindowEndAtTail(text: string, chunkSize: Int32, start: int)
    requires 0 <= start < |text| <= INT32_MAX && chunkSize > 0
    requires |text| <= start + chunkSize <= INT32_MAX
    ensures WindowEnd(text, chunkSize, start) == Ok(|text|)
  {
  }

  /** The chunk numbered `index` with content `content` from the window `[start, end)`. */
  function NumberedChunk(content: string, videoId: string, start: int, end: int, index: int): TextChunk {
    TextChunk(content, ChunkMetadata(videoId, index, start, end), index, videoId)
  }

  /** `n` chunks of the same window and content, numbered from `index` on. */
  function Copies(content: string, videoId: string, start: int, end: int, index: int, n: nat): (r: seq<TextChunk>)
    ensures |r| == n
    decreases n
  {
    if n == 0 then [] else [NumberedChunk(content, videoId, start, end, index)] + Copies(content, videoId, start, end, index + 1, OneLess(n))
  }

  /** The `j`-th copy is numbered `index + j`. */
  lemma {:induction false} CopiesAt(content: string, videoId: string, start: int, end: int, index: int, n: nat, j: int)
    requires 0 <= j < n
    ensures Copies(content, videoId, start, end, index, n)[j] == NumberedChunk(content, videoId, start, end, index + j)
    decreases n
  {
    if j > 0 {
      CopiesAt(content, videoId, start, end, index + 1, OneLess(n), j - 1);
    }
  }

  /**
   * Where the as-written loop stands after `n` more iterations at the tail:
   * a blank tail leaves the state as it is; otherwise `n` more copies of
   * the trimmed tail window follow the chunks so far.
   */
  function TailState(text: string, videoId: string, st: ChunkState, n: nat): ChunkState
    requires 0 <= st.start <= |text|
  {
    Repeated(AllWhite(text[st.start..]), Trim(text[st.start..]), videoId, st, |text|, n)
  }

  /** `n` more copies of the window from `st.start` to `end` after the chunks so far, unless it is blank. */
  function Repeated(blank: bool, content: string, videoId: string, st: ChunkState, end: int, n: nat): ChunkState {
    if blank then st
    else ChunkState(st.start, st.chunkIndex + n, st.emitted + Copies(content, videoId, st.start, end, st.chunkIndex, n))
  }

  /** One tail iteration followed by `n - 1` more is `n` tail iterations. */
  lemma TailStateStep(text: string, videoId: string, st: ChunkState, next: ChunkState, n: nat)
    requires 0 <= st.start <= |text| && n > 0 && next.start == st.start
    requires AllWhite(text[st.start..]) ==> next == st
    requires !AllWhite(text[st.start..]) ==>
      && next.chunkIndex == st.chunkIndex + 1
      && next.emitted == st.emitted + [NumberedChunk(Trim(text[st.start..]), videoId, st.start, |text|, st.chunkIndex)]
    ensures TailState(text, videoId, next, OneLess(n)) == TailState(text, videoId, st, n)
  {
    RepeatedStep(AllWhite(text[st.start..]), Trim(text[st.start..]), videoId, st, next, |text|, n);
  }

  lemma RepeatedStep(blank: bool, content: string, videoId: string, st: ChunkState, next: ChunkState, end: int, n: nat)
    requires n > 0 && next.start == st.start
    requires blank ==> next == st
    requires !blank ==>
      && next.chunkIndex == st.chunkIndex + 1
      && next.emitted == st.emitted + [NumberedChunk(content, videoId, st.start, end, st.chunkIndex)]
    ensures Repeated(blank, content, videoId, next, end, OneLess(n)) == Repeated(blank, content, videoId, st, end, n)
  {
    if !blank {
      CopiesAppend(st.emitted, content, videoId, st.start, end, st.chunkIndex, n);
    }
  }

  /** Appending one copy and then `n - 1` more is appending `n` copies. */
  lemma CopiesAppend(chunks: seq<TextChunk>, content: string, videoId: string, start: int, end: int, index: int, n: nat)
    requires n > 0
    ensures (chunks + [NumberedChunk(content, videoId, start, end, index)]) + Copies(content, videoId, start, end, index + 1, OneLess(n))
         == chunks + Copies(content, videoId, start, end, index, n)
  {
    var c := NumberedChunk(content, videoId, start, end, index);
    var rest := Copies(content, videoId, start, end, index + 1, OneLess(n));
    assert Copies(content, videoId, start, end, index, n) == [c] + rest;
    assert (chunks + [c]) + rest == chunks + ([c] + rest);
  }

  /** No tail iterations leave the state as it is. */
  lemma TailStateNone(text: string, videoId: string, st: ChunkState)
    requires 0 <= st.start <= |text|
    ensures TailState(text, videoId, st, 0) == st
  {
    assert st.emitted + [] == st.emitted;
    assert st.chunkIndex + 0 == st.chunkIndex;
  }

  /**
   * At the tail fixed point every further iteration appends the tail window
   * once more as a chunk with the next number; a blank tail changes nothing.
   */
  lemma {:induction false} TailRepeats(text: string, videoId: string, chunkSize: Int32, overlap: Int32, st: ChunkState, fuel: nat)
    requires |text| <= INT32_MAX && 0 < overlap < |text| && overlap <= chunkSize
    requires |text| - overlap + chunkSize <= INT32_MAX
    requires st.start == |text| - overlap
    ensures RunAsWritten(text, videoId, chunkSize, overlap, st, fuel) == Running(TailState(text, videoId, st, fuel))
    decreases fuel
  {
    if fuel > 0 {
      var next := TailStep(text, videoId, chunkSize, overlap, st, fuel);
      TailRepeats(text, videoId, chunkSize, overlap, next, OneLess(fuel));
      TailStateStep(text, videoId, st, next, fuel);
    } else {
      TailRunStops(text, videoId, chunkSize, overlap, st);
      TailStateNone(text, videoId, st);
    }
  }

  /** With no fuel left a run inside the text stops where it is. */
  lemma TailRunStops(text: string, videoId: string, chunkSize: Int32, overlap: Int32, st: ChunkState)
    requires 0 <= st.start < |text| <= INT32_MAX
    ensures RunAsWritten(text, videoId, chunkSize, overlap, st, 0) == Running(st)
  {
  }

  /** One iteration at the tail: the start stays, and a non-blank tail is emitted once more. */
  lemma TailStep(text: string, videoId: string, chunkSize: Int32, overlap: Int32, st: ChunkState, fuel: nat)
    returns (next: ChunkState)
    requires |text| <= INT32_MAX && 0 < overlap < |text| && overlap <= chunkSize
    requires |text| - overlap + chunkSize <= INT32_MAX
    requires st.start == |text| - overlap && fuel > 0
    ensures next == Emit(text, videoId, st, |text|)
    ensures next.start == st.start
    ensures |next.emitted| == |st.emitted| + (if AllWhite(text[st.start..]) then 0 else 1)
    ensures AllWhite(text[st.start..]) ==> next == st
    ensures !AllWhite(text[st.start..]) ==>
      && next.chunkIndex == st.chunkIndex + 1
      && next.emitted == st.emitted + [NumberedChunk(Trim(text[st.start..]), videoId, st.start, |text|, st.chunkIndex)]
    ensures RunAsWritten(text, videoId, chunkSize, overlap, st, fuel) == RunAsWritten(text, videoId, chunkSize, overlap, next, OneLess(fuel))
  {
    next := Emit(text, videoId, st, |text|);
    assert text[st.start..|text|] == text[st.start..];
    if !AllWhite(text[st.start..]) {
      assert next.emitted == st.emitted + [next.emitted[|st.emitted|]];
    }
    TailIsFixedPoint(text, videoId, chunkSize, overlap, st);
    RunAsWrittenStep(text, videoId, chunkSize, overlap, st, next, fuel);
  }

  /** One successful iteration of the as-written loop, when the text is not yet exhausted. */
  lemma RunAsWrittenStep(text: string, videoId: string, chunkSize: Int32, overlap: Int32, st: ChunkState, next: ChunkState, fuel: nat)
    requires 0 <= st.start < |text| <= INT32_MAX && fuel > 0
    requires Step(AsWritten, text, videoId, chunkSize, overlap, st) == Ok(next)
    requires 0 <= next.start <= |text|
    ensures RunAsWritten(text, videoId, chunkSize, overlap, st, fuel) == RunAsWritten(text, videoId, chunkSize, overlap, next, OneLess(fuel))
  {
  }

  // ---------------------------------------------------------------------
  // The corrected loop, which terminates.
  // ---------------------------------------------------------------------

  /**
   * Chunk `c` is the `i`-th chunk of `text`: the trimmed, non-blank window
   * from its start to where `WindowEnd` ends a window starting there.
   */
  ghost predicate IsChunkOf(text: string, videoId: string, chunkSize: Int32, c: TextChunk, i: int) {
    && 0 <= StartOf(c) < EndOf(c) <= |text| <= INT32_MAX
    && WindowEnd(text, chunkSize, StartOf(c)) == Ok(EndOf(c))
    && EndOf(c) - StartOf(c) <= chunkSize
    && c.content == Trim(text[StartOf(c)..EndOf(c)])
    && c.content != []
    && c.chunkIndex == i
    && c.videoId == videoId
    && c.metadata == ChunkMetadata(videoId, i, StartOf(c), EndOf(c))
  }

  /** Chunks are numbered 0, 1, 2, ... with no gaps, and their windows start strictly left to right. */
  ghost predicate WellNumbered(text: string, videoId: string, chunkSize: Int32, chunks: seq<TextChunk>) {
    && (forall i :: 0 <= i < |chunks| ==> IsChunkOf(text, videoId, chunkSize, chunks[i], i))
    && StartsIncrease(chunks)
  }

  ghost predicate StartsIncrease(chunks: seq<TextChunk>) {
    forall i, j :: 0 <= i < j < |chunks| ==> StartOf(chunks[i]) < StartOf(chunks[j])
  }

  lemma AppendKeepsStartsIncreasing(chunks: seq<TextChunk>, c: TextChunk)
    requires StartsIncrease(chunks)
    requires forall i :: 0 <= i < |chunks| ==> StartOf(chunks[i]) < StartOf(c)
    ensures StartsIncrease(chunks + [c])
  {
  }

  /** Every non-white-space character before `bound` lies in some chunk's window. */
  ghost predicate CoversUpTo(text: string, chunks: seq<TextChunk>, bound: int) {
    forall p :: 0 <= p < bound && p < |text| && !IsWhiteSpace(text[p]) ==>
      exists i :: 0 <= i < |chunks| && StartOf(chunks[i]) <= p < EndOf(chunks[i])
  }

  /** Where the corrected loop resumes after the `k`-th chunk; 0 before the first. */
  function ResumeAfter(text: string, overlap: Int32, chunks: seq<TextChunk>, k: int): int
    requires 0 <= k <= |chunks|
  {
    if k == 0 then 0
    else
      var c := chunks[k - 1];
      if 0 <= StartOf(c) <= EndOf(c) <= |text| <= INT32_MAX then NextStart(Corrected, text, StartOf(c), EndOf(c), overlap)
      else EndOf(c)
  }

  /**
   * The loop got from `from` to `to` through blank windows only: `from` is
   * not past `to`, and with a non-negative overlap, which leaves no gap
   * between windows, the text in between is white space.
   */
  ghost predicate Skipped(text: string, overlap: Int32, from: int, to: int) {
    && from <= to
    && (overlap >= 0 ==> 0 <= from && to <= |text| && AllWhite(text[from..to]))
  }

  /**
   * Each chunk starts where the loop resumed after the one before it, or
   * after blank windows only; likewise `next`, where the loop now stands.
   */
  ghost predicate Chained(text: string, overlap: Int32, chunks: seq<TextChunk>, next: int) {
    && (forall k :: 0 <= k < |chunks| ==> Skipped(text, overlap, ResumeAfter(text, overlap, chunks, k), StartOf(chunks[k])))
    && Skipped(text, overlap, ResumeAfter(text, overlap, chunks, |chunks|), next)
  }

  /** Appending a chunk does not move where the loop resumed after the earlier ones. */
  lemma ResumePrefix(text: string, overlap: Int32, chunks: seq<TextChunk>, c: TextChunk, k: int)
    requires 0 <= k <= |chunks|
    ensures ResumeAfter(text, overlap, chunks + [c], k) == ResumeAfter(text, overlap, chunks, k)
  {
    if k > 0 {
      assert (chunks + [c])[k - 1] == chunks[k - 1];
    }
  }

  /** Two adjacent white-space stretches make one. */
  lemma WhiteJoin(text: string, a: int, b: int, c: int)
    requires 0 <= a <= b <= c <= |text|
    requires AllWhite(text[a..b]) && AllWhite(text[b..c])
    ensures AllWhite(text[a..c])
  {
    forall k | 0 <= k < c - a ensures IsWhiteSpace(text[a..c][k]) {
      if k < b - a {
        assert text[a..c][k] == text[a..b][k];
      } else {
        assert text[a..c][k] == text[b..c][k - (b - a)];
      }
    }
  }

  /** A corrected step keeps the chunks chained to the windows the loop walked through. */
  lemma StepKeepsChain(text: string, videoId: string, chunkSize: Int32, overlap: Int32, st: ChunkState)
    requires 0 <= st.start < |text| <= INT32_MAX && chunkSize > 0
    requires Chained(text, overlap, st.emitted, st.start)
    requires Step(Corrected, text, videoId, chunkSize, overlap, st).Ok?
    ensures var next := Step(Corrected, text, videoId, chunkSize, overlap, st).value;
      Chained(text, overlap, next.emitted, next.start)
  {
    var end := WindowEnd(text, chunkSize, st.start).value;
    var em := Emit(text, videoId, st, end);
    var next := NextStart(Corrected, text, st.start, end, overlap);
    if AllWhite(text[st.start..end]) {
      BlankKeepsChain(text, overlap, st.emitted, st.start, end, next);
    } else {
      var c := em.emitted[|st.emitted|];
      assert em.emitted == st.emitted + [c];
      assert StartOf(c) == st.start && EndOf(c) == end;
      ChunkKeepsChain(text, overlap, st.emitted, c);
    }
  }

  /** Passing a blank window moves the loop on without breaking the chain. */
  lemma BlankKeepsChain(text: string, overlap: Int32, chunks: seq<TextChunk>, start: int, end: int, next: int)
    requires 0 <= start < next && next <= |text| && start <= end <= |text|
    requires overlap >= 0 ==> next <= end
    requires Chained(text, overlap, chunks, start) && AllWhite(text[start..end])
    ensures Chained(text, overlap, chunks, next)
  {
    var resume := ResumeAfter(text, overlap, chunks, |chunks|);
    if overlap >= 0 {
      WhiteJoin(text, resume, start, end);
      assert text[resume..next] == text[resume..end][..next - resume];
      WhiteSlicePrefix(text[resume..end], next - resume);
    }
  }

  /** A prefix of a white-space string is white space. */
  lemma WhiteSlicePrefix(s: string, n: int)
    requires 0 <= n <= |s| && AllWhite(s)
    ensures AllWhite(s[..n])
  {
    assert forall k :: 0 <= k < n ==> s[..n][k] == s[k];
  }

  /** Emitting chunk `c` where the loop stands chains it, and the loop resumes after it. */
  lemma ChunkKeepsChain(text: string, overlap: Int32, chunks: seq<TextChunk>, c: TextChunk)
    requires 0 <= StartOf(c) <= EndOf(c) <= |text| <= INT32_MAX
    requires Chained(text, overlap, chunks, StartOf(c))
    ensures Chained(text, overlap, chunks + [c], NextStart(Corrected, text, StartOf(c), EndOf(c), overlap))
  {
    var all := chunks + [c];
    var next := NextStart(Corrected, text, StartOf(c), EndOf(c), overlap);
    ChainedPrefix(text, overlap, chunks, c);
    assert all[|chunks|] == c;
    assert ResumeAfter(text, overlap, all, |all|) == next;
    assert text[next..next] == [];
  }

  /** The chunks before the appended one stay chained, and so does the appended one. */
  lemma ChainedPrefix(text: string, overlap: Int32, chunks: seq<TextChunk>, c: TextChunk)
    requires Chained(text, overlap, chunks, StartOf(c))
    ensures forall k :: 0 <= k < |chunks + [c]| ==>
      Skipped(text, overlap, ResumeAfter(text, overlap, chunks + [c], k), StartOf((chunks + [c])[k]))
  {
    var all := chunks + [c];
    forall k | 0 <= k < |all|
      ensures Skipped(text, overlap, ResumeAfter(text, overlap, all, k), StartOf(all[k]))
    {
      ResumePrefix(text, overlap, chunks, c, k);
      if k < |chunks| {
        assert all[k] == chunks[k];
      }
    }
  }

  /** The loop invariant of the corrected loop. */
  ghost predicate Valid(text: string, videoId: string, chunkSize: Int32, overlap: Int32, st: ChunkState) {
    && 0 <= st.start <= |text|
    && st.chunkIndex == |st.emitted|
    && WellNumbered(text, videoId, chunkSize, st.emitted)
    && (forall i :: 0 <= i < |st.emitted| ==> StartOf(st.emitted[i]) < st.start)
    && (overlap >= 0 ==> CoversUpTo(text, st.emitted, st.start))
    && Chained(text, overlap, st.emitted, st.start)
  }

  /** Emitting the window that starts at `st.start` keeps the chunks numbered and ordered. */
  lemma EmitKeepsNumbering(text: string, videoId: string, chunkSize: Int32, st: ChunkState, end: int)
    requires 0 <= st.start < end <= |text| <= INT32_MAX
    requires WindowEnd(text, chunkSize, st.start) == Ok(end)
    requires st.chunkIndex == |st.emitted| && WellNumbered(text, videoId, chunkSize, st.emitted)
    requires forall i :: 0 <= i < |st.emitted| ==> StartOf(st.emitted[i]) < st.start
    ensures var em := Emit(text, videoId, st, end);
      && em.chunkIndex == |em.emitted|
      && WellNumbered(text, videoId, chunkSize, em.emitted)
      && forall i :: 0 <= i < |em.emitted| ==> StartOf(em.emitted[i]) <= st.start
  {
    var em := Emit(text, videoId, st, end);
    if !AllWhite(text[st.start..end]) {
      var n := |st.emitted|;
      var c := em.emitted[n];
      assert StartOf(c) == st.start && EndOf(c) == end;
      assert IsChunkOf(text, videoId, chunkSize, c, n);
      assert em.emitted == st.emitted + [c];
      AppendKeepsNumbering(text, videoId, chunkSize, st.emitted, c);
    }
  }

  /** Appending the next chunk, which starts after every earlier one, keeps the list well numbered. */
  lemma AppendKeepsNumbering(text: string, videoId: string, chunkSize: Int32, chunks: seq<TextChunk>, c: TextChunk)
    requires WellNumbered(text, videoId, chunkSize, chunks) && IsChunkOf(text, videoId, chunkSize, c, |chunks|)
    requires forall i :: 0 <= i < |chunks| ==> StartOf(chunks[i]) < StartOf(c)
    ensures WellNumbered(text, videoId, chunkSize, chunks + [c])
    ensures forall i :: 0 <= i < |chunks + [c]| ==> StartOf((chunks + [c])[i]) <= StartOf(c)
  {
    var all := chunks + [c];
    forall i | 0 <= i < |all| ensures IsChunkOf(text, videoId, chunkSize, all[i], i) && StartOf(all[i]) <= StartOf(c) {
      if i < |chunks| { assert all[i] == chunks[i]; }
    }
    AppendKeepsStartsIncreasing(chunks, c);
  }

  /** A window holding a non-white-space character is emitted as a chunk spanning exactly that window. */
  lemma EmitSpansWindow(text: string, videoId: string, st: ChunkState, end: int, p: int)
    requires 0 <= st.start <= p < end <= |text| && !IsWhiteSpace(text[p])
    ensures var em := Emit(text, videoId, st, end);
      && |em.emitted| == |st.emitted| + 1
      && StartOf(em.emitted[|st.emitted|]) == st.start && EndOf(em.emitted[|st.emitted|]) == end
  {
    assert text[st.start..end][p - st.start] == text[p];
  }

  /**
   * Coverage grows from `start` to `end` when the old chunks are kept and,
   * if `[start, end)` holds any non-white-space character, a chunk spanning
   * exactly that window follows them.
   */
  lemma CoverageGrows(text: string, before: seq<TextChunk>, after: seq<TextChunk>, start: int, end: int)
    requires 0 <= start <= end <= |text|
    requires CoversUpTo(text, before, start) && before <= after
    requires forall p :: start <= p < end && !IsWhiteSpace(text[p]) ==>
      |after| > |before| && StartOf(after[|before|]) == start && EndOf(after[|before|]) == end
    ensures CoversUpTo(text, after, end)
  {
    forall p | 0 <= p < end && p < |text| && !IsWhiteSpace(text[p])
      ensures exists i :: 0 <= i < |after| && StartOf(after[i]) <= p < EndOf(after[i])
    {
      if p < start {
        var i :| 0 <= i < |before| && StartOf(before[i]) <= p < EndOf(before[i]);
        assert after[i] == before[i];
      } else {
        assert StartOf(after[|before|]) <= p < EndOf(after[|before|]);
      }
    }
  }

  /** Emitting the window `[start, end)` extends coverage from `start` to `end`. */
  lemma EmitExtendsCoverage(text: string, videoId: string, st: ChunkState, end: int)
    requires 0 <= st.start <= end <= |text|
    requires CoversUpTo(text, st.emitted, st.start)
    ensures CoversUpTo(text, Emit(text, videoId, st, end).emitted, end)
  {
    var em := Emit(text, videoId, st, end);
    forall p | st.start <= p < end && !IsWhiteSpace(text[p])
      ensures |em.emitted| > |st.emitted| && StartOf(em.emitted[|st.emitted|]) == st.start
        && EndOf(em.emitted[|st.emitted|]) == end
    {
      EmitSpansWindow(text, videoId, st, end, p);
    }
    CoverageGrows(text, st.emitted, em.emitted, st.start, end);
  }

  lemma CoverageShrinks(text: string, chunks: seq<TextChunk>, bound: int, smaller: int)
    requires CoversUpTo(text, chunks, bound) && smaller <= bound
    ensures CoversUpTo(text, chunks, smaller)
  {
  }

  /** A corrected step from a valid state reaches a valid state further right. */
  lemma StepPreservesValid(text: string, videoId: string, chunkSize: Int32, overlap: Int32, st: ChunkState)
    requires 0 <= st.start < |text| <= INT32_MAX
    requires Valid(text, videoId, chunkSize, overlap, st)
    requires chunkSize > 0
    ensures var r := Step(Corrected, text, videoId, chunkSize, overlap, st);
      r.Ok? ==> Valid(text, videoId, chunkSize, overlap, r.value) && r.value.start > st.start
  {
    var r := Step(Corrected, text, videoId, chunkSize, overlap, st);
    if r.Ok? {
      var end := WindowEnd(text, chunkSize, st.start).value;
      var em := Emit(text, videoId, st, end);
      var next := NextStart(Corrected, text, st.start, end, overlap);
      assert r.value == em.(start := next);
      EmitKeepsNumbering(text, videoId, chunkSize, st, end);
      StepKeepsChain(text, videoId, chunkSize, overlap, st);
      if overlap >= 0 {
        EmitExtendsCoverage(text, videoId, st, end);
        CoverageShrinks(text, em.emitted, end, next);
      }
    }
  }

  /**
   * The corrected loop from state `st` to the end of the text: it keeps the
   * chunks already emitted, and throws only where a window end throws.
   */
  function Run(text: string, videoId: string, chunkSize: Int32, overlap: Int32, st: ChunkState)
    : (r: Result<seq<TextChunk>, Exception>)
    requires 0 <= st.start <= |text| <= INT32_MAX
    requires chunkSize > 0 || st.start == 0
    ensures r.Ok? ==> st.emitted <= r.value
    ensures r.Err? ==> r.error.kind.ArgumentOutOfRange?
    ensures chunkSize > 0 && |text| + chunkSize <= INT32_MAX ==> r.Ok?
    ensures chunkSize <= 0 && st.start < |text| ==> r.Err?
    decreases |text| - st.start
  {
    if st.start >= |text| then
      Ok(st.emitted)
    else
      match Step(Corrected, text, videoId, chunkSize, overlap, st)
      case Err(e) => Err(e)
      case Ok(next) => Run(text, videoId, chunkSize, overlap, next)
  }

  /** The corrected loop keeps its invariant to the end, so its result is well numbered and, with a non-negative overlap, complete. */
  lemma {:induction false} RunKeepsValid(text: string, videoId: string, chunkSize: Int32, overlap: Int32, st: ChunkState)
    requires |text| <= INT32_MAX
    requires Valid(text, videoId, chunkSize, overlap, st)
    requires chunkSize > 0 || st.start == 0
    ensures var r := Run(text, videoId, chunkSize, overlap, st);
      && (r.Ok? ==> WellNumbered(text, videoId, chunkSize, r.value))
      && (r.Ok? && overlap >= 0 ==> CoversUpTo(text, r.value, |text|))
      && (r.Ok? ==> Chained(text, overlap, r.value, |text|))
    decreases |text| - st.start
  {
    if st.start < |text| {
      var step := Step(Corrected, text, videoId, chunkSize, overlap, st);
      if step.Ok? {
        StepPreservesValid(text, videoId, chunkSize, overlap, st);
        RunKeepsValid(text, videoId, chunkSize, overlap, step.value);
        assert Run(text, videoId, chunkSize, overlap, st) == Run(text, videoId, chunkSize, overlap, step.value);
      }
    }
  }

  /**
   * `ChunkText` with the corrected progress rule: blank text gives no chunks;
   * otherwise the chunks are the trimmed non-blank windows, numbered from 0,
   * left to right, each ending where `WindowEnd` ends its window, and with a
   * non-negative overlap they miss no non-white-space character. Each chunk
   * starts where the loop resumed after the one before it, or further on
   * past blank windows only.
   */
  function ChunkText(text: string, videoId: string, chunkSize: Int32, overlap: Int32): (r: Result<seq<TextChunk>, Exception>)
    requires |text| <= INT32_MAX
    ensures AllWhite(text) ==> r == Ok([])
    ensures !AllWhite(text) && chunkSize <= 0 ==> r.Err? && r.error.kind.ArgumentOutOfRange?
    ensures chunkSize > 0 && |text| + chunkSize <= INT32_MAX ==> r.Ok?
    ensures r.Ok? ==> WellNumbered(text, videoId, chunkSize, r.value)
    ensures r.Ok? && overlap >= 0 ==> CoversUpTo(text, r.value, |text|)
    ensures r.Ok? ==> Chained(text, overlap, r.value, |text|)
  {
    if AllWhite(text) then
      assert text[0..|text|] == text;
      Ok([])
    else
      RunKeepsValid(text, videoId, chunkSize, overlap, INITIAL_STATE);
      Run(text, videoId, chunkSize, overlap, INITIAL_STATE)
  }

  function ToOutcome(r: Result<seq<TextChunk>, Exception>): RunOutcome {
    match r
    case Ok(chunks) => Finished(chunks)
    case Err(e) => Threw(e)
  }

  /** Without overlap both rules restart at the window end, so the two loops take the same step. */
  lemma NoOverlapStepsAgree(text: string, videoId: string, chunkSize: Int32, st: ChunkState)
    requires 0 <= st.start < |text| <= INT32_MAX
    ensures Step(AsWritten, text, videoId, chunkSize, 0, st) == Step(Corrected, text, videoId, chunkSize, 0, st)
  {
  }

  /** From state `st`, the as-written loop on `fuel` iterations and the corrected loop end alike, without overlap. */
  ghost predicate LoopsAgree(text: string, videoId: string, chunkSize: Int32, st: ChunkState, fuel: nat) {
    && 0 <= st.start <= |text| <= INT32_MAX
    && (chunkSize > 0 || st.start == 0)
    && RunAsWritten(text, videoId, chunkSize, 0, st, fuel) == ToOutcome(Run(text, videoId, chunkSize, 0, st))
  }

  /** Where the step throws, both loops throw the same exception. */
  lemma AgreeOnThrow(text: string, videoId: string, chunkSize: Int32, st: ChunkState, fuel: nat)
    requires |text| <= INT32_MAX && 0 <= st.start < |text| && fuel > 0
    requires chunkSize > 0 || st.start == 0
    requires Step(Corrected, text, videoId, chunkSize, 0, st).Err?
    ensures LoopsAgree(text, videoId, chunkSize, st, fuel)
  {
    NoOverlapStepsAgree(text, videoId, chunkSize, st);
  }

  /** One successful iteration of the corrected loop. */
  lemma RunStep(text: string, videoId: string, chunkSize: Int32, overlap: Int32, st: ChunkState, next: ChunkState)
    requires 0 <= st.start < |text| <= INT32_MAX
    requires chunkSize > 0 || st.start == 0
    requires Step(Corrected, text, videoId, chunkSize, overlap, st) == Ok(next)
    requires chunkSize > 0 || next.start == 0
    ensures Run(text, videoId, chunkSize, overlap, st) == Run(text, videoId, chunkSize, overlap, next)
  {
  }

  /** Where the step succeeds, both loops continue from the same state. */
  lemma AgreeAfterStep(text: string, videoId: string, chunkSize: Int32, st: ChunkState, next: ChunkState, fuel: nat)
    requires |text| <= INT32_MAX && 0 <= st.start < |text| && fuel > 0
    requires chunkSize > 0 || st.start == 0
    requires Step(Corrected, text, videoId, chunkSize, 0, st) == Ok(next)
    requires LoopsAgree(text, videoId, chunkSize, next, OneLess(fuel))
    ensures LoopsAgree(text, videoId, chunkSize, st, fuel)
  {
    NoOverlapStepsAgree(text, videoId, chunkSize, st);
    RunAsWrittenStep(text, videoId, chunkSize, 0, st, next, fuel);
    RunStep(text, videoId, chunkSize, 0, st, next);
  }

  /** Without overlap, from any state the as-written loop with enough fuel ends as the corrected one. */
  lemma {:induction false} RunAgreesWithoutOverlap(text: string, videoId: string, chunkSize: Int32, st: ChunkState, fuel: nat)
    requires 0 <= st.start <= |text| <= INT32_MAX
    requires chunkSize > 0 || st.start == 0
    requires fuel >= |text| - st.start
    ensures LoopsAgree(text, videoId, chunkSize, st, fuel)
    decreases |text| - st.start, 1
  {
    if st.start < |text| {
      var r := Step(Corrected, text, videoId, chunkSize, 0, st);
      if r.Ok? {
        CorrectedStepAdvances(text, videoId, chunkSize, st);
        AgreeFromStep(text, videoId, chunkSize, st, r.value, fuel);
      } else {
        AgreeOnThrow(text, videoId, chunkSize, st, fuel);
      }
    }
  }

  /** A successful corrected step from a state `Run` accepts moves right, so the chunk size is positive. */
  lemma CorrectedStepAdvances(text: string, videoId: string, chunkSize: Int32, st: ChunkState)
    requires 0 <= st.start < |text| <= INT32_MAX
    requires chunkSize > 0 || st.start == 0
    requires Step(Corrected, text, videoId, chunkSize, 0, st).Ok?
    ensures chunkSize > 0 && st.start < Step(Corrected, text, videoId, chunkSize, 0, st).value.start
  {
  }

  /** The inductive case: one successful step to `next`, then the rest of the run. */
  lemma {:induction false} AgreeFromStep(text: string, videoId: string, chunkSize: Int32, st: ChunkState, next: ChunkState, fuel: nat)
    requires 0 <= st.start < next.start <= |text| <= INT32_MAX && chunkSize > 0
    requires fuel > 0 && fuel - 1 >= |text| - next.start
    requires Step(Corrected, text, videoId, chunkSize, 0, st) == Ok(next)
    ensures LoopsAgree(text, videoId, chunkSize, st, fuel)
    decreases |text| - st.start, 0
  {
    RunAgreesWithoutOverlap(text, videoId, chunkSize, next, OneLess(fuel));
    AgreeAfterStep(text, videoId, chunkSize, st, next, fuel);
  }

  /**
   * With `overlap == 0` the source's loop does terminate, within |text|
   * iterations, and returns exactly what the corrected ChunkText returns.
   */
  lemma NoOverlapAgrees(text: string, videoId: string, chunkSize: Int32, fuel: nat)
    requires |text| <= fuel && |text| <= INT32_MAX
    ensures ChunkTextAsWritten(text, videoId, chunkSize, 0, fuel) == ToOutcome(ChunkText(text, videoId, chunkSize, 0))
  {
    if !AllWhite(text) {
      RunAgreesWithoutOverlap(text, videoId, chunkSize, INITIAL_STATE, fuel);
    }
  }

  // ---------------------------------------------------------------------
  // ChunkTranscript and ChunkMultipleTranscripts (lines 86-116).
  // ---------------------------------------------------------------------

  const TRANSCRIPT_KEYS: set<string> := {"title", "duration", "url"}

  /** Adds the transcript's title, duration and watch URL to a chunk's metadata. */
  function Decorate(c: TextChunk, title: string, duration: string, url: string): (d: TextChunk)
    ensures d.content == c.content && d.chunkIndex == c.chunkIndex && d.videoId == c.videoId
    ensures d.metadata.Keys == c.metadata.Keys + TRANSCRIPT_KEYS
    ensures forall k :: k in c.metadata && k !in TRANSCRIPT_KEYS ==> d.metadata[k] == c.metadata[k]
    ensures d.metadata["title"] == MetaString(title) && d.metadata["duration"] == MetaString(duration)
    ensures d.metadata["url"] == MetaString(url)
  {
    c.(metadata := c.metadata["title" := MetaString(title)]["duration" := MetaString(duration)]["url" := MetaString(url)])
  }

  /**
   * `ChunkTranscript`: the chunks of the transcript text, each decorated with
   * the title, the duration as `formatDuration` renders it
   * (`TimeSpan.ToString()`), and the watch URL of the video.
   */
  function ChunkTranscript(t: TranscriptData, chunkSize: Int32, overlap: Int32, formatDuration: TimeSpan -> string)
    : (r: Result<seq<TextChunk>, Exception>)
    requires |t.transcriptText| <= INT32_MAX
    ensures r.Ok? <==> ChunkText(t.transcriptText, t.videoId, chunkSize, overlap).Ok?
    ensures r.Ok? ==> var plain := ChunkText(t.transcriptText, t.videoId, chunkSize, overlap).value;
      && |r.value| == |plain|
      && forall i :: 0 <= i < |r.value| ==>
        r.value[i] == Decorate(plain[i], t.title, formatDuration(t.duration), WatchUrl(t.videoId))
  {
    var chunks :- ChunkText(t.transcriptText, t.videoId, chunkSize, overlap);
    Ok(DecorateAll(chunks, t.title, formatDuration(t.duration), WatchUrl(t.videoId)))
  }

  /** The `foreach` of lines 91-96: every chunk decorated, in order. */
  function DecorateAll(chunks: seq<TextChunk>, title: string, duration: string, url: string): (r: seq<TextChunk>)
    ensures |r| == |chunks|
    ensures forall i :: 0 <= i < |r| ==> r[i] == Decorate(chunks[i], title, duration, url)
  {
    seq(|chunks|, i requires 0 <= i < |chunks| => Decorate(chunks[i], title, duration, url))
  }

  /**
   * Every chunk of a transcript keeps its text, its number and its video,
   * and carries the transcript's title, duration and watch URL besides the
   * chunker's own metadata.
   */
  lemma ChunkTranscriptMetadata(t: TranscriptData, chunkSize: Int32, overlap: Int32, formatDuration: TimeSpan -> string, i: int)
    requires |t.transcriptText| <= INT32_MAX
    requires ChunkTranscript(t, chunkSize, overlap, formatDuration).Ok?
    requires 0 <= i < |ChunkTranscript(t, chunkSize, overlap, formatDuration).value|
    ensures var c := ChunkTranscript(t, chunkSize, overlap, formatDuration).value[i];
      var plain := ChunkText(t.transcriptText, t.videoId, chunkSize, overlap).value;
      && c.content == plain[i].content && c.content == Trim(t.transcriptText[StartOf(plain[i])..EndOf(plain[i])])
      && c.chunkIndex == i && c.videoId == t.videoId
      && c.metadata.Keys == {"video_id", "chunk_id", "start_position", "end_position", "title", "duration", "url"}
      && c.metadata["video_id"] == MetaString(t.videoId)
      && c.metadata["chunk_id"] == MetaInt(i)
      && c.metadata["title"] == MetaString(t.title)
      && c.metadata["duration"] == MetaString(formatDuration(t.duration))
      && c.metadata["url"] == MetaString(WatchUrl(t.videoId))
  {
    var plain := ChunkText(t.transcriptText, t.videoId, chunkSize, overlap).value;
    assert IsChunkOf(t.transcriptText, t.videoId, chunkSize, plain[i], i);
    DecoratedChunk(t.transcriptText, t.videoId, chunkSize, plain[i], i, t.title, formatDuration(t.duration), WatchUrl(t.videoId));
  }

  /** Decorating the `i`-th chunk of a text keeps what the chunker recorded and adds the three transcript keys. */
  lemma DecoratedChunk(text: string, videoId: string, chunkSize: Int32, c: TextChunk, i: int, title: string, duration: string, url: string)
    requires IsChunkOf(text, videoId, chunkSize, c, i)
    ensures var d := Decorate(c, title, duration, url);
      && d.content == c.content && d.content == Trim(text[StartOf(c)..EndOf(c)])
      && d.chunkIndex == i && d.videoId == videoId
      && d.metadata.Keys == {"video_id", "chunk_id", "start_position", "end_position", "title", "duration", "url"}
      && d.metadata["video_id"] == MetaString(videoId)
      && d.metadata["chunk_id"] == MetaInt(i)
      && d.metadata["title"] == MetaString(title)
      && d.metadata["duration"] == MetaString(duration)
      && d.metadata["url"] == MetaString(url)
  {
  }

  /** The first failure of the two, else both lists one after the other. */
  function Concat(a: Result<seq<TextChunk>, Exception>, b: Result<seq<TextChunk>, Exception>): Result<seq<TextChunk>, Exception> {
    if a.Err? then a else if b.Err? then b else Ok(a.value + b.value)
  }

  ghost predicate TextsFit(ts: seq<TranscriptData>) {
    forall i :: 0 <= i < |ts| ==> |ts[i].transcriptText| <= INT32_MAX
  }

  /** `ChunkMultipleTranscripts`: each transcript's chunks, in input order; the first failure aborts. */
  function ChunkMultipleTranscripts(ts: seq<TranscriptData>, chunkSize: Int32, overlap: Int32, formatDuration: TimeSpan -> string)
    : (r: Result<seq<TextChunk>, Exception>)
    requires TextsFit(ts)
    ensures r.Ok? <==> forall i :: 0 <= i < |ts| ==> ChunkTranscript(ts[i], chunkSize, overlap, formatDuration).Ok?
    decreases |ts|
  {
    if |ts| == 0 then Ok([])
    else
      var r := Concat(ChunkTranscript(ts[0], chunkSize, overlap, formatDuration),
                      ChunkMultipleTranscripts(ts[1..], chunkSize, overlap, formatDuration));
      assert forall i :: 1 <= i < |ts| ==> ts[i] == ts[1..][i - 1];
      r
  }

  /**
   * A lone transcript's result is `ChunkMultipleTranscripts`' result. With
   * `ChunkMultipleAppend` this fixes the result of every list: the
   * transcripts' chunks concatenated in input order.
   */
  lemma ChunkMultipleOne(t: TranscriptData, chunkSize: Int32, overlap: Int32, formatDuration: TimeSpan -> string)
    requires |t.transcriptText| <= INT32_MAX
    ensures TextsFit([t])
    ensures ChunkMultipleTranscripts([t], chunkSize, overlap, formatDuration) == ChunkTranscript(t, chunkSize, overlap, formatDuration)
  {
    assert TextsFit([t]) && [t] + [] == [t];
    ChunkHead(t, [], chunkSize, overlap, formatDuration);
    ConcatNothing(ChunkTranscript(t, chunkSize, overlap, formatDuration));
  }

  /** Joining a result with an empty success changes nothing. */
  lemma ConcatNothing(x: Result<seq<TextChunk>, Exception>)
    ensures Concat(x, Ok([])) == x
  {
    if x.Ok? {
      assert x.value + [] == x.value;
    }
  }

  /**
   * When `t` is the first transcript whose chunking fails, chunking the list
   * throws its exception: the transcripts after it are never looked at.
   */
  lemma ChunkMultipleFirstFailure(
    a: seq<TranscriptData>, t: TranscriptData, b: seq<TranscriptData>,
    chunkSize: Int32, overlap: Int32, formatDuration: TimeSpan -> string)
    requires TextsFit(a) && |t.transcriptText| <= INT32_MAX && TextsFit(b)
    requires forall j :: 0 <= j < |a| ==> ChunkTranscript(a[j], chunkSize, overlap, formatDuration).Ok?
    requires ChunkTranscript(t, chunkSize, overlap, formatDuration).Err?
    ensures TextsFit(a + [t] + b)
    ensures ChunkMultipleTranscripts(a + [t] + b, chunkSize, overlap, formatDuration)
         == Err(ChunkTranscript(t, chunkSize, overlap, formatDuration).error)
  {
    var tail := [t] + b;
    assert TextsFit([t]);
    TextsFitSplit([t], b);
    TextsFitSplit(a, tail);
    assert a + [t] + b == a + tail;
    ChunkMultipleAppend(a, tail, chunkSize, overlap, formatDuration);
    ChunkHead(t, b, chunkSize, overlap, formatDuration);
  }

  /** Chunking a list is chunking its first transcript, then the rest. */
  lemma ChunkHead(t: TranscriptData, b: seq<TranscriptData>, chunkSize: Int32, overlap: Int32, formatDuration: TimeSpan -> string)
    requires |t.transcriptText| <= INT32_MAX && TextsFit(b) && TextsFit([t] + b)
    ensures ChunkMultipleTranscripts([t] + b, chunkSize, overlap, formatDuration)
         == Concat(ChunkTranscript(t, chunkSize, overlap, formatDuration), ChunkMultipleTranscripts(b, chunkSize, overlap, formatDuration))
  {
    assert ([t] + b)[0] == t && ([t] + b)[1..] == b;
  }

  /** Joining results is associative, whichever of them failed first. */
  lemma ConcatAssociative(x: Result<seq<TextChunk>, Exception>, y: Result<seq<TextChunk>, Exception>, z: Result<seq<TextChunk>, Exception>)
    ensures Concat(x, Concat(y, z)) == Concat(Concat(x, y), z)
  {
    if x.Ok? && y.Ok? && z.Ok? {
      assert x.value + (y.value + z.value) == (x.value + y.value) + z.value;
    }
  }

  lemma TextsFitSplit(a: seq<TranscriptData>, b: seq<TranscriptData>)
    requires TextsFit(a) && TextsFit(b)
    ensures TextsFit(a + b) && (|a| > 0 ==> TextsFit(a[1..]) && (a + b)[1..] == a[1..] + b)
  {
    forall i | 0 <= i < |a + b| ensures |(a + b)[i].transcriptText| <= INT32_MAX {
      if i >= |a| { assert (a + b)[i] == b[i - |a|]; }
    }
    if |a| > 0 {
      assert (a + b)[1..] == a[1..] + b;
      forall i | 0 <= i < |a[1..]| ensures |a[1..][i].transcriptText| <= INT32_MAX {
        assert a[1..][i] == a[i + 1];
      }
    }
  }

  /**
   * Chunking a list of transcripts is chunking its two halves and
   * concatenating the results, so each transcript's chunks appear as a
   * block, in input order, numbered from 0 by ChunkTranscript.
   */
  lemma {:induction false} ChunkMultipleAppend(
    a: seq<TranscriptData>, b: seq<TranscriptData>, chunkSize: Int32, overlap: Int32, formatDuration: TimeSpan -> string)
    requires TextsFit(a) && TextsFit(b)
    ensures TextsFit(a + b)
    ensures ChunkMultipleTranscripts(a + b, chunkSize, overlap, formatDuration)
         == Concat(ChunkMultipleTranscripts(a, chunkSize, overlap, formatDuration),
                   ChunkMultipleTranscripts(b, chunkSize, overlap, formatDuration))
    decreases |a|
  {
    TextsFitSplit(a, b);
    if |a| == 0 {
      assert a + b == b;
      var rest := ChunkMultipleTranscripts(b, chunkSize, overlap, formatDuration);
      if rest.Ok? {
        assert [] + rest.value == rest.value;
      }
    } else {
      var tail := a[1..];
      var headChunks := ChunkTranscript(a[0], chunkSize, overlap, formatDuration);
      ChunkMultipleAppend(tail, b, chunkSize, overlap, formatDuration);
      assert (a + b)[0] == a[0];
      ConcatAssociative(headChunks, ChunkMultipleTranscripts(tail, chunkSize, overlap, formatDuration),
                        ChunkMultipleTranscripts(b, chunkSize, overlap, formatDuration));
    }
  }
}

=== FILE: common.dfy ===
/**
 * Values shared by every component of the model: an Option and a
 * failure-compatible Result, the exceptions the services raise, and C#'s
 * 32-bit `int` with its unchecked wrap-around.
 */
module Common {

  datatype Option<+T> = None | Some(value: T)

  /** The outcome of an operation that may throw: `Err` carries the exception. */
  datatype Result<+T, +E> = Ok(value: T) | Err(error: E) {
    predicate IsFailure() {
      Err?
    }

    function PropagateFailure<U>(): Result<U, E>
      requires Err?
    {
      Err(error)
    }

    function Extract(): T
      requires Ok?
    {
      value
    }
  }

  /**
   * The exception classes the services raise or catch. Framework exceptions
   * whose text comes from the runtime carry an empty message here; the
   * services' own messages are modelled character for character.
   */
  datatype ExceptionKind =
    | General                          // System.Exception, Python Exception
    | HttpRequest                      // HttpRequestException
    | Argument                         // ArgumentException
    | ArgumentOutOfRange(paramName: string)
    | FileNotFound                     // FileNotFoundException
    | Json                             // JsonException
    | ValueError                       // Python ValueError
    | TranscriptsDisabled              // youtube_transcript_api
    | NoTranscriptFound                // youtube_transcript_api

  datatype Exception = Exception(kind: ExceptionKind, message: string, inner: Option<Exception>)

  /** `new Exception(message, inner)`: a general exception keeping its cause. */
  function WrapException(message: string, cause: Exception): (e: Exception)
    ensures e.inner == Some(cause) && e.kind == General
  {
    Exception(General, message, Some(cause))
  }

  const INT32_MIN: int := -0x8000_0000
  const INT32_MAX: int := 0x7FFF_FFFF
  const TWO_POW_32: int := 0x1_0000_0000

  type Int32 = x: int | INT32_MIN <= x <= INT32_MAX

  /**
   * C#'s unchecked `a + b` or `a - b` on two 32-bit operands: the exact sum
   * (which lies in [2*INT32_MIN, 2*INT32_MAX + 1]) reduced to the one 32-bit
   * value congruent to it modulo 2^32.
   */
  function Wrap32(x: int): (r: Int32)
    requires 2 * INT32_MIN <= x <= 2 * INT32_MAX + 1
    ensures (r - x) % TWO_POW_32 == 0
    ensures INT32_MIN <= x <= INT32_MAX ==> r == x
    ensures x > INT32_MAX ==> r < 0
  {
    if x > INT32_MAX then x - TWO_POW_32
    else if x < INT32_MIN then x + TWO_POW_32
    else x
  }

  function Min(a: int, b: int): int {
    if a <= b then a else b
  }

  function Max(a: int, b: int): int {
    if a >= b then a else b
  }
}

=== FILE: dotnet_search.dfy ===
/**
 * .NET's backward searches `string.LastIndexOf(value, startIndex, count,
 * StringComparison.Ordinal)` and `string.LastIndexOf(char, startIndex,
 * count)`, including the argument checks that make them throw
 * ArgumentOutOfRangeException. Both examine the `count` positions that end
 * at `startIndex` (inclusive); a string match must lie wholly inside them.
 */
module DotNetSearch {
  import opened Common
  import opened Text

  /** The last index `p` with `lo <= p` and `p + |value| <= hi` where `value` occurs, or -1. */
  function LastMatchIn(s: string, value: string, lo: int, hi: int): (r: int)
    requires 0 <= lo && hi <= |s|
    ensures r == -1 || (lo <= r && r + |value| <= hi && OccursAt(s, value, r))
    ensures forall p :: r < p && lo <= p && p + |value| <= hi ==> !OccursAt(s, value, p)
    decreases hi - lo
  {
    if hi - lo < |value| then -1
    else if OccursAt(s, value, hi - |value|) then hi - |value|
    else LastMatchIn(s, value, lo, hi - 1)
  }

  function StartIndexOutOfRange(): Exception {
    Exception(ArgumentOutOfRange("startIndex"), "", None)
  }

  function CountOutOfRange(): Exception {
    Exception(ArgumentOutOfRange("count"), "", None)
  }

  /** The search window of `count` positions ending at `last`, which lies inside `s`. */
  function SearchEndingAt(s: string, value: string, last: int, count: int): (r: Result<int, Exception>)
    requires 0 <= last < |s|
    ensures r.Err? <==> count < 0 || count > last + 1
    ensures r.Err? ==> r == Err(CountOutOfRange())
  {
    var from := last - count + 1;
    if count < 0 || from < 0 then Err(CountOutOfRange())
    else Ok(LastMatchIn(s, value, from, last + 1))
  }

  /**
   * `s.LastIndexOf(value, startIndex, count, StringComparison.Ordinal)` for a
   * non-empty `value`. As in .NET, `startIndex == s.Length` is tolerated by
   * moving one position (and one count) back.
   */
  function LastIndexOfOrdinal(s: string, value: string, startIndex: int, count: int): (r: Result<int, Exception>)
    requires |value| > 0
    ensures 0 <= startIndex < |s| ==> (r.Err? <==> count < 0 || count > startIndex + 1)
    ensures (startIndex < -1 || startIndex > |s|) ==> r == Err(StartIndexOutOfRange())
    ensures r.Err? ==> r.error.kind.ArgumentOutOfRange?
    ensures 0 <= startIndex < |s| && r.Ok? ==>
      && (r.value == -1 || (startIndex - count + 1 <= r.value && r.value + |value| <= startIndex + 1 && OccursAt(s, value, r.value)))
      && (forall p :: r.value < p && startIndex - count + 1 <= p && p + |value| <= startIndex + 1 ==> !OccursAt(s, value, p))
  {
    if 0 <= startIndex < |s| then
      SearchEndingAt(s, value, startIndex, count)
    else if startIndex == -1 && |s| == 0 then
      Ok(-1)
    else if startIndex == |s| then
      if |s| == 0 then Ok(-1)
      else SearchEndingAt(s, value, startIndex - 1, if count > 0 then count - 1 else count)
    else
      Err(StartIndexOutOfRange())
  }

  /** `s.LastIndexOf(c, startIndex, count)`: searches `s[startIndex - count + 1 .. startIndex]`. */
  function LastIndexOfChar(s: string, c: char, startIndex: int, count: int): (r: Result<int, Exception>)
    ensures |s| > 0 ==> (r.Err? <==> !(0 <= startIndex < |s|) || count < 0 || count > startIndex + 1)
    ensures r.Err? ==> r.error.kind.ArgumentOutOfRange?
    ensures r.Ok? && r.value != -1 ==>
      startIndex - count + 1 <= r.value <= startIndex && 0 <= r.value < |s| && s[r.value] == c
    ensures r.Ok? && |s| > 0 ==>
      forall p :: r.value < p <= startIndex && startIndex - count + 1 <= p ==> s[p] != c
  {
    if |s| == 0 then Ok(-1)
    else if !(0 <= startIndex < |s|) then Err(StartIndexOutOfRange())
    else if count < 0 || count > startIndex + 1 then Err(CountOutOfRange())
    else
      var r := LastMatchIn(s, [c], startIndex + 1 - count, startIndex + 1);
      assert r != -1 ==> s[r] == s[r..r + 1][0];
      assert forall p :: r < p <= startIndex && startIndex - count + 1 <= p ==> !OccursAt(s, [c], p);
      assert forall p :: 0 <= p < |s| && s[p] == c ==> OccursAt(s, [c], p) by {
        forall p | 0 <= p < |s| && s[p] == c ensures OccursAt(s, [c], p) {
          assert s[p..p + 1] == [c];
        }
      }
      Ok(r)
  }
}

=== FILE: fetcher.dfy ===
/**
 * The deterministic parts of TranscriptFetcherService.cs: reading a video
 * id out of a URL, choosing a caption track, assembling a TranscriptData
 * from the captions, and fetching several videos while skipping failures.
 *
 * `new Uri(...)` is not modelled: its outcome (the `Query` and
 * `AbsolutePath` it yields, or the exception it throws) is an input. The
 * YoutubeExplode client calls are parameters that may fail, and the clock
 * reading is the parameter `now`.
 */
module Fetcher {
  import opened Common
  import opened Text
  import opened Models

  /** The parts of a parsed `System.Uri` that `ExtractVideoId` reads. */
  datatype UriParts = UriParts(query: string, absolutePath: string)

  /** `s.TrimStart(c)`: drops every leading `c`. */
  function TrimStartChar(s: string, c: char): (r: string)
    ensures |r| <= |s| && r == s[|s| - |r|..]
    ensures forall i :: 0 <= i < |s| - |r| ==> s[i] == c
    ensures r == [] || r[0] != c
    decreases |s|
  {
    if |s| > 0 && s[0] == c then TrimStartChar(s[1..], c) else s
  }

  /** The value of a query parameter `v=<value>` that splits on `=` into exactly two parts. */
  function VideoParam(param: string): (r: Option<string>)
    ensures r.Some? <==> |Split(param, '=')| == 2 && Split(param, '=')[0] == "v"
    ensures r.Some? ==> param == "v=" + r.value && '=' !in r.value
  {
    var kv := Split(param, '=');
    if |kv| == 2 && kv[0] == "v" then
      assert Join(kv, "=") == kv[0] + "=" + kv[1];
      Some(kv[1])
    else None
  }

  /** The value of the first parameter that is a video parameter. */
  function FirstVideoParam(params: seq<string>): (r: Option<string>)
    ensures r.None? <==> forall k :: 0 <= k < |params| ==> VideoParam(params[k]).None?
    ensures r.Some? ==> exists k :: (0 <= k < |params| && VideoParam(params[k]) == r
      && forall j :: 0 <= j < k ==> VideoParam(params[j]).None?)
  {
    if |params| == 0 then None
    else if VideoParam(params[0]).Some? then VideoParam(params[0])
    else
      var r := FirstVideoParam(params[1..]);
      FirstVideoParamShift(params, r);
      r
  }

  /** A first video parameter of `params[1..]` is one of `params` when `params[0]` is not one. */
  lemma FirstVideoParamShift(params: seq<string>, r: Option<string>)
    requires |params| > 0 && VideoParam(params[0]).None?
    requires r.None? <==> forall k :: 0 <= k < |params[1..]| ==> VideoParam(params[1..][k]).None?
    requires r.Some? ==> exists k :: (0 <= k < |params[1..]| && VideoParam(params[1..][k]) == r
      && forall j :: 0 <= j < k ==> VideoParam(params[1..][j]).None?)
    ensures r.None? <==> forall k :: 0 <= k < |params| ==> VideoParam(params[k]).None?
    ensures r.Some? ==> exists k :: (0 <= k < |params| && VideoParam(params[k]) == r
      && forall j :: 0 <= j < k ==> VideoParam(params[j]).None?)
  {
    NoVideoParamShift(params);
    if r.Some? {
      var k :| 0 <= k < |params[1..]| && VideoParam(params[1..][k]) == r
        && forall j :: 0 <= j < k ==> VideoParam(params[1..][j]).None?;
      VideoParamShiftAt(params, k);
    }
  }

  /** With `params[0]` no video parameter, `params` has one exactly when `params[1..]` has. */
  lemma NoVideoParamShift(params: seq<string>)
    requires |params| > 0 && VideoParam(params[0]).None?
    ensures (forall k :: 0 <= k < |params[1..]| ==> VideoParam(params[1..][k]).None?)
        <==> (forall k :: 0 <= k < |params| ==> VideoParam(params[k]).None?)
  {
    var tail := params[1..];
    if forall k :: 0 <= k < |tail| ==> VideoParam(tail[k]).None? {
      forall k | 0 <= k < |params| ensures VideoParam(params[k]).None? {
        if k > 0 { assert params[k] == tail[k - 1]; }
      }
    }
  }

  /** Index `k` of `params[1..]` is index `k + 1` of `params`, and so are the indices before it. */
  lemma VideoParamShiftAt(params: seq<string>, k: int)
    requires |params| > 0 && VideoParam(params[0]).None?
    requires 0 <= k < |params[1..]| && forall j :: 0 <= j < k ==> VideoParam(params[1..][j]).None?
    ensures params[k + 1] == params[1..][k]
    ensures forall j :: 0 <= j < k + 1 ==> VideoParam(params[j]).None?
  {
    forall j | 0 <= j < k + 1 ensures VideoParam(params[j]).None? {
      if j > 0 { assert params[j] == params[1..][j - 1]; }
    }
  }

  const NO_VIDEO_ID: string := "Invalid YouTube URL - no video ID found"

  /** The query parameters of a parsed URL: the query without its leading `?`, split at `&`. */
  function QueryParams(u: UriParts): seq<string> {
    Split(TrimStartChar(u.query, '?'), '&')
  }

  /**
   * The watch-URL branch of `ExtractVideoId`: the value of the first query
   * parameter that is exactly `v=<value>`, or the "no video ID" exception
   * when no parameter is.
   */
  function WatchId(u: UriParts): (r: Result<string, Exception>)
    ensures r.Ok? ==> '&' !in r.value && '=' !in r.value
    ensures r.Ok? ==> exists k :: (0 <= k < |QueryParams(u)| && QueryParams(u)[k] == "v=" + r.value
      && forall j :: 0 <= j < k ==> VideoParam(QueryParams(u)[j]).None?)
    ensures r.Err? <==> forall k :: 0 <= k < |QueryParams(u)| ==> VideoParam(QueryParams(u)[k]).None?
    ensures r.Err? ==> r == Err(Exception(General, NO_VIDEO_ID, None))
  {
    var params := QueryParams(u);
    match FirstVideoParam(params)
    case Some(v) =>
      var k :| 0 <= k < |params| && VideoParam(params[k]) == Some(v);
      NotInSuffix('&', "v=", v);
      Ok(v)
    case None => Err(Exception(General, NO_VIDEO_ID, None))
  }

  /** A character missing from `p + v` is missing from `v`. */
  lemma NotInSuffix(c: char, p: string, v: string)
    ensures c !in p + v ==> c !in v
  {
    assert forall i :: 0 <= i < |v| ==> (p + v)[|p| + i] == v[i];
  }

  /**
   * The short-URL branch: the path without its leading `/`, cut at the
   * first `?`: all of it when it has no `?`, else the part before the first.
   */
  function ShortId(u: UriParts): (r: string)
    ensures var p := TrimStartChar(u.absolutePath, '/');
      && '?' !in r && r <= p
      && (r == p || (|r| < |p| && p[|r|] == '?'))
  {
    var path := TrimStartChar(u.absolutePath, '/');
    SplitFirstIsPrefix(path, '?');
    Split(path, '?')[0]
  }

  /**
   * `ExtractVideoId(videoIdOrUrl)`; `uri` is the outcome of
   * `new Uri(videoIdOrUrl)`, which is evaluated only for YouTube URLs.
   */
  function ExtractVideoId(input: string, uri: Result<UriParts, Exception>): (r: Result<string, Exception>)
    ensures !Contains(input, "youtube.com") && !Contains(input, "youtu.be") ==> r == Ok(input)
    ensures (Contains(input, "youtube.com") || Contains(input, "youtu.be")) && uri.Err? ==> r == Err(uri.error)
    ensures r.Ok? && Contains(input, "youtube.com/watch") ==>
      '&' !in r.value && '=' !in r.value && uri.Ok?
      && exists k :: (0 <= k < |Split(TrimStartChar(uri.value.query, '?'), '&')|
        && Split(TrimStartChar(uri.value.query, '?'), '&')[k] == "v=" + r.value)
    ensures r.Ok? && !Contains(input, "youtube.com/watch") && Contains(input, "youtu.be/") ==>
      '?' !in r.value && uri.Ok? && r.value <= TrimStartChar(uri.value.absolutePath, '/')
    ensures r.Err? && uri.Ok? ==> r == Err(Exception(General, NO_VIDEO_ID, None))
    ensures uri.Ok? && Contains(input, "youtube.com/watch") ==> r == WatchId(uri.value)
    ensures uri.Ok? && !Contains(input, "youtube.com/watch") && Contains(input, "youtu.be/") ==>
      r == Ok(ShortId(uri.value))
    ensures (&& uri.Ok? && (Contains(input, "youtube.com") || Contains(input, "youtu.be"))
             && !Contains(input, "youtube.com/watch") && !Contains(input, "youtu.be/"))
      ==> r == Ok(input)
  {
    MarkersNest(input);
    if Contains(input, "youtube.com") || Contains(input, "youtu.be") then
      match uri
      case Err(e) => Err(e)
      case Ok(u) =>
        if Contains(input, "youtube.com/watch") then WatchId(u)
        else if Contains(input, "youtu.be/") then Ok(ShortId(u))
        else Ok(input)
    else
      Ok(input)
  }

  /** A string that contains `p + q` contains `p`. */
  lemma ContainsPrefix(s: string, p: string, q: string)
    ensures Contains(s, p + q) ==> Contains(s, p)
  {
    if Contains(s, p + q) {
      var i :| 0 <= i <= |s| - |p + q| && OccursAt(s, p + q, i);
      assert s[i..i + |p|] == (p + q)[..|p|];
      assert OccursAt(s, p, i);
    }
  }

  /** A watch URL is a youtube.com URL, and a "youtu.be/" URL a "youtu.be" one. */
  lemma MarkersNest(s: string)
    ensures Contains(s, "youtube.com/watch") ==> Contains(s, "youtube.com")
    ensures Contains(s, "youtu.be/") ==> Contains(s, "youtu.be")
  {
    assert "youtube.com" + "/watch" == "youtube.com/watch" && "youtu.be" + "/" == "youtu.be/";
    ContainsPrefix(s, "youtube.com", "/watch");
    ContainsPrefix(s, "youtu.be", "/");
  }

  /** The first piece of a split is a prefix of the string. */
  lemma {:induction false} SplitFirstIsPrefix(s: string, c: char)
    ensures Split(s, c)[0] <= s
    ensures Split(s, c)[0] == s || (|Split(s, c)[0]| < |s| && s[|Split(s, c)[0]|] == c)
  {
    if c in s {
      var i := FirstIndexOfChar(s, c);
      assert Split(s, c)[0] == s[..i];
    }
  }

  /**
   * Reading the id back out of a watch URL built from it: when the query is
   * `?` followed by `&`-joined parameters of which the first video
   * parameter is `v=<id>`, the id is returned.
   */
  lemma WatchUrlRoundTrip(input: string, params: seq<string>, k: nat, id: string, path: string)
    requires Contains(input, "youtube.com/watch")
    requires k < |params| && params[k] == "v=" + id
    requires '&' !in id && '=' !in id
    requires forall j :: 0 <= j < |params| ==> '&' !in params[j]
    requires forall j :: 0 <= j < k ==> VideoParam(params[j]).None?
    requires |params[0]| > 0 && params[0][0] != '?'
    ensures ExtractVideoId(input, Ok(UriParts("?" + Join(params, "&"), path))) == Ok(id)
  {
    var query := Join(params, "&");
    JoinStartsWithFirst(params, "&");
    TrimOneMark(query);
    SplitJoin(params, '&');
    VideoParamOfId(id);
    FirstVideoParamAt(params, k);
    assert FirstVideoParam(Split(TrimStartChar("?" + query, '?'), '&')) == Some(id);
    MarkersNest(input);
  }

  lemma TrimOneMark(query: string)
    requires |query| > 0 && query[0] != '?'
    ensures TrimStartChar("?" + query, '?') == query
  {
    assert ("?" + query)[1..] == query;
  }

  lemma {:induction false} FirstVideoParamAt(params: seq<string>, k: nat)
    requires k < |params| && VideoParam(params[k]).Some?
    requires forall j :: 0 <= j < k ==> VideoParam(params[j]).None?
    ensures FirstVideoParam(params) == VideoParam(params[k])
    decreases k
  {
    if k > 0 {
      assert params[1..][k - 1] == params[k];
      assert forall j :: 0 <= j < k - 1 ==> params[1..][j] == params[j + 1];
      FirstVideoParamAt(params[1..], k - 1);
    }
  }

  lemma VideoParamOfId(id: string)
    requires '&' !in id && '=' !in id
    ensures VideoParam("v=" + id) == Some(id)
  {
    var p := "v=" + id;
    assert p == "v" + ['='] + id;
    FirstIndexAfterPrefix("v", '=', id);
    assert p[..1] == "v" && p[2..] == id;
    assert Split(id, '=') == [id];
  }

  // ---------------------------------------------------------------------
  // Caption tracks and captions
  // ---------------------------------------------------------------------

  datatype Track = Track(languageCode: string, languageName: string)

  predicate IsEnglish(t: Track) {
    "en" <= t.languageCode
  }

  /** The first track whose language code starts with "en", else the first track, else none. */
  function SelectTrack(tracks: seq<Track>): (r: Option<Track>)
    ensures r.Some? <==> |tracks| > 0
    ensures r.Some? ==> exists k :: 0 <= k < |tracks| && tracks[k] == r.value
    ensures (exists k :: 0 <= k < |tracks| && IsEnglish(tracks[k])) ==>
      r.Some? && IsEnglish(r.value)
      && exists k :: 0 <= k < |tracks| && tracks[k] == r.value && forall j :: 0 <= j < k ==> !IsEnglish(tracks[j])
    ensures (forall k :: 0 <= k < |tracks| ==> !IsEnglish(tracks[k])) && |tracks| > 0 ==> r == Some(tracks[0])
  {
    match FirstEnglish(tracks)
    case Some(k) => Some(tracks[k])
    case None => if |tracks| > 0 then Some(tracks[0]) else None
  }

  function FirstEnglish(tracks: seq<Track>): (r: Option<nat>)
    ensures r.None? <==> forall k :: 0 <= k < |tracks| ==> !IsEnglish(tracks[k])
    ensures r.Some? ==> (r.value < |tracks| && IsEnglish(tracks[r.value])
      && forall j :: 0 <= j < r.value ==> !IsEnglish(tracks[j]))
  {
    if |tracks| == 0 then None
    else if IsEnglish(tracks[0]) then Some(0)
    else
      assert forall k :: 1 <= k < |tracks| ==> tracks[k] == tracks[1..][k - 1];
      match FirstEnglish(tracks[1..])
      case None => None
      case Some(k) => Some(k + 1)
  }

  datatype Caption = Caption(text: string, offset: TimeSpan, duration: TimeSpan)

  /** The StringBuilder of lines 66-78: each caption's text followed by one space. */
  function CaptionBuffer(captions: seq<Caption>): string {
    if |captions| == 0 then "" else captions[0].text + " " + CaptionBuffer(captions[1..])
  }

  function CaptionText(c: Caption): string {
    c.text
  }

  /** The caption texts, in order. */
  function Texts(captions: seq<Caption>): seq<string> {
    TextsOf(captions, CaptionText)
  }

  /** The buffer is the texts joined by single spaces, plus one trailing space. */
  lemma {:induction false} CaptionBufferIsJoin(captions: seq<Caption>)
    ensures |captions| == 0 ==> CaptionBuffer(captions) == ""
    ensures |captions| > 0 ==> CaptionBuffer(captions) == Join(Texts(captions), " ") + " "
    decreases |captions|
  {
    if |captions| > 1 {
      CaptionBufferIsJoin(captions[1..]);
      assert Texts(captions)[1..] == Texts(captions[1..]);
    } else if |captions| == 1 {
      assert captions[1..] == [];
    }
  }

  /** The `TranscriptText` the service stores: the buffer, trimmed. */
  function TranscriptText(captions: seq<Caption>): (r: string)
    ensures r == Trim(Join(Texts(captions), " "))
  {
    assert Trim(CaptionBuffer(captions)) == Trim(Join(Texts(captions), " ")) by {
      CaptionBufferIsJoin(captions);
      if |captions| > 0 {
        TrimSpace(Join(Texts(captions), " "));
      }
    }
    Trim(CaptionBuffer(captions))
  }

  /** One segment per caption, in order. */
  function Segments(captions: seq<Caption>): (r: seq<TranscriptSegment>)
    ensures |r| == |captions|
    ensures forall i :: 0 <= i < |r| ==>
      r[i].text == captions[i].text && r[i].startTime == captions[i].offset && r[i].duration == captions[i].duration
  {
    seq(|captions|, i requires 0 <= i < |captions| => TranscriptSegment(captions[i].text, captions[i].offset, captions[i].duration))
  }

  // ---------------------------------------------------------------------
  // FetchTranscriptAsync / FetchMultipleTranscriptsAsync
  // ---------------------------------------------------------------------

  /** What `Videos.GetAsync` reports: the title and a duration that may be missing. */
  datatype Video = Video(title: string, duration: Option<TimeSpan>)

  function NoCaptions(videoId: string): Exception {
    Exception(General, "No captions available for video: " + videoId, None)
  }

  /**
   * `FetchTranscriptAsync(videoIdOrUrl)`: every exception is rethrown as is
   * (`throw;`), so an `Err` is the first failing step's exception, and the
   * fetch succeeds exactly when every step does and some track exists.
   */
  function FetchTranscript(input: string, uri: Result<UriParts, Exception>,
                           getVideo: string -> Result<Video, Exception>,
                           getManifest: string -> Result<seq<Track>, Exception>,
                           getCaptions: Track -> Result<seq<Caption>, Exception>,
                           now: DateTime): (r: Result<TranscriptData, Exception>)
    ensures ExtractVideoId(input, uri).Err? ==> r == Err(ExtractVideoId(input, uri).error)
    ensures r.Ok? ==> ExtractVideoId(input, uri).Ok?
    ensures r.Ok? ==>
      var id := ExtractVideoId(input, uri).value;
      getVideo(id).Ok? && getManifest(id).Ok? && SelectTrack(getManifest(id).value).Some?
    ensures r.Ok? ==>
      var id := ExtractVideoId(input, uri).value;
      var track := SelectTrack(getManifest(id).value).value;
      && getCaptions(track).Ok?
      && r.value.videoId == id
      && r.value.title == getVideo(id).value.title
      && r.value.transcriptText == Trim(Join(Texts(getCaptions(track).value), " "))
      && r.value.segments == Segments(getCaptions(track).value)
      && r.value.duration == (if getVideo(id).value.duration.Some? then getVideo(id).value.duration.value else ZERO_SPAN)
      && r.value.fetchedAt == now
    ensures ExtractVideoId(input, uri).Ok? ==>
      var id := ExtractVideoId(input, uri).value;
      getVideo(id).Err? ==> r == Err(getVideo(id).error)
    ensures ExtractVideoId(input, uri).Ok? ==>
      var id := ExtractVideoId(input, uri).value;
      getVideo(id).Ok? && getManifest(id).Err? ==> r == Err(getManifest(id).error)
    ensures ExtractVideoId(input, uri).Ok? ==>
      var id := ExtractVideoId(input, uri).value;
      getVideo(id).Ok? && getManifest(id) == Ok([]) ==> r == Err(NoCaptions(id))
    ensures ExtractVideoId(input, uri).Ok? ==>
      var id := ExtractVideoId(input, uri).value;
      getVideo(id).Ok? && getManifest(id).Ok? && |getManifest(id).value| > 0 ==>
      var track := SelectTrack(getManifest(id).value).value;
      && (getCaptions(track).Err? ==> r == Err(getCaptions(track).error))
      && (getCaptions(track).Ok? ==> r.Ok?)
  {
    var id :- ExtractVideoId(input, uri);
    var video :- getVideo(id);
    var tracks :- getManifest(id);
    match SelectTrack(tracks)
    case None => Err(NoCaptions(id))
    case Some(track) =>
      var captions :- getCaptions(track);
      var duration := if video.duration.Some? then video.duration.value else ZERO_SPAN;
      Ok(TranscriptData(id, video.title, TranscriptText(captions), Segments(captions), duration, now))
  }

  /** `FetchMultipleTranscriptsAsync`: the successful fetches in input order; failures are skipped. */
  function FetchMultiple(inputs: seq<string>, fetch: string -> Result<TranscriptData, Exception>): (r: seq<TranscriptData>)
    ensures |r| <= |inputs|
    ensures forall t :: t in r ==> exists i :: 0 <= i < |inputs| && fetch(inputs[i]) == Ok(t)
    ensures (forall i :: 0 <= i < |inputs| ==> fetch(inputs[i]).Ok?) ==>
      |r| == |inputs| && forall i :: 0 <= i < |inputs| ==> r[i] == fetch(inputs[i]).value
    ensures (forall i :: 0 <= i < |inputs| ==> fetch(inputs[i]).Err?) ==> r == []
  {
    if |inputs| == 0 then []
    else
      var rest := FetchMultiple(inputs[1..], fetch);
      assert forall i :: 1 <= i < |inputs| ==> inputs[i] == inputs[1..][i - 1];
      match fetch(inputs[0])
      case Ok(t) => [t] + rest
      case Err(_) => rest
  }

  /** Fetching a list in two parts gives the same transcripts in the same order. */
  lemma {:induction false} FetchMultipleAppend(a: seq<string>, b: seq<string>, fetch: string -> Result<TranscriptData, Exception>)
    ensures FetchMultiple(a + b, fetch) == FetchMultiple(a, fetch) + FetchMultiple(b, fetch)
    decreases |a|
  {
    if |a| == 0 {
      assert a + b == b;
    } else {
      assert (a + b)[0] == a[0] && (a + b)[1..] == a[1..] + b;
      FetchMultipleAppend(a[1..], b, fetch);
    }
  }
}

=== FILE: models.dfy ===
/**
 * The records of YouTubeRAGChatbot.Core/Models/TranscriptData.cs as immutable
 * datatypes, with the values a freshly constructed object holds.
 */
module Models {

  /** A TimeSpan or DateTime, as its count of 100-nanosecond ticks. */
  datatype TimeSpan = TimeSpan(ticks: int)
  datatype DateTime = DateTime(ticks: int)

  const ZERO_SPAN: TimeSpan := TimeSpan(0)

  /** `default(DateTime)`, which is `DateTime.MinValue`: zero ticks. */
  const MIN_DATE: DateTime := DateTime(0)

  /** Every component links a video as this prefix followed by its id. */
  const WATCH_URL_PREFIX: string := "https://www.youtube.com/watch?v="

  function WatchUrl(videoId: string): string {
    WATCH_URL_PREFIX + videoId
  }

  datatype TranscriptSegment = TranscriptSegment(text: string, startTime: TimeSpan, duration: TimeSpan)

  datatype TranscriptData = TranscriptData(
    videoId: string,
    title: string,
    transcriptText: string,
    segments: seq<TranscriptSegment>,
    duration: TimeSpan,
    fetchedAt: DateTime)

  /** The values a chunk's `Dictionary<string, object>` metadata holds: strings and ints. */
  datatype MetaValue = MetaString(text: string) | MetaInt(number: int)

  type Metadata = map<string, MetaValue>

  datatype TextChunk = TextChunk(content: string, metadata: Metadata, chunkIndex: int, videoId: string)

  datatype ChatMessage = ChatMessage(role: string, content: string, timestamp: DateTime)

  datatype SourceReference = SourceReference(videoId: string, chunkIndex: int, content: string, similarityScore: real)

  datatype ChatResponse = ChatResponse(answer: string, sources: seq<SourceReference>)

  /** `new TranscriptData()`: empty strings and segment list, zero duration and time. */
  function NewTranscriptData(): (t: TranscriptData)
    ensures t.videoId == "" && t.title == "" && t.transcriptText == "" && |t.segments| == 0
    ensures t.duration == ZERO_SPAN
    ensures t.fetchedAt == MIN_DATE
  {
    TranscriptData("", "", "", [], ZERO_SPAN, MIN_DATE)
  }

  /** `new TranscriptSegment()`. */
  function NewTranscriptSegment(): (s: TranscriptSegment)
    ensures s.text == "" && s.startTime == ZERO_SPAN && s.duration == ZERO_SPAN
  {
    TranscriptSegment("", ZERO_SPAN, ZERO_SPAN)
  }

  /** `new TextChunk()`. */
  function NewTextChunk(): (c: TextChunk)
    ensures c.content == "" && |c.metadata| == 0 && c.chunkIndex == 0 && c.videoId == ""
  {
    TextChunk("", map[], 0, "")
  }

  /** `new ChatMessage()`; the timestamp is the clock reading `now` (DateTime.UtcNow). */
  function NewChatMessage(now: DateTime): (m: ChatMessage)
    ensures m.role == "" && m.content == "" && m.timestamp == now
  {
    ChatMessage("", "", now)
  }

  /** `new ChatResponse()`. */
  function NewChatResponse(): (r: ChatResponse)
    ensures r.answer == "" && |r.sources| == 0
  {
    ChatResponse("", [])
  }

  /** `new SourceReference()`. */
  function NewSourceReference(): (s: SourceReference)
    ensures s.videoId == "" && s.chunkIndex == 0 && s.content == "" && s.similarityScore == 0.0
  {
    SourceReference("", 0, "", 0.0)
  }
}

=== FILE: orchestrator.dfy ===
/**
 * The two answer orchestrators of the C# core: RAGChatbotService.cs (OpenAI
 * chat completion) and HuggingFaceRAGChatbotService.cs (Hugging Face text
 * generation). `AskAsync` retrieves the 4 best chunks, builds a prompt from
 * them, asks the model and cites the chunks; `ChatAsync` renders the answer
 * with a numbered citation block.
 *
 * The vector search and the model are parameters. Each call of either is
 * recorded in a trace, so that "the model is not asked" is a statement
 * about the result.
 */
module Orchestrator {
  import opened Common
  import opened Models
  import opened Ranking
  import Text
  import VectorStore

  /** Both services ask the store for this many chunks; the configured TopK is never read. */
  const TOP_K: int := 4

  const FALLBACK_ANSWER: string := "I don't have any relevant information to answer this question."

  /** What the services ask of the outside world, in order. */
  datatype Event =
    | SearchCall(query: string, topK: int)
    | CompletionCall(prompt: string, temperature: real, maxTokens: int)

  type Search = (string, int) -> Result<seq<Ranked<TextChunk>>, Exception>

  /** The OpenAI connector's reply; `None` is a message whose content is null. */
  type OpenAICompleter = Event -> Result<Option<string>, Exception>

  type HuggingFaceCompleter = Event -> Result<string, Exception>

  /** `RAGChatbotService(vectorDatabase, apiKey, modelName, temperature)`; `MaxTokens` is always 1000. */
  datatype OpenAIConfig = OpenAIConfig(modelName: string, temperature: real)

  const OPENAI_MAX_TOKENS: int := 1000

  function DefaultOpenAIConfig(): (c: OpenAIConfig)
    ensures c.modelName == "gpt-3.5-turbo" && c.temperature == 0.3
  {
    OpenAIConfig("gpt-3.5-turbo", 0.3)
  }

  /** `HuggingFaceRAGChatbotService(vectorDatabase, huggingFaceService, temperature, maxTokens)`. */
  datatype HuggingFaceConfig = HuggingFaceConfig(temperature: real, maxTokens: int)

  function DefaultHuggingFaceConfig(): (c: HuggingFaceConfig)
    ensures c.temperature == 0.7 && c.maxTokens == 1000
  {
    HuggingFaceConfig(0.7, 1000)
  }

  /** An answer with the calls it took; `response` is `Err` when `AskAsync` throws. */
  datatype Asked = Asked(response: Result<ChatResponse, Exception>, trace: seq<Event>)

  // ---------------------------------------------------------------------
  // Context and prompt
  // ---------------------------------------------------------------------

  /** One `AppendLine($"[Video {id}]: {content}")` followed by an empty `AppendLine()`. */
  function ContextEntry(chunk: TextChunk): string {
    "[Video " + chunk.videoId + "]: " + chunk.content + "\n" + "\n"
  }

  /** The context block: one entry per retrieved chunk, in rank order. */
  function Context(hits: seq<Ranked<TextChunk>>): (r: string)
    ensures |hits| == 0 ==> r == ""
    ensures |hits| > 0 ==> ContextEntry(hits[0].item) <= r
  {
    if |hits| == 0 then "" else ContextEntry(hits[0].item) + Context(hits[1..])
  }

  /** Building the context piecewise gives the same text: entries appear in rank order. */
  lemma {:induction false} ContextAppend(a: seq<Ranked<TextChunk>>, b: seq<Ranked<TextChunk>>)
    ensures Context(a + b) == Context(a) + Context(b)
    decreases |a|
  {
    if |a| > 0 {
      assert (a + b)[0] == a[0] && (a + b)[1..] == a[1..] + b;
      ContextAppend(a[1..], b);
      var e, x, y := ContextEntry(a[0].item), Context(a[1..]), Context(b);
      assert Context(a + b) == e + (x + y);
      assert Context(a) == e + x;
      assert e + (x + y) == (e + x) + y;
    } else {
      assert a + b == b;
    }
  }

  /** The context of a ranking is the concatenation of the chunks' entries. */
  lemma {:induction false} ContextEntries(hits: seq<Ranked<TextChunk>>, i: nat)
    requires i < |hits|
    ensures Context(hits) == Context(hits[..i]) + ContextEntry(hits[i].item) + Context(hits[i + 1..])
  {
    assert hits == hits[..i] + hits[i..];
    ContextAppend(hits[..i], hits[i..]);
    assert hits[i..] == [hits[i]] + hits[i + 1..];
    ContextAppend([hits[i]], hits[i + 1..]);
    assert Context([hits[i]]) == ContextEntry(hits[i].item) by {
      assert [hits[i]][1..] == [];
    }
  }

  const PROMPT_INTRO: string :=
    "You are a helpful AI assistant that answers questions based ONLY on the provided context from YouTube video transcripts.\n"
    + "\n"
    + "Context from transcripts:\n"

  const PROMPT_QUESTION: string := "\n\nQuestion: "

  const PROMPT_INSTRUCTIONS: string :=
    "\n\nInstructions:\n"
    + "- Answer the question using ONLY the information from the provided context\n"
    + "- If the answer is not in the context, say \"I cannot find this information in the available transcripts\"\n"
    + "- Be specific and cite relevant parts of the transcript when possible\n"
    + "- Include video IDs when mentioning information from specific videos\n"
    + "- Do not make up information or use external knowledge\n"
    + "\n"
    + "Answer:"

  /** The instruction prompt of RAGChatbotService.cs:66-80, around a context and a question. */
  function Prompt(context: string, question: string): (r: string)
    ensures |r| == |PROMPT_INTRO| + |context| + |PROMPT_QUESTION| + |question| + |PROMPT_INSTRUCTIONS|
    ensures r[..|PROMPT_INTRO|] == PROMPT_INTRO
    ensures r[|r| - |PROMPT_INSTRUCTIONS|..] == PROMPT_INSTRUCTIONS
  {
    var body := context + PROMPT_QUESTION + question;
    Framed(PROMPT_INTRO, body, PROMPT_INSTRUCTIONS);
    PROMPT_INTRO + body + PROMPT_INSTRUCTIONS
  }

  const INST_OPEN: string := "<s>[INST] "
  const INST_CLOSE: string := " [/INST]"

  /**
   * The same prompt in the instruction format of HuggingFaceRAGChatbotService.cs:48-62:
   * it differs from the plain one only by the `[INST]` markers.
   */
  function InstructionPrompt(context: string, question: string): (r: string)
    ensures |r| == |INST_OPEN| + |Prompt(context, question)| + |INST_CLOSE|
    ensures r[..|INST_OPEN|] == INST_OPEN
    ensures r[|INST_OPEN|..|r| - |INST_CLOSE|] == Prompt(context, question)
    ensures r[|r| - |INST_CLOSE|..] == INST_CLOSE
  {
    Framed(INST_OPEN, Prompt(context, question), INST_CLOSE);
    INST_OPEN + Prompt(context, question) + INST_CLOSE
  }

  /** The three parts of `open + body + close` can be read back at their offsets. */
  lemma Framed(open: string, body: string, close: string)
    ensures var s := open + body + close;
      && |s| == |open| + |body| + |close|
      && s[..|open|] == open
      && s[|open|..|s| - |close|] == body
      && s[|s| - |close|..] == close
  {
    var s := open + body + close;
    assert s[..|open|] == open;
    assert s[|open|..|s| - |close|] == body;
  }

  /**
   * The prompt carries the context and the question verbatim: both can be
   * read back from it at fixed offsets.
   */
  lemma PromptEmbeds(context: string, question: string)
    ensures var p := Prompt(context, question);
      && |p| == |PROMPT_INTRO| + |context| + |PROMPT_QUESTION| + |question| + |PROMPT_INSTRUCTIONS|
      && p[|PROMPT_INTRO|..|PROMPT_INTRO| + |context|] == context
      && p[|PROMPT_INTRO| + |context| + |PROMPT_QUESTION|..|p| - |PROMPT_INSTRUCTIONS|] == question
  {
    var p := Prompt(context, question);
    var a := |PROMPT_INTRO|;
    assert p[a..a + |context|] == context;
    var b := a + |context| + |PROMPT_QUESTION|;
    assert p[b..|p| - |PROMPT_INSTRUCTIONS|] == question;
  }

  // ---------------------------------------------------------------------
  // Source references
  // ---------------------------------------------------------------------

  const SNIPPET_LENGTH: nat := 200
  const ELLIPSIS: string := "..."

  /** A chunk's content as cited: cut to 200 characters plus "..." when longer. */
  function Snippet(content: string): (r: string)
    ensures |r| <= SNIPPET_LENGTH + |ELLIPSIS|
    ensures |content| <= SNIPPET_LENGTH ==> r == content
    ensures |content| > SNIPPET_LENGTH ==>
      |r| == SNIPPET_LENGTH + |ELLIPSIS| && r[..SNIPPET_LENGTH] == content[..SNIPPET_LENGTH] && r[SNIPPET_LENGTH..] == ELLIPSIS
  {
    if |content| > SNIPPET_LENGTH then content[..SNIPPET_LENGTH] + ELLIPSIS else content
  }

  function SourceOf(hit: Ranked<TextChunk>): SourceReference {
    SourceReference(hit.item.videoId, hit.item.chunkIndex, Snippet(hit.item.content), hit.score)
  }

  /** The `Select` of lines 106-114: one reference per retrieved chunk, in rank order. */
  function Sources(hits: seq<Ranked<TextChunk>>): (r: seq<SourceReference>)
    ensures |r| == |hits|
    ensures forall i :: 0 <= i < |r| ==>
      && r[i].videoId == hits[i].item.videoId
      && r[i].chunkIndex == hits[i].item.chunkIndex
      && r[i].similarityScore == hits[i].score
      && r[i].content == Snippet(hits[i].item.content)
      && (|hits[i].item.content| <= SNIPPET_LENGTH ==> r[i].content == hits[i].item.content)
      && |r[i].content| <= SNIPPET_LENGTH + |ELLIPSIS|
  {
    seq(|hits|, i requires 0 <= i < |hits| => SourceOf(hits[i]))
  }

  // ---------------------------------------------------------------------
  // Error wrapping
  // ---------------------------------------------------------------------

  const OPENAI_NETWORK_ERROR: string :=
    "Network error connecting to OpenAI API. This could be due to:\n"
    + "1. Invalid API key\n"
    + "2. Firewall/proxy blocking the connection\n"
    + "3. Network connectivity issues\n"
    + "Original error: "

  const OPENAI_ERROR: string := "Error calling OpenAI API: "
  const OPENAI_ERROR_ADVICE: string := "\nPlease check your API key and network connection."
  const HF_ERROR: string := "Error calling Hugging Face API: "

  /** How RAGChatbotService.cs:91-103 rethrows a failed completion. */
  function OpenAIFailure(e: Exception): (r: Exception)
    ensures r.inner == Some(e) && r.kind == General
    ensures e.kind.HttpRequest? ==> r.message == OPENAI_NETWORK_ERROR + e.message
    ensures !e.kind.HttpRequest? ==> r.message == OPENAI_ERROR + e.message + OPENAI_ERROR_ADVICE
  {
    if e.kind.HttpRequest? then WrapException(OPENAI_NETWORK_ERROR + e.message, e)
    else WrapException(OPENAI_ERROR + e.message + OPENAI_ERROR_ADVICE, e)
  }

  /** How HuggingFaceRAGChatbotService.cs:69-72 rethrows a failed completion. */
  function HuggingFaceFailure(e: Exception): (r: Exception)
    ensures r.inner == Some(e) && r.kind == General
    ensures r.message == HF_ERROR + e.message
  {
    WrapException(HF_ERROR + e.message, e)
  }

  // ---------------------------------------------------------------------
  // AskAsync
  // ---------------------------------------------------------------------

  function FallbackResponse(): (r: ChatResponse)
    ensures r.answer == FALLBACK_ANSWER && |r.sources| == 0
  {
    ChatResponse(FALLBACK_ANSWER, [])
  }

  /** `RAGChatbotService.AskAsync(question)`. */
  function AskOpenAI(config: OpenAIConfig, question: string, search: Search, complete: OpenAICompleter): (r: Asked)
    ensures |r.trace| >= 1 && r.trace[0] == SearchCall(question, TOP_K)
    ensures search(question, TOP_K).Err? ==> r == Asked(Err(search(question, TOP_K).error), [SearchCall(question, TOP_K)])
    ensures search(question, TOP_K).Ok? ==>
      var hits := search(question, TOP_K).value;
      var call := CompletionCall(Prompt(Context(hits), question), config.temperature, OPENAI_MAX_TOKENS);
      && (|hits| == 0 ==> r == Asked(Ok(FallbackResponse()), [SearchCall(question, TOP_K)]))
      && (|hits| > 0 ==> r.trace == [SearchCall(question, TOP_K), call])
      && (|hits| > 0 && complete(call).Err? ==> r.response == Err(OpenAIFailure(complete(call).error)))
      && (|hits| > 0 && complete(call).Ok? ==> r.response.Ok? && r.response.value.sources == Sources(hits))
      && (|hits| > 0 && complete(call) == Ok(None) ==> r.response.value.answer == "")
      && (|hits| > 0 && complete(call).Ok? && complete(call).value.Some? ==> r.response.value.answer == complete(call).value.value)
  {
    var first := SearchCall(question, TOP_K);
    match search(question, TOP_K)
    case Err(e) => Asked(Err(e), [first])
    case Ok(hits) =>
      if |hits| == 0 then
        Asked(Ok(FallbackResponse()), [first])
      else
        var call := CompletionCall(Prompt(Context(hits), question), config.temperature, OPENAI_MAX_TOKENS);
        match complete(call)
        case Err(e) => Asked(Err(OpenAIFailure(e)), [first, call])
        case Ok(content) =>
          var answer := if content.Some? then content.value else "";
          Asked(Ok(ChatResponse(answer, Sources(hits))), [first, call])
  }

  /** `HuggingFaceRAGChatbotService.AskAsync(question)`. */
  function AskHuggingFace(config: HuggingFaceConfig, question: string, search: Search, complete: HuggingFaceCompleter): (r: Asked)
    ensures |r.trace| >= 1 && r.trace[0] == SearchCall(question, TOP_K)
    ensures search(question, TOP_K).Err? ==> r == Asked(Err(search(question, TOP_K).error), [SearchCall(question, TOP_K)])
    ensures search(question, TOP_K).Ok? ==>
      var hits := search(question, TOP_K).value;
      var call := CompletionCall(InstructionPrompt(Context(hits), question), config.temperature, config.maxTokens);
      && (|hits| == 0 ==> r == Asked(Ok(FallbackResponse()), [SearchCall(question, TOP_K)]))
      && (|hits| > 0 ==> r.trace == [SearchCall(question, TOP_K), call])
      && (|hits| > 0 && complete(call).Err? ==> r.response == Err(HuggingFaceFailure(complete(call).error)))
      && (|hits| > 0 && complete(call).Ok? ==> r.response == Ok(ChatResponse(complete(call).value, Sources(hits))))
  {
    var first := SearchCall(question, TOP_K);
    match search(question, TOP_K)
    case Err(e) => Asked(Err(e), [first])
    case Ok(hits) =>
      if |hits| == 0 then
        Asked(Ok(FallbackResponse()), [first])
      else
        var call := CompletionCall(InstructionPrompt(Context(hits), question), config.temperature, config.maxTokens);
        match complete(call)
        case Err(e) => Asked(Err(HuggingFaceFailure(e)), [first, call])
        case Ok(answer) => Asked(Ok(ChatResponse(answer, Sources(hits))), [first, call])
  }

  /** The model is asked exactly when the search found something; every failure surfaces. */
  lemma AskOpenAICallsModelOnlyWithContext(config: OpenAIConfig, question: string, search: Search, complete: OpenAICompleter)
    ensures var r := AskOpenAI(config, question, search, complete);
      && ((exists k :: 0 <= k < |r.trace| && r.trace[k].CompletionCall?) <==>
          search(question, TOP_K).Ok? && |search(question, TOP_K).value| > 0)
      && (r.response.Err? <==>
          search(question, TOP_K).Err? || (|search(question, TOP_K).value| > 0 && complete(r.trace[1]).Err?))
      && (r.response.Ok? && |r.response.value.sources| == 0 ==> r.response.value == FallbackResponse())
  {
    var r := AskOpenAI(config, question, search, complete);
    var found := search(question, TOP_K);
    if found.Err? || |found.value| == 0 {
      assert r.trace == [SearchCall(question, TOP_K)];
      assert !r.trace[0].CompletionCall?;
    } else {
      assert r.trace[1].CompletionCall?;
    }
  }

  /** The same holds for the Hugging Face service. */
  lemma AskHuggingFaceCallsModelOnlyWithContext(config: HuggingFaceConfig, question: string, search: Search, complete: HuggingFaceCompleter)
    ensures var r := AskHuggingFace(config, question, search, complete);
      && ((exists k :: 0 <= k < |r.trace| && r.trace[k].CompletionCall?) <==>
          search(question, TOP_K).Ok? && |search(question, TOP_K).value| > 0)
      && (r.response.Err? <==>
          search(question, TOP_K).Err? || (|search(question, TOP_K).value| > 0 && complete(r.trace[1]).Err?))
      && (r.response.Ok? && |r.response.value.sources| == 0 ==> r.response.value == FallbackResponse())
  {
    var r := AskHuggingFace(config, question, search, complete);
    var found := search(question, TOP_K);
    if found.Err? || |found.value| == 0 {
      assert r.trace == [SearchCall(question, TOP_K)];
      assert !r.trace[0].CompletionCall?;
    } else {
      assert r.trace[1].CompletionCall?;
    }
  }

  /**
   * Over the vector store, an answer cites at most 4 distinct records of the
   * store, best first, each with its own video and index.
   */
  lemma AskCitesBestRecords(variant: VectorStore.Variant, store: VectorStore.Store, embed: VectorStore.Embedder,
                            sqrt: real -> real, config: HuggingFaceConfig, question: string, complete: HuggingFaceCompleter)
    requires VectorStore.Search(variant, store, question, TOP_K, embed, sqrt).Ok?
    ensures var search := (q: string, k: int) => VectorStore.Search(variant, store, q, k, embed, sqrt);
      var r := AskHuggingFace(config, question, search, complete);
      var hits := VectorStore.Search(variant, store, question, TOP_K, embed, sqrt).value;
      r.response.Ok? && |hits| > 0 ==>
        && |r.response.value.sources| == |hits| <= TOP_K
        && (forall i, j :: 0 <= i < j < |hits| ==> hits[i].pos != hits[j].pos)
        && forall i :: 0 <= i < |hits| ==>
          && hits[i].pos < |store.records|
          && r.response.value.sources[i].videoId == store.records[hits[i].pos].chunk.videoId
          && r.response.value.sources[i].chunkIndex == store.records[hits[i].pos].chunk.chunkIndex
          && (i > 0 ==> r.response.value.sources[i - 1].similarityScore >= r.response.value.sources[i].similarityScore)
  {
    var search := (q: string, k: int) => VectorStore.Search(variant, store, q, k, embed, sqrt);
    var hits := VectorStore.Search(variant, store, question, TOP_K, embed, sqrt).value;
    var r := AskHuggingFace(config, question, search, complete);
    VectorStore.SearchHits(variant, store, question, TOP_K, embed, sqrt);
    AskHuggingFaceCites(config, question, search, complete, hits);
    if r.response.Ok? && |hits| > 0 {
      CitesRecords(r.response.value.sources, hits, store.records);
    }
  }

  /** Sources made from ordered hits on stored records name those records, best first. */
  lemma CitesRecords(sources: seq<SourceReference>, hits: seq<Ranked<TextChunk>>, records: seq<VectorStore.Record>)
    requires sources == Sources(hits) && Ordered(hits)
    requires forall i :: 0 <= i < |hits| ==> hits[i].pos < |records| && hits[i].item == records[hits[i].pos].chunk
    ensures |sources| == |hits|
    ensures forall i :: 0 <= i < |hits| ==>
      && sources[i].videoId == records[hits[i].pos].chunk.videoId
      && sources[i].chunkIndex == records[hits[i].pos].chunk.chunkIndex
      && (i > 0 ==> sources[i - 1].similarityScore >= sources[i].similarityScore)
  {
    forall i | 0 < i < |hits| ensures sources[i - 1].similarityScore >= sources[i].similarityScore {
      assert Precedes(hits[i - 1], hits[i]);
    }
  }

  /** A successful Hugging Face answer after a non-empty search cites exactly the hits. */
  lemma AskHuggingFaceCites(config: HuggingFaceConfig, question: string, search: Search, complete: HuggingFaceCompleter,
                            hits: seq<Ranked<TextChunk>>)
    requires search(question, TOP_K) == Ok(hits)
    ensures var r := AskHuggingFace(config, question, search, complete);
      r.response.Ok? && |hits| > 0 ==> r.response.value.sources == Sources(hits)
  {
  }

  // ---------------------------------------------------------------------
  // ChatAsync
  // ---------------------------------------------------------------------

  /** RAGChatbotService.cs:135 prints the UTF-8 bytes of U+1F4DA read as Windows-1252: "ðŸ“š". */
  const OPENAI_SOURCES_HEADER: string := "\U{00F0}\U{0178}\U{201C}\U{0161} Sources:"

  /** HuggingFaceRAGChatbotService.cs:104 prints U+1F4DA (books). */
  const HF_SOURCES_HEADER: string := "\U{1F4DA} Sources:"

  /** The three lines of the citation of `source`, numbered `number`; `formatScore` renders `{score:F3}`. */
  function Citation(source: SourceReference, number: int, formatScore: real -> string): string {
    Text.IntToString(number) + ". Video ID: " + source.videoId + ", Chunk: " + Text.IntToString(source.chunkIndex) + "\n"
    + "   Similarity: " + formatScore(source.similarityScore) + "\n"
    + "   URL: " + WatchUrl(source.videoId) + "\n"
  }

  /** Renders one source under a number. */
  type Renderer = (SourceReference, int) -> string

  function CitationRenderer(formatScore: real -> string): Renderer {
    (source: SourceReference, number: int) => Citation(source, number, formatScore)
  }

  /** The sources rendered one after another, numbered from `first` upwards. */
  function NumberedBlock(sources: seq<SourceReference>, first: int, render: Renderer): (r: string)
    ensures |sources| == 0 ==> r == ""
    ensures |sources| > 0 ==> render(sources[0], first) <= r
    decreases |sources|
  {
    if |sources| == 0 then "" else render(sources[0], first) + NumberedBlock(sources[1..], first + 1, render)
  }

  /** Numbering runs on across a split: the sources after the first `|a|` continue from `first + |a|`. */
  lemma {:induction false} NumberedBlockAppend(a: seq<SourceReference>, b: seq<SourceReference>, first: int, render: Renderer)
    ensures NumberedBlock(a + b, first, render) == NumberedBlock(a, first, render) + NumberedBlock(b, first + |a|, render)
    decreases |a|
  {
    if |a| > 0 {
      assert (a + b)[0] == a[0] && (a + b)[1..] == a[1..] + b;
      NumberedBlockAppend(a[1..], b, first + 1, render);
      var head := render(a[0], first);
      var x, y := NumberedBlock(a[1..], first + 1, render), NumberedBlock(b, first + |a|, render);
      assert NumberedBlock(a + b, first, render) == head + (x + y);
      assert NumberedBlock(a, first, render) == head + x;
      assert head + (x + y) == (head + x) + y;
    } else {
      assert a + b == b;
    }
  }

  /** Source `k` (0-based) is rendered under the number `k + 1`, between those before and after it. */
  lemma SourceNumbered(sources: seq<SourceReference>, k: nat, render: Renderer)
    requires k < |sources|
    ensures NumberedBlock(sources, 1, render) ==
      NumberedBlock(sources[..k], 1, render) + render(sources[k], k + 1) + NumberedBlock(sources[k + 1..], k + 2, render)
  {
    var before, rest := sources[..k], sources[k..];
    SplitAround(sources, k);
    NumberedBlockAppend(before, rest, 1, render);
    NumberedBlockFirst(rest, k + 1, render);
    Regroup(NumberedBlock(before, 1, render), render(sources[k], k + 1), NumberedBlock(sources[k + 1..], k + 2, render));
  }

  /** The first source and the rest, rendered: the head of a block. */
  lemma NumberedBlockFirst(sources: seq<SourceReference>, first: int, render: Renderer)
    requires |sources| > 0
    ensures NumberedBlock(sources, first, render) == render(sources[0], first) + NumberedBlock(sources[1..], first + 1, render)
  {
  }

  /** A list split around position `k`. */
  lemma SplitAround<T>(s: seq<T>, k: nat)
    requires k < |s|
    ensures s == s[..k] + s[k..] && s[k..][0] == s[k] && s[k..][1..] == s[k + 1..]
  {
  }

  lemma Regroup(a: string, b: string, c: string)
    ensures a + (b + c) == a + b + c
  {
  }

  /**
   * The text `ChatAsync` returns for a response: the bare answer when sources
   * are excluded or absent, else the answer, an empty line, the header and
   * the citations numbered from 1.
   */
  function ChatText(response: ChatResponse, includeSources: bool, header: string, formatScore: real -> string): (r: string)
    ensures !includeSources || |response.sources| == 0 ==> r == response.answer
    ensures includeSources && |response.sources| > 0 ==>
      && response.answer + "\n\n" + header + "\n" <= r
      && r[|response.answer + "\n\n" + header + "\n"|..] == NumberedBlock(response.sources, 1, CitationRenderer(formatScore))
  {
    if !includeSources || |response.sources| == 0 then response.answer
    else response.answer + "\n" + "\n" + header + "\n" + NumberedBlock(response.sources, 1, CitationRenderer(formatScore))
  }

  /** `RAGChatbotService.ChatAsync(question, includeSources)`: exceptions of `AskAsync` propagate. */
  function ChatOpenAI(config: OpenAIConfig, question: string, includeSources: bool, search: Search,
                      complete: OpenAICompleter, formatScore: real -> string): (r: Result<string, Exception>)
    ensures var asked := AskOpenAI(config, question, search, complete).response;
      && (asked.Err? <==> r.Err?)
      && (asked.Err? ==> r.error == asked.error)
      && (asked.Ok? ==> r.value == ChatText(asked.value, includeSources, OPENAI_SOURCES_HEADER, formatScore))
  {
    var response :- AskOpenAI(config, question, search, complete).response;
    Ok(ChatText(response, includeSources, OPENAI_SOURCES_HEADER, formatScore))
  }

  /** `HuggingFaceRAGChatbotService.ChatAsync(question, includeSources)`. */
  function ChatHuggingFace(config: HuggingFaceConfig, question: string, includeSources: bool, search: Search,
                           complete: HuggingFaceCompleter, formatScore: real -> string): (r: Result<string, Exception>)
    ensures var asked := AskHuggingFace(config, question, search, complete).response;
      && (asked.Err? <==> r.Err?)
      && (asked.Err? ==> r.error == asked.error)
      && (asked.Ok? ==> r.value == ChatText(asked.value, includeSources, HF_SOURCES_HEADER, formatScore))
  {
    var response :- AskHuggingFace(config, question, search, complete).response;
    Ok(ChatText(response, includeSources, HF_SOURCES_HEADER, formatScore))
  }

  /** With nothing retrieved, chatting answers the fallback text alone, whatever `includeSources` says. */
  lemma ChatFallbackIsBare(config: HuggingFaceConfig, question: string, includeSources: bool, search: Search,
                           complete: HuggingFaceCompleter, formatScore: real -> string)
    requires search(question, TOP_K) == Ok([])
    ensures ChatHuggingFace(config, question, includeSources, search, complete, formatScore) == Ok(FALLBACK_ANSWER)
  {
  }
}

=== FILE: py_chatbot.dfy ===
/**
 * rag_chatbot.py: the provider check of the constructor, the Gemini
 * path's context and prompt, the numbered source listing, and `chat`.
 *
 * The vector store search, the LangChain `RetrievalQA` chain and the Gemini
 * model are parameters that may fail; the module never catches their
 * exceptions, so a failure propagates as an `Err`.
 */
module PyChatbot {
  import opened Common
  import opened Text
  import opened PyChunker
  import Orchestrator

  datatype Provider = OpenAI | Gemini

  /** The constructor's choice of back end (lines 28-39). */
  function ProviderOf(name: string): (r: Result<Provider, Exception>)
    ensures r.Ok? <==> name == "openai" || name == "gemini"
    ensures r.Ok? ==> (r.value == OpenAI <==> name == "openai")
    ensures r.Err? ==> r.error == Exception(ValueError, "Unsupported LLM provider: " + name, None)
  {
    if name == "openai" then Ok(OpenAI)
    else if name == "gemini" then Ok(Gemini)
    else Err(Exception(ValueError, "Unsupported LLM provider: " + name, None))
  }

  /** A metadata value as an f-string prints it. */
  function Str(v: PyValue): string {
    match v
    case PyStr(s) => s
    case PyInt(i) => IntToString(i)
  }

  /** Python truthiness of a metadata value. */
  predicate Truthy(v: PyValue) {
    match v
    case PyStr(s) => s != ""
    case PyInt(i) => i != 0
  }

  /** `metadata.get(key, default)`, as printed. */
  function Get(m: PyDict, key: string, default: string): (r: string)
    ensures key !in m ==> r == default
    ensures key in m ==> r == Str(m[key])
  {
    if key in m then Str(m[key]) else default
  }

  /** Document `d` has a URL worth listing (lines 144, 147). */
  predicate HasUrl(d: Document) {
    URL in d.metadata && Truthy(d.metadata[URL])
  }

  /** The first line for source number `i` (line 146). */
  function SourceLine(i: int, d: Document): string {
    IntToString(i) + ". Video ID: " + Get(d.metadata, VIDEO_ID, "unknown")
    + ", Chunk: " + Get(d.metadata, CHUNK_ID, "unknown")
  }

  function UrlLine(d: Document): string
    requires HasUrl(d)
  {
    "   URL: " + Str(d.metadata[URL])
  }

  /** The one or two lines source number `i` contributes (lines 142-148). */
  function DocLines(i: int, d: Document): (r: seq<string>)
    ensures |r| == if HasUrl(d) then 2 else 1
    ensures r[0] == SourceLine(i, d)
    ensures HasUrl(d) ==> r[1] == UrlLine(d)
  {
    if HasUrl(d) then [SourceLine(i, d), UrlLine(d)] else [SourceLine(i, d)]
  }

  /** The blocks `f(first, xs[0])`, `f(first + 1, xs[1])`, ... one after another. */
  function FlatNumbered<T>(xs: seq<T>, first: int, f: (int, T) -> seq<string>): (r: seq<string>)
    ensures |xs| == 0 ==> r == []
    ensures |xs| > 0 ==> f(first, xs[0]) <= r
    decreases |xs|
  {
    if |xs| == 0 then [] else f(first, xs[0]) + FlatNumbered(xs[1..], first + 1, f)
  }

  /** The numbering runs on across a split of the list. */
  lemma {:induction false} FlatNumberedAppend<T>(a: seq<T>, b: seq<T>, first: int, f: (int, T) -> seq<string>)
    ensures FlatNumbered(a + b, first, f) == FlatNumbered(a, first, f) + FlatNumbered(b, first + |a|, f)
    decreases |a|
  {
    if |a| == 0 {
      assert a + b == b && first + |a| == first;
    } else {
      assert (a + b)[0] == a[0] && (a + b)[1..] == a[1..] + b;
      FlatNumberedAppend(a[1..], b, first + 1, f);
      assert first + 1 + |a[1..]| == first + |a|;
      var h := f(first, a[0]);
      var x := FlatNumbered(a[1..], first + 1, f);
      var y := FlatNumbered(b, first + |a|, f);
      assert h + (x + y) == (h + x) + y;
    }
  }

  /** The lines of lines 140-148 for `docs`, numbered from `first`. */
  function SourceLines(docs: seq<Document>, first: int): (r: seq<string>)
    ensures |docs| == 0 ==> r == []
    ensures |docs| > 0 ==> DocLines(first, docs[0]) <= r
  {
    FlatNumbered(docs, first, DocLines)
  }

  /** The first document's lines come first, and the rest are numbered on from the next number. */
  lemma SourceLinesCons(docs: seq<Document>, first: int)
    requires |docs| > 0
    ensures SourceLines(docs, first) == DocLines(first, docs[0]) + SourceLines(docs[1..], first + 1)
  {
  }

  /** The listing of a longer list continues the listing of its first part, numbers included. */
  lemma SourceLinesAppend(a: seq<Document>, b: seq<Document>, first: int)
    ensures SourceLines(a + b, first) == SourceLines(a, first) + SourceLines(b, first + |a|)
  {
    FlatNumberedAppend(a, b, first, DocLines);
  }

  const NO_SOURCES: string := "No sources found"

  /** `_format_sources` (lines 135-150). */
  function FormatSources(docs: seq<Document>): (r: string)
    ensures |docs| == 0 <==> r == NO_SOURCES
    ensures |docs| > 0 ==> SourceLine(1, docs[0]) <= r
    ensures r != ""
  {
    if |docs| == 0 then NO_SOURCES
    else
      var lines := SourceLines(docs, 1);
      var r := Join(lines, "\n");
      JoinStartsWithFirst(lines, "\n");
      assert IntToString(1) == "1";
      assert r[0] == '1' != NO_SOURCES[0];
      r
  }

  /** No metadata value of `d` spans several lines. */
  predicate SingleLineValues(d: Document) {
    forall k :: k in d.metadata ==> '\n' !in Str(d.metadata[k])
  }

  lemma NoNewlineInNumber(i: int)
    ensures '\n' !in IntToString(i)
  {
    if i < 0 {
      assert IntToString(i) == "-" + NatToString(-i);
    }
  }

  lemma DocLinesSingle(i: int, d: Document)
    requires SingleLineValues(d)
    ensures forall k :: 0 <= k < |DocLines(i, d)| ==> '\n' !in DocLines(i, d)[k]
  {
    NoNewlineInNumber(i);
    assert '\n' !in ". Video ID: " && '\n' !in ", Chunk: " && '\n' !in "unknown" && '\n' !in "   URL: ";
  }

  lemma {:induction false} SourceLinesSingle(docs: seq<Document>, first: int)
    requires forall j :: 0 <= j < |docs| ==> SingleLineValues(docs[j])
    ensures forall k :: 0 <= k < |SourceLines(docs, first)| ==> '\n' !in SourceLines(docs, first)[k]
    decreases |docs|
  {
    if |docs| > 0 {
      SourceLinesCons(docs, first);
      DocLinesSingle(first, docs[0]);
      SourceLinesSingle(docs[1..], first + 1);
    }
  }

  /**
   * The listing reads back line by line: splitting it at newlines gives,
   * for every document in order, its numbered line and its URL line if any.
   */
  lemma SourcesReadBack(docs: seq<Document>)
    requires |docs| > 0
    requires forall j :: 0 <= j < |docs| ==> SingleLineValues(docs[j])
    ensures Split(FormatSources(docs), '\n') == SourceLines(docs, 1)
  {
    SourceLinesSingle(docs, 1);
    SplitJoin(SourceLines(docs, 1), '\n');
  }

  /** The number of documents the Gemini path retrieves (line 101). */
  const TOP_K: int := 4

  /** One entry of the Gemini context (line 105). */
  function GeminiEntry(d: Document): string {
    "[Video " + Get(d.metadata, VIDEO_ID, "unknown") + "]: " + d.pageContent
  }

  function GeminiEntries(docs: seq<Document>): (r: seq<string>)
    ensures |r| == |docs| && forall i :: 0 <= i < |r| ==> r[i] == GeminiEntry(docs[i])
  {
    seq(|docs|, i requires 0 <= i < |docs| => GeminiEntry(docs[i]))
  }

  /** The context of lines 104-107: one entry per document, in rank order, separated by a blank line. */
  function GeminiContext(docs: seq<Document>): (r: string)
    ensures |docs| == 0 ==> r == ""
    ensures |docs| > 0 ==> GeminiEntry(docs[0]) <= r
  {
    var entries := GeminiEntries(docs);
    assert |docs| > 0 ==> GeminiEntry(docs[0]) <= Join(entries, "\n\n") by {
      if |docs| > 0 {
        JoinStartsWithFirst(entries, "\n\n");
      }
    }
    Join(entries, "\n\n")
  }

  /** The context of a longer list is the contexts of its parts, a blank line apart. */
  lemma GeminiContextAppend(a: seq<Document>, b: seq<Document>)
    requires |a| > 0 && |b| > 0
    ensures GeminiContext(a + b) == GeminiContext(a) + "\n\n" + GeminiContext(b)
  {
    assert GeminiEntries(a + b) == GeminiEntries(a) + GeminiEntries(b);
    JoinAppend(GeminiEntries(a), GeminiEntries(b), "\n\n");
  }

  /** The prompt of lines 110-124, which is the C# services' instruction prompt word for word. */
  function GeminiPrompt(docs: seq<Document>, question: string): (p: string)
    ensures |p| == |Orchestrator.PROMPT_INTRO| + |GeminiContext(docs)| + |Orchestrator.PROMPT_QUESTION| + |question| + |Orchestrator.PROMPT_INSTRUCTIONS|
    ensures p[|Orchestrator.PROMPT_INTRO|..|Orchestrator.PROMPT_INTRO| + |GeminiContext(docs)|] == GeminiContext(docs)
    ensures p[|Orchestrator.PROMPT_INTRO| + |GeminiContext(docs)| + |Orchestrator.PROMPT_QUESTION|..|p| - |Orchestrator.PROMPT_INSTRUCTIONS|] == question
  {
    Orchestrator.PromptEmbeds(GeminiContext(docs), question);
    Orchestrator.Prompt(GeminiContext(docs), question)
  }

  /** The dictionary `ask` returns. */
  datatype Answer = Answer(answer: string, sourceDocuments: seq<Document>, sources: string)

  /** `vectorstore.search(question, k)`. */
  type DocSearch = (string, int) -> Result<seq<Document>, Exception>

  /** `gemini_model.generate_content(prompt).text`. */
  type Generator = string -> Result<string, Exception>

  /** The LangChain `RetrievalQA` chain: its `result` and `source_documents`. */
  type QaChain = string -> Result<(string, seq<Document>), Exception>

  /** `_ask_openai` (lines 88-96). */
  function AskOpenAI(question: string, chain: QaChain): (r: Result<Answer, Exception>)
    ensures r.Ok? <==> chain(question).Ok?
    ensures r.Err? ==> r.error == chain(question).error
    ensures r.Ok? ==> r.value == Answer(chain(question).value.0, chain(question).value.1, FormatSources(chain(question).value.1))
  {
    var (answer, docs) :- chain(question);
    Ok(Answer(answer, docs, FormatSources(docs)))
  }

  /**
   * `_ask_gemini` (lines 98-133): the model is asked about the top four
   * documents, even when there are none.
   */
  function AskGemini(question: string, search: DocSearch, generate: Generator): (r: Result<Answer, Exception>)
    ensures search(question, TOP_K).Err? ==> r == Err(search(question, TOP_K).error)
    ensures search(question, TOP_K).Ok? ==>
      var docs := search(question, TOP_K).value;
      && (r.Ok? <==> generate(GeminiPrompt(docs, question)).Ok?)
      && (r.Err? ==> r.error == generate(GeminiPrompt(docs, question)).error)
      && (r.Ok? ==> r.value == Answer(generate(GeminiPrompt(docs, question)).value, docs, FormatSources(docs)))
  {
    var docs :- search(question, TOP_K);
    var answer :- generate(GeminiPrompt(docs, question));
    Ok(Answer(answer, docs, FormatSources(docs)))
  }

  /**
   * Unlike the C# services, the Gemini path has no fallback: with no
   * documents the model still answers, from an empty context, and the
   * listing says there are no sources.
   */
  lemma GeminiAnswersWithoutSources(question: string, search: DocSearch, generate: Generator)
    requires search(question, TOP_K) == Ok([])
    requires generate(Orchestrator.Prompt("", question)).Ok?
    ensures AskGemini(question, search, generate)
      == Ok(Answer(generate(Orchestrator.Prompt("", question)).value, [], NO_SOURCES))
  {
    assert GeminiContext([]) == "";
  }

  /** `ask` (lines 73-86), for a provider the constructor accepted. */
  function Ask(provider: Provider, question: string, chain: QaChain, search: DocSearch, generate: Generator): (r: Result<Answer, Exception>)
    ensures r.Ok? ==> r.value.sources == FormatSources(r.value.sourceDocuments)
    ensures provider == OpenAI ==> r == AskOpenAI(question, chain)
    ensures provider == Gemini ==> r == AskGemini(question, search, generate)
  {
    match provider
    case OpenAI => AskOpenAI(question, chain)
    case Gemini => AskGemini(question, search, generate)
  }

  /** What `chat` puts between the answer and the listing (line 168), with the same mojibake as the C# service. */
  const SOURCES_BLOCK: string := "\n\n" + Orchestrator.OPENAI_SOURCES_HEADER + "\n"

  /** The formatting of lines 165-170. */
  function ChatText(a: Answer, verbose: bool): (r: string)
    ensures a.answer <= r
    ensures !verbose || a.sources == "" ==> r == a.answer
    ensures verbose && a.sources != "" ==>
      && |r| == |a.answer| + |SOURCES_BLOCK| + |a.sources|
      && r[|a.answer|..|a.answer| + |SOURCES_BLOCK|] == SOURCES_BLOCK
      && r[|r| - |a.sources|..] == a.sources
  {
    if verbose && a.sources != "" then
      var r := a.answer + SOURCES_BLOCK + a.sources;
      assert r[|a.answer|..|a.answer| + |SOURCES_BLOCK|] == SOURCES_BLOCK;
      r
    else a.answer
  }

  /** `chat` (lines 152-170). */
  function Chat(provider: Provider, question: string, verbose: bool, chain: QaChain, search: DocSearch, generate: Generator): (r: Result<string, Exception>)
    ensures r.Ok? <==> Ask(provider, question, chain, search, generate).Ok?
    ensures r.Err? ==> r.error == Ask(provider, question, chain, search, generate).error
    ensures r.Ok? ==> Ask(provider, question, chain, search, generate).value.answer <= r.value
  {
    var a :- Ask(provider, question, chain, search, generate);
    Ok(ChatText(a, verbose))
  }

  /**
   * The truthiness test of line 167 never fails, since the listing is never
   * empty: a verbose chat always appends the sources block, and a quiet one
   * is the bare answer.
   */
  lemma ChatAppendsSourcesExactlyWhenVerbose(provider: Provider, question: string, verbose: bool, chain: QaChain, search: DocSearch, generate: Generator)
    requires Ask(provider, question, chain, search, generate).Ok?
    ensures var a := Ask(provider, question, chain, search, generate).value;
      Chat(provider, question, verbose, chain, search, generate)
        == Ok(if verbose then a.answer + SOURCES_BLOCK + FormatSources(a.sourceDocuments) else a.answer)
  {
    var a := Ask(provider, question, chain, search, generate).value;
    assert a.sources != "";
  }
}

=== FILE: py_chunker.dfy ===
/**
 * text_chunker.py: the metadata that `TranscriptChunker` attaches to the
 * pieces LangChain's `RecursiveCharacterTextSplitter` cuts a text into.
 * The splitter itself is not modelled; it is the parameter `split`.
 */
module PyChunker {
  import opened Common
  import opened Models
  import Text
  import PyFetcher

  /** The values the chunker's metadata dictionaries hold. */
  datatype PyValue = PyStr(s: string) | PyInt(i: int)

  type PyDict = map<string, PyValue>

  /** LangChain's `Document`. */
  datatype Document = Document(pageContent: string, metadata: PyDict)

  /** `text_splitter.split_text`. */
  type Splitter = string -> seq<string>

  const CHUNK_ID: string := "chunk_id"
  const CHUNK_TOTAL: string := "chunk_total"

  /** `metadata`, or `{}` for `None` (lines 37-38). */
  function BaseOf(metadata: Option<PyDict>): (m: PyDict)
    ensures metadata.None? ==> m == map[]
    ensures metadata.Some? ==> m == metadata.value
  {
    if metadata.Some? then metadata.value else map[]
  }

  /** The copy of the caller's dictionary that piece `i` of `n` gets (lines 46-48). */
  function Decorate(base: PyDict, i: int, n: int): (m: PyDict)
    ensures m.Keys == base.Keys + {CHUNK_ID, CHUNK_TOTAL}
    ensures m[CHUNK_ID] == PyInt(i) && m[CHUNK_TOTAL] == PyInt(n)
    ensures forall k :: k in base && k != CHUNK_ID && k != CHUNK_TOTAL ==> m[k] == base[k]
  {
    base[CHUNK_ID := PyInt(i)][CHUNK_TOTAL := PyInt(n)]
  }

  /**
   * `chunk_text` (lines 26-55): piece `i` of the split, with the caller's
   * metadata plus its 0-based `chunk_id` and the `chunk_total`.
   */
  function ChunkText(text: string, metadata: Option<PyDict>, split: Splitter): (r: seq<Document>)
    ensures |r| == |split(text)|
    ensures forall i :: 0 <= i < |r| ==> r[i].metadata.Keys == BaseOf(metadata).Keys + {CHUNK_ID, CHUNK_TOTAL}
    ensures forall i :: 0 <= i < |r| ==>
      && r[i].pageContent == split(text)[i]
      && r[i].metadata[CHUNK_ID] == PyInt(i) && r[i].metadata[CHUNK_TOTAL] == PyInt(|r|)
    ensures metadata.None? ==> forall i :: 0 <= i < |r| ==> r[i].metadata.Keys == {CHUNK_ID, CHUNK_TOTAL}
    ensures forall i, k :: 0 <= i < |r| && k in BaseOf(metadata) && k != CHUNK_ID && k != CHUNK_TOTAL ==>
      r[i].metadata[k] == BaseOf(metadata)[k]
  {
    var pieces := split(text);
    var base := BaseOf(metadata);
    seq(|pieces|, i requires 0 <= i < |pieces| => Document(pieces[i], Decorate(base, i, |pieces|)))
  }

  /** The metadata with the two chunk keys taken out. */
  function Undecorated(m: PyDict): (r: PyDict)
    ensures r.Keys == m.Keys - {CHUNK_ID, CHUNK_TOTAL}
  {
    m - {CHUNK_ID, CHUNK_TOTAL}
  }

  /**
   * Every document holds its own copy of the caller's dictionary: taking the
   * chunk keys back out gives the caller's metadata (when it had no such
   * keys), which `chunk_text` leaves as it was.
   */
  lemma CallerMetadataKept(text: string, metadata: PyDict, split: Splitter, i: nat)
    requires CHUNK_ID !in metadata && CHUNK_TOTAL !in metadata
    requires i < |ChunkText(text, Some(metadata), split)|
    ensures Undecorated(ChunkText(text, Some(metadata), split)[i].metadata) == metadata
  {
    var m := ChunkText(text, Some(metadata), split)[i].metadata;
    var u := Undecorated(m);
    assert u.Keys == metadata.Keys;
    forall k | k in u ensures u[k] == metadata[k] {
      assert k in metadata && k != CHUNK_ID && k != CHUNK_TOTAL;
    }
  }

  const VIDEO_ID: string := "video_id"
  const SOURCE: string := "source"
  const URL: string := "url"

  /** The dictionary of lines 68-72. */
  function TranscriptMetadata(videoId: string): (m: PyDict)
    ensures m.Keys == {VIDEO_ID, SOURCE, URL}
    ensures m[VIDEO_ID] == PyStr(videoId) && m[URL] == PyStr(WatchUrl(videoId))
    ensures m[SOURCE] == PyStr("YouTube: " + videoId)
  {
    map[VIDEO_ID := PyStr(videoId), SOURCE := PyStr("YouTube: " + videoId), URL := PyStr(WatchUrl(videoId))]
  }

  /** Every document of one video carries that video's id, source label and watch URL. */
  predicate OfVideo(d: Document, videoId: string) {
    && d.metadata.Keys == {VIDEO_ID, SOURCE, URL, CHUNK_ID, CHUNK_TOTAL}
    && d.metadata[VIDEO_ID] == PyStr(videoId)
    && d.metadata[SOURCE] == PyStr("YouTube: " + videoId)
    && d.metadata[URL] == PyStr(WatchUrl(videoId))
  }

  /** `chunk_transcript` (lines 57-74). */
  function ChunkTranscript(transcript: string, videoId: string, split: Splitter): (r: seq<Document>)
    ensures |r| == |split(transcript)|
    ensures forall i :: 0 <= i < |r| ==>
      && OfVideo(r[i], videoId)
      && r[i].pageContent == split(transcript)[i]
      && r[i].metadata[CHUNK_ID] == PyInt(i) && r[i].metadata[CHUNK_TOTAL] == PyInt(|r|)
  {
    ChunkText(transcript, Some(TranscriptMetadata(videoId)), split)
  }

  /**
   * The URL a chunk carries leads back to its video: extracting the ID from
   * it gives the chunk's `video_id`, for any ID without `&` or `v=`.
   */
  lemma ChunkUrlNamesVideo(transcript: string, videoId: string, split: Splitter, i: nat)
    requires !Text.Contains(videoId, "&") && !Text.Contains(videoId, "v=")
    requires i < |ChunkTranscript(transcript, videoId, split)|
    ensures PyFetcher.ExtractVideoId(ChunkTranscript(transcript, videoId, split)[i].metadata[URL].s)
      == ChunkTranscript(transcript, videoId, split)[i].metadata[VIDEO_ID].s
  {
    PyFetcher.WatchUrlRoundTrip(videoId);
  }

  /** One entry of the list `chunk_multiple_transcripts` takes: the two keys it reads, if present. */
  datatype TranscriptEntry = TranscriptEntry(videoId: Option<string>, transcript: Option<string>)

  /** The entry has a transcript that is truthy, i.e. present and non-empty (line 92). */
  predicate Kept(e: TranscriptEntry) {
    e.transcript.Some? && e.transcript.value != ""
  }

  /** `transcript_data.get('video_id', 'unknown')` (line 89). */
  function VideoIdOf(e: TranscriptEntry): (id: string)
    ensures e.videoId.None? ==> id == "unknown"
    ensures e.videoId.Some? ==> id == e.videoId.value
  {
    if e.videoId.Some? then e.videoId.value else "unknown"
  }

  /** What one loop iteration of lines 88-95 adds. */
  function ChunkEntry(e: TranscriptEntry, split: Splitter): (r: seq<Document>)
    ensures !Kept(e) ==> r == []
    ensures Kept(e) ==> |r| == |split(e.transcript.value)|
    ensures forall i :: 0 <= i < |r| ==> OfVideo(r[i], VideoIdOf(e))
  {
    if Kept(e) then ChunkTranscript(e.transcript.value, VideoIdOf(e), split) else []
  }

  /** `chunk_multiple_transcripts` (lines 76-98): the documents of every kept entry, in order. */
  function ChunkMultipleTranscripts(entries: seq<TranscriptEntry>, split: Splitter): (r: seq<Document>)
    ensures (forall j :: 0 <= j < |entries| ==> !Kept(entries[j])) ==> r == []
    ensures forall i :: 0 <= i < |r| ==> exists j :: 0 <= j < |entries| && Kept(entries[j]) && OfVideo(r[i], VideoIdOf(entries[j]))
    decreases |entries|
  {
    if |entries| == 0 then []
    else
      var first := ChunkEntry(entries[0], split);
      var rest := ChunkMultipleTranscripts(entries[1..], split);
      var r := first + rest;
      assert forall i :: 0 <= i < |r| ==> exists j :: 0 <= j < |entries| && Kept(entries[j]) && OfVideo(r[i], VideoIdOf(entries[j])) by {
        forall i | 0 <= i < |r|
          ensures exists j :: 0 <= j < |entries| && Kept(entries[j]) && OfVideo(r[i], VideoIdOf(entries[j]))
        {
          if i < |first| {
            assert OfVideo(r[i], VideoIdOf(entries[0]));
          } else {
            assert r[i] == rest[i - |first|];
            var j :| 0 <= j < |entries[1..]| && Kept(entries[1..][j]) && OfVideo(rest[i - |first|], VideoIdOf(entries[1..][j]));
            assert entries[1..][j] == entries[j + 1];
          }
        }
      }
      r
  }

  /** Chunking two lists one after the other is chunking their concatenation. */
  lemma {:induction false} ChunkMultipleAppend(a: seq<TranscriptEntry>, b: seq<TranscriptEntry>, split: Splitter)
    ensures ChunkMultipleTranscripts(a + b, split) == ChunkMultipleTranscripts(a, split) + ChunkMultipleTranscripts(b, split)
    decreases |a|
  {
    if |a| == 0 {
      assert a + b == b;
    } else {
      assert (a + b)[1..] == a[1..] + b;
      ChunkMultipleAppend(a[1..], b, split);
      var h := ChunkEntry(a[0], split);
      assert h + (ChunkMultipleTranscripts(a[1..], split) + ChunkMultipleTranscripts(b, split))
        == (h + ChunkMultipleTranscripts(a[1..], split)) + ChunkMultipleTranscripts(b, split);
    }
  }

  /** An entry without a transcript changes nothing: it is skipped, wherever it stands. */
  lemma SkippedEntryAddsNothing(a: seq<TranscriptEntry>, e: TranscriptEntry, b: seq<TranscriptEntry>, split: Splitter)
    requires !Kept(e)
    ensures ChunkMultipleTranscripts(a + [e] + b, split) == ChunkMultipleTranscripts(a + b, split)
  {
    var eb := [e] + b;
    assert eb[0] == e && eb[1..] == b;
    assert ChunkMultipleTranscripts(eb, split) == ChunkMultipleTranscripts(b, split) by {
      assert ChunkEntry(e, split) == [];
    }
    assert a + [e] + b == a + eb;
    ChunkMultipleAppend(a, eb, split);
    ChunkMultipleAppend(a, b, split);
  }

  /** A kept entry contributes exactly `chunk_transcript` of its text, under its id or "unknown". */
  lemma KeptEntryChunks(e: TranscriptEntry, split: Splitter)
    requires Kept(e)
    ensures ChunkMultipleTranscripts([e], split) == ChunkTranscript(e.transcript.value, VideoIdOf(e), split)
  {
    assert [e][1..] == [];
  }
}

=== FILE: py_fetcher.dfy ===
/**
 * The string logic of transcript_fetcher.py: `extract_video_id`, and the
 * text and URL that `fetch_transcript` assembles from the segments the
 * transcript API returns. The API call itself is the parameter `source`,
 * whose failure kinds are those the function distinguishes.
 */
module PyFetcher {
  import opened Common
  import opened Text
  import opened Models
  import Fetcher

  /** The test of line 31: the input names one of the two YouTube hosts. */
  predicate IsYouTube(url: string) {
    Contains(url, "youtube.com") || Contains(url, "youtu.be")
  }

  /**
   * `r` is what lies between the first `marker` of `s` and the next `stop`,
   * the next `marker` or the end: it follows that `marker` immediately,
   * holds neither string, and ends where the text ends or one of them begins.
   */
  predicate IsPiece(s: string, marker: string, stop: string, r: string)
    requires |marker| > 0
  {
    && !Contains(r, stop) && !Contains(r, marker)
    && OccursAt(s, marker + r, |Before(s, marker)|)
    && EndsAt(s, stop, marker, |Before(s, marker)| + |marker| + |r|)
  }

  /** Position `e` of `s` is its end, or where `stop` or `marker` begins. */
  predicate EndsAt(s: string, stop: string, marker: string, e: int) {
    e == |s| || OccursAt(s, stop, e) || OccursAt(s, marker, e)
  }

  /**
   * `s.split(marker)[1].split(stop)[0]`: the text between the first and the
   * second `marker` (or the end), cut at the first `stop`. It follows the
   * first `marker` immediately, holds neither `marker` nor `stop`, and runs
   * on until the text ends or a `stop` or a `marker` begins.
   */
  function Piece(s: string, marker: string, stop: string): (r: string)
    requires |marker| > 0 && |stop| > 0 && Contains(s, marker)
    ensures IsPiece(s, marker, stop, r)
    ensures Contains(s, r)
  {
    PieceFacts(s, marker, stop);
    Before(Before(After(s, marker), marker), stop)
  }

  /** The proof obligations of `Piece`, discharged from the three cuts it makes. */
  lemma PieceFacts(s: string, marker: string, stop: string)
    requires |marker| > 0 && |stop| > 0 && Contains(s, marker)
    ensures var r := Before(Before(After(s, marker), marker), stop);
      IsPiece(s, marker, stop, r) && Contains(s, r)
  {
    var b, rest := Before(s, marker), After(s, marker);
    var between := Before(rest, marker);
    var r := Before(between, stop);
    assert s == b + marker + rest;
    PrefixAvoids(r, between, marker);
    assert r <= rest;
    FollowsMarker(b, marker, rest, r);
    PieceEnds(b, rest, between, r, marker, stop);
    assert IsPiece(s, marker, stop, r);
  }

  /**
   * In `p + rest`, a piece `r` cut from `between` (itself cut from `rest` at
   * `marker`) at `stop` ends at the end of the text, at a `stop` or at a `marker`.
   */
  lemma PieceEnds(b: string, rest: string, between: string, r: string, marker: string, stop: string)
    requires between <= rest && r <= between
    requires between == rest || OccursAt(rest, marker, |between|)
    requires r == between || OccursAt(between, stop, |r|)
    ensures EndsAt(b + marker + rest, stop, marker, |b| + |marker| + |r|)
  {
    var s, e := b + marker + rest, |b| + |marker| + |r|;
    if r != between {
      assert s[e..e + |stop|] == between[|r|..|r| + |stop|];
    } else if between != rest {
      assert s[e..e + |marker|] == rest[|r|..|r| + |marker|];
    }
  }

  /** A prefix of a string without `sub` has no `sub` either. */
  lemma PrefixAvoids(r: string, x: string, sub: string)
    requires r <= x && !Contains(x, sub)
    ensures !Contains(r, sub)
  {
    forall i | 0 <= i <= |r| - |sub| ensures !OccursAt(r, sub, i) {
      if OccursAt(r, sub, i) {
        assert x[i..i + |sub|] == r[i..i + |sub|];
        assert OccursAt(x, sub, i);
      }
    }
  }

  /** In `b + m + a`, a prefix `r` of `a` follows `m`, which starts at `|b|`. */
  lemma FollowsMarker(b: string, m: string, a: string, r: string)
    requires r <= a
    ensures OccursAt(b + m + a, m + r, |b|)
    ensures Contains(b + m + a, r)
  {
    var s := b + m + a;
    assert s[|b|..|b| + |m| + |r|] == m + r;
    assert s[|b| + |m|..|b| + |m| + |r|] == r;
    assert OccursAt(s, r, |b| + |m|);
  }

  /**
   * `extract_video_id` (lines 20-36): the `v=` parameter of a YouTube URL,
   * else the path after `youtu.be/`, else the input unchanged. The ID runs
   * from the first marker to the end, the next marker or the next stop
   * character, whichever comes first.
   */
  function ExtractVideoId(url: string): (r: string)
    ensures !IsYouTube(url) ==> r == url
    ensures IsYouTube(url) && Contains(url, "v=") ==> IsPiece(url, "v=", "&", r)
    ensures IsYouTube(url) && !Contains(url, "v=") && Contains(url, "youtu.be/") ==>
      IsPiece(url, "youtu.be/", "?", r)
    ensures IsYouTube(url) && !Contains(url, "v=") && !Contains(url, "youtu.be/") ==> r == url
    ensures Contains(url, r)
  {
    assert Contains(url, url) by { assert OccursAt(url, url, 0); }
    if IsYouTube(url) then
      if Contains(url, "v=") then Piece(url, "v=", "&")
      else if Contains(url, "youtu.be/") then Piece(url, "youtu.be/", "?")
      else url
    else url
  }

  /** `Before` of a string without the separator is the whole string. */
  lemma BeforeAbsent(s: string, sep: string)
    requires |sep| > 0 && !Contains(s, sep)
    ensures Before(s, sep) == s
  {
  }

  /** When the first `sep` of `p + sep + t` is the one after `p`, the split falls there. */
  lemma SplitAtFirst(p: string, sep: string, t: string)
    requires |sep| > 0
    requires forall j :: 0 <= j < |p| ==> !OccursAt(p + sep + t, sep, j)
    ensures Contains(p + sep + t, sep)
    ensures Before(p + sep + t, sep) == p && After(p + sep + t, sep) == t
  {
    var s := p + sep + t;
    assert s[|p|..|p| + |sep|] == sep;
    assert OccursAt(s, sep, |p|);
    var i := IndexOf(s, sep).value;
    assert i == |p|;
    assert s[..|p|] == p;
  }

  /** `x + m + y` holds `m` at `|x|`. */
  lemma Infix(x: string, m: string, y: string)
    ensures OccursAt(x + m + y, m, |x|)
  {
    assert (x + m + y)[|x|..|x| + |m|] == m;
  }

  /** A marker starting with `c` cannot begin inside a prefix that has no `c`. */
  lemma NoMarkerInPrefix(p: string, m: string, t: string)
    requires |m| > 0 && m[0] !in p
    ensures forall j :: 0 <= j < |p| ==> !OccursAt(p + t, m, j)
  {
    forall j | 0 <= j < |p| ensures !OccursAt(p + t, m, j) {
      assert (p + t)[j] == p[j] && p[j] in p;
      if j + |m| <= |p + t| {
        assert (p + t)[j..j + |m|][0] == p[j];
      }
    }
  }

  /** The literal facts about the watch URL prefix that the round trip needs. */
  lemma WatchPrefixFacts(id: string)
    ensures WatchUrl(id) == "https://www.youtube.com/watch?" + ("v=" + id)
    ensures "v="[0] !in "https://www.youtube.com/watch?"
    ensures Contains(WatchUrl(id), "youtube.com")
  {
    assert WATCH_URL_PREFIX == "https://www." + "youtube.com" + "/watch?v=";
    assert WATCH_URL_PREFIX == "https://www.youtube.com/watch?" + "v=";
    Infix("https://www.", "youtube.com", "/watch?v=" + id);
    assert WatchUrl(id) == "https://www." + "youtube.com" + ("/watch?v=" + id);
  }

  /**
   * The partner of `ExtractVideoId`: it recovers any ID without `&` or
   * `v=` from the watch URL every component builds.
   */
  lemma WatchUrlRoundTrip(id: string)
    requires !Contains(id, "&") && !Contains(id, "v=")
    ensures ExtractVideoId(WatchUrl(id)) == id
  {
    var p := "https://www.youtube.com/watch?";
    WatchPrefixFacts(id);
    NoMarkerInPrefix(p, "v=", "v=" + id);
    assert p + "v=" + id == p + ("v=" + id);
    SplitAtFirst(p, "v=", id);
    BeforeAbsent(id, "v=");
    BeforeAbsent(id, "&");
  }

  /** One item of `YouTubeTranscriptApi.get_transcript`'s list. */
  datatype Entry = Entry(text: string, start: real, duration: real)

  /** The `metadata` dictionary of lines 58-63. */
  datatype TranscriptMeta = TranscriptMeta(videoId: string, url: string, segments: nat, duration: real)

  /** The dictionary `fetch_transcript` returns (lines 65-70). */
  datatype Fetched = Fetched(videoId: string, transcript: string, segments: seq<Entry>, metadata: TranscriptMeta)

  /** The transcript API, given a video ID. */
  type TranscriptSource = string -> Result<seq<Entry>, Exception>

  function EntryText(e: Entry): string {
    e.text
  }

  /** The entry texts, in order. */
  function EntryTexts(entries: seq<Entry>): seq<string> {
    TextsOf(entries, EntryText)
  }

  /** The end of the last segment, or 0 when there is none (line 62). */
  function EndOfLast(entries: seq<Entry>): (r: real)
    ensures |entries| > 0 ==> r == entries[|entries| - 1].start + entries[|entries| - 1].duration
    ensures |entries| == 0 ==> r == 0.0
  {
    if |entries| == 0 then 0.0 else entries[|entries| - 1].start + entries[|entries| - 1].duration
  }

  /** The exception lines 72-77 raise for an API failure of video `videoId`. */
  function FetchFailure(videoId: string, e: Exception): (r: Exception)
    ensures r.kind == General && r.inner == Some(e)
    ensures e.kind == TranscriptsDisabled ==> r.message == "Transcripts are disabled for video: " + videoId
    ensures e.kind == NoTranscriptFound ==> r.message == "No transcript found for video: " + videoId
    ensures e.kind != TranscriptsDisabled && e.kind != NoTranscriptFound ==>
      r.message == "Error fetching transcript: " + e.message
  {
    match e.kind
    case TranscriptsDisabled => WrapException("Transcripts are disabled for video: " + videoId, e)
    case NoTranscriptFound => WrapException("No transcript found for video: " + videoId, e)
    case _ => WrapException("Error fetching transcript: " + e.message, e)
  }

  /** `fetch_transcript` (lines 38-77). */
  function FetchTranscript(input: string, source: TranscriptSource): (r: Result<Fetched, Exception>)
    ensures r.Ok? <==> source(ExtractVideoId(input)).Ok?
    ensures r.Err? ==> r.error == FetchFailure(ExtractVideoId(input), source(ExtractVideoId(input)).error)
    ensures r.Ok? ==>
      var id := ExtractVideoId(input);
      var entries := source(id).value;
      && r.value.videoId == id && r.value.metadata.videoId == id
      && r.value.transcript == Join(EntryTexts(entries), " ")
      && r.value.segments == entries
      && r.value.metadata == TranscriptMeta(id, WatchUrl(id), |entries|, EndOfLast(entries))
  {
    var id := ExtractVideoId(input);
    match source(id)
    case Err(e) => Err(FetchFailure(id, e))
    case Ok(entries) =>
      var text := Join(EntryTexts(entries), " ");
      Ok(Fetched(id, text, entries, TranscriptMeta(id, WatchUrl(id), |entries|, EndOfLast(entries))))
  }

  /**
   * The two fetchers agree on a video's text up to surrounding white space:
   * the C# service's text is the Python transcript, trimmed.
   */
  lemma TranscriptMatchesService(input: string, source: TranscriptSource, captions: seq<Fetcher.Caption>)
    requires FetchTranscript(input, source).Ok?
    requires Fetcher.Texts(captions) == EntryTexts(FetchTranscript(input, source).value.segments)
    ensures Fetcher.TranscriptText(captions) == Trim(FetchTranscript(input, source).value.transcript)
  {
  }

  /**
   * The URL a fetch records names the video it was fetched for, whenever
   * that ID survives extraction (no `&`, no `v=`).
   */
  lemma FetchedUrlNamesVideo(input: string, source: TranscriptSource)
    requires FetchTranscript(input, source).Ok?
    requires !Contains(FetchTranscript(input, source).value.videoId, "&")
    requires !Contains(FetchTranscript(input, source).value.videoId, "v=")
    ensures ExtractVideoId(FetchTranscript(input, source).value.metadata.url) == FetchTranscript(input, source).value.videoId
  {
    WatchUrlRoundTrip(FetchTranscript(input, source).value.videoId);
  }
}

=== FILE: ranking.dfy ===
/**
 * LINQ's `OrderByDescending(x => x.score).Take(k)` over a list of scored
 * items. `OrderByDescending` is a stable sort: items with equal scores keep
 * the order they had in the source. Each item therefore carries its source
 * position, and the order sorted into is "higher score first, then lower
 * position first".
 */
module Ranking {

  datatype Ranked<T> = Ranked(pos: nat, item: T, score: real)

  /** `a` may come before `b` in the output of a stable descending sort. */
  predicate Precedes<T>(a: Ranked<T>, b: Ranked<T>) {
    a.score > b.score || (a.score == b.score && a.pos <= b.pos)
  }

  predicate Ordered<T>(s: seq<Ranked<T>>) {
    forall i, j :: 0 <= i < j < |s| ==> Precedes(s[i], s[j])
  }

  /** The items scored in source order: position `p` holds source item `p`. */
  predicate Numbered<T>(s: seq<Ranked<T>>) {
    forall p :: 0 <= p < |s| ==> s[p].pos == p
  }

  /** Inserts `x` before the first element it precedes. */
  function Insert<T>(x: Ranked<T>, s: seq<Ranked<T>>): (r: seq<Ranked<T>>)
    ensures |r| == |s| + 1
    ensures multiset(r) == multiset(s) + multiset{x}
    ensures Ordered(s) ==> Ordered(r)
  {
    if |s| == 0 then
      [x]
    else if Precedes(x, s[0]) then
      var r := [x] + s;
      assert Ordered(s) ==> Ordered(r) by {
        if Ordered(s) {
          forall i, j | 0 <= i < j < |r| ensures Precedes(r[i], r[j]) {
            if i > 0 { assert r[i] == s[i - 1] && r[j] == s[j - 1]; }
            else if j > 1 { assert Precedes(s[0], s[j - 1]); }
          }
        }
      }
      r
    else
      var rest := Insert(x, s[1..]);
      var r := [s[0]] + rest;
      assert s == [s[0]] + s[1..];
      assert Ordered(s) ==> Ordered(r) by {
        if Ordered(s) {
          assert Ordered(s[1..]) by {
            forall i, j | 0 <= i < j < |s[1..]| ensures Precedes(s[1..][i], s[1..][j]) {
              assert s[1..][i] == s[i + 1] && s[1..][j] == s[j + 1];
            }
          }
          forall j | 1 <= j < |r| ensures Precedes(r[0], r[j]) {
            assert r[j] in multiset(rest);
            assert r[j] in multiset(s[1..]) || r[j] == x;
            if r[j] != x {
              var k :| 0 <= k < |s[1..]| && s[1..][k] == r[j];
              assert s[k + 1] == r[j];
            }
          }
        }
      }
      r
  }

  /** `OrderByDescending(x => x.score)`. */
  function SortDesc<T>(s: seq<Ranked<T>>): (r: seq<Ranked<T>>)
    ensures multiset(r) == multiset(s)
    ensures |r| == |s|
    ensures Ordered(r)
  {
    if |s| == 0 then
      []
    else
      var r := Insert(s[0], SortDesc(s[1..]));
      assert multiset(r) == multiset(s) by {
        assert s == [s[0]] + s[1..];
      }
      r
  }

  /** `Take(k)`: the first `k` elements, none for a non-positive `k`. */
  function Take<T>(s: seq<T>, k: int): (r: seq<T>)
    ensures |r| == if k <= 0 then 0 else if k < |s| then k else |s|
    ensures r <= s
  {
    if k <= 0 then [] else if k < |s| then s[..k] else s
  }

  /**
   * The `k` best: every item left out of the first `k` of a sorted list is
   * preceded by every item kept.
   */
  lemma {:induction false} TakeIsTop<T>(s: seq<Ranked<T>>, k: int, x: Ranked<T>)
    requires x in multiset(SortDesc(s)) && x !in Take(SortDesc(s), k)
    ensures forall y :: y in Take(SortDesc(s), k) ==> Precedes(y, x)
  {
    var sorted := SortDesc(s);
    var kept := Take(sorted, k);
    var j :| 0 <= j < |sorted| && sorted[j] == x;
    forall y | y in kept ensures Precedes(y, x) {
      var i :| 0 <= i < |kept| && kept[i] == y;
      assert sorted[i] == y;
    }
  }

  /** No two items share a source position. */
  predicate DistinctPositions<T>(s: seq<Ranked<T>>) {
    forall i, j :: 0 <= i < j < |s| ==> s[i].pos != s[j].pos
  }

  lemma OrderedTail<T>(s: seq<Ranked<T>>)
    requires |s| > 0 && Ordered(s)
    ensures Ordered(s[1..])
  {
    forall i, j | 0 <= i < j < |s[1..]| ensures Precedes(s[1..][i], s[1..][j]) {
      assert s[1..][i] == s[i + 1] && s[1..][j] == s[j + 1];
    }
  }

  lemma DistinctTail<T>(s: seq<Ranked<T>>)
    requires |s| > 0 && DistinctPositions(s)
    ensures DistinctPositions(s[1..])
  {
    forall i, j | 0 <= i < j < |s[1..]| ensures s[1..][i].pos != s[1..][j].pos {
      assert s[1..][i] == s[i + 1] && s[1..][j] == s[j + 1];
    }
  }

  /**
   * A stable descending sort has exactly one possible output: two ordered
   * permutations of the same items with distinct positions are equal. So
   * `SortDesc` is what `OrderByDescending` returns.
   */
  lemma {:induction false} OrderedPermutationUnique<T>(a: seq<Ranked<T>>, b: seq<Ranked<T>>)
    requires multiset(a) == multiset(b)
    requires Ordered(a) && Ordered(b) && DistinctPositions(a)
    ensures a == b
    decreases |a|
  {
    assert |a| == |multiset(a)| == |multiset(b)| == |b|;
    if |a| > 0 {
      SameHead(a, b);
      SameTails(a, b);
      OrderedTail(a);
      OrderedTail(b);
      DistinctTail(a);
      OrderedPermutationUnique(a[1..], b[1..]);
      assert a == [a[0]] + a[1..] && b == [b[0]] + b[1..];
    }
  }

  /** Two ordered permutations start with the same item. */
  lemma SameHead<T>(a: seq<Ranked<T>>, b: seq<Ranked<T>>)
    requires |a| > 0 && |b| > 0 && multiset(a) == multiset(b)
    requires Ordered(a) && Ordered(b) && DistinctPositions(a)
    ensures a[0] == b[0]
  {
    assert a[0] in multiset(b);
    var k :| 0 <= k < |b| && b[k] == a[0];
    assert b[0] in multiset(a);
    var m :| 0 <= m < |a| && a[m] == b[0];
    assert Precedes(a[0], a[m]) by { if m > 0 { } }
    assert Precedes(b[0], b[k]) by { if k > 0 { } }
    assert a[m].pos == a[0].pos;
    assert m == 0;
  }

  /** Taking the same first item off two permutations leaves permutations. */
  lemma SameTails<T>(a: seq<Ranked<T>>, b: seq<Ranked<T>>)
    requires |a| > 0 && |b| > 0 && multiset(a) == multiset(b) && a[0] == b[0]
    ensures multiset(a[1..]) == multiset(b[1..])
  {
    assert a == [a[0]] + a[1..] && b == [b[0]] + b[1..];
    assert multiset(a) == multiset{a[0]} + multiset(a[1..]);
    assert multiset(b) == multiset{a[0]} + multiset(b[1..]);
    assert multiset(a[1..]) == multiset(a) - multiset{a[0]};
    assert multiset(b[1..]) == multiset(b) - multiset{a[0]};
  }

  /** No item of `s` sits at position `pos`. */
  predicate Avoids<T>(s: seq<Ranked<T>>, pos: nat) {
    forall i :: 0 <= i < |s| ==> s[i].pos != pos
  }

  lemma ConsDistinct<T>(h: Ranked<T>, t: seq<Ranked<T>>)
    requires DistinctPositions(t) && Avoids(t, h.pos)
    ensures DistinctPositions([h] + t)
  {
    var r := [h] + t;
    forall i, j | 0 <= i < j < |r| ensures r[i].pos != r[j].pos {
      assert r[j] == t[j - 1];
      if i > 0 { assert r[i] == t[i - 1]; }
    }
  }

  /** Every item of a permutation of `s` is an item of `s`, so it avoids what `s` avoids. */
  lemma PermutationAvoids<T>(s: seq<Ranked<T>>, t: seq<Ranked<T>>, pos: nat)
    requires multiset(t) <= multiset(s) && Avoids(s, pos)
    ensures Avoids(t, pos)
  {
    forall i | 0 <= i < |t| ensures t[i].pos != pos {
      assert t[i] in multiset(s);
    }
  }

  lemma {:induction false} InsertKeepsDistinct<T>(x: Ranked<T>, s: seq<Ranked<T>>)
    requires DistinctPositions(s) && Avoids(s, x.pos)
    ensures DistinctPositions(Insert(x, s))
    decreases |s|
  {
    if |s| == 0 {
    } else if Precedes(x, s[0]) {
      ConsDistinct(x, s);
    } else {
      var rest := Insert(x, s[1..]);
      DistinctTail(s);
      assert Avoids(s[1..], x.pos);
      InsertKeepsDistinct(x, s[1..]);
      assert Avoids(s[1..], s[0].pos) && Avoids([x], s[0].pos);
      assert multiset(rest) == multiset(s[1..] + [x]);
      PermutationAvoids(s[1..] + [x], rest, s[0].pos);
      ConsDistinct(s[0], rest);
    }
  }

  /** Sorting items of distinct positions keeps the positions distinct. */
  lemma {:induction false} SortDescKeepsDistinct<T>(s: seq<Ranked<T>>)
    requires DistinctPositions(s)
    ensures DistinctPositions(SortDesc(s))
    decreases |s|
  {
    if |s| > 0 {
      var tail := SortDesc(s[1..]);
      DistinctTail(s);
      SortDescKeepsDistinct(s[1..]);
      assert Avoids(s[1..], s[0].pos);
      PermutationAvoids(s[1..], tail, s[0].pos);
      InsertKeepsDistinct(s[0], tail);
    }
  }

  /**
   * Sorting a numbered list: every output item is the source item at its
   * position, and no position occurs twice.
   */
  lemma SortDescOfNumbered<T>(s: seq<Ranked<T>>)
    requires Numbered(s)
    ensures DistinctPositions(SortDesc(s))
    ensures forall i :: 0 <= i < |SortDesc(s)| ==> SortDesc(s)[i].pos < |s| && s[SortDesc(s)[i].pos] == SortDesc(s)[i]
  {
    var sorted := SortDesc(s);
    SortDescKeepsDistinct(s);
    forall i | 0 <= i < |sorted| ensures sorted[i].pos < |s| && s[sorted[i].pos] == sorted[i] {
      assert sorted[i] in multiset(s);
      var p :| 0 <= p < |s| && s[p] == sorted[i];
    }
  }
}

=== FILE: text.dfy ===
/**
 * The string primitives the services lean on, with the semantics of the
 * runtime they run on: .NET `char.IsWhiteSpace`, `Trim`, `Split(char)`,
 * `Contains`, Python `in`, `split(sep)[k]` and `sep.join`, and decimal
 * rendering of integers for string interpolation.
 */
module Text {
  import opened Common

  /** .NET `char.IsWhiteSpace`: the Unicode separators plus U+0009..U+000D and U+0085. */
  predicate IsWhiteSpace(c: char) {
    || ('\U{0009}' <= c <= '\U{000D}')
    || c == '\U{0020}' || c == '\U{0085}' || c == '\U{00A0}' || c == '\U{1680}'
    || ('\U{2000}' <= c <= '\U{200A}')
    || c == '\U{2028}' || c == '\U{2029}' || c == '\U{202F}' || c == '\U{205F}' || c == '\U{3000}'
  }

  /** .NET `string.IsNullOrWhiteSpace` for a non-null string. */
  predicate AllWhite(s: string) {
    forall i :: 0 <= i < |s| ==> IsWhiteSpace(s[i])
  }

  /** The first index at or after `i` whose character is not white space, or `|s|`. */
  function SkipWhite(s: string, i: nat): (n: nat)
    requires i <= |s|
    ensures i <= n <= |s|
    ensures forall k :: i <= k < n ==> IsWhiteSpace(s[k])
    ensures n < |s| ==> !IsWhiteSpace(s[n])
    decreases |s| - i
  {
    if i < |s| && IsWhiteSpace(s[i]) then SkipWhite(s, i + 1) else i
  }

  /** The least index `n <= j` such that `s[n..j]` is white space. */
  function SkipWhiteBack(s: string, j: nat): (n: nat)
    requires j <= |s|
    ensures n <= j
    ensures forall k :: n <= k < j ==> IsWhiteSpace(s[k])
    ensures 0 < n ==> !IsWhiteSpace(s[n - 1])
    decreases j
  {
    if 0 < j && IsWhiteSpace(s[j - 1]) then SkipWhiteBack(s, j - 1) else j
  }

  /** The cut `SkipWhite` finds is the only one with its two properties. */
  lemma SkipWhiteUnique(s: string, i: nat, m: nat)
    requires i <= m <= |s|
    requires forall k :: i <= k < m ==> IsWhiteSpace(s[k])
    requires m < |s| ==> !IsWhiteSpace(s[m])
    ensures SkipWhite(s, i) == m
  {
  }

  /** The cut `SkipWhiteBack` finds is the only one with its two properties. */
  lemma SkipWhiteBackUnique(s: string, j: nat, m: nat)
    requires m <= j <= |s|
    requires forall k :: m <= k < j ==> IsWhiteSpace(s[k])
    requires 0 < m ==> !IsWhiteSpace(s[m - 1])
    ensures SkipWhiteBack(s, j) == m
  {
  }

  /** A run of white-space indices is a white-space slice. */
  lemma WhiteSlice(s: string, i: int, j: int)
    requires 0 <= i <= j <= |s|
    requires forall k :: i <= k < j ==> IsWhiteSpace(s[k])
    ensures AllWhite(s[i..j])
  {
    forall k | 0 <= k < j - i ensures IsWhiteSpace(s[i..j][k]) {
      assert s[i..j][k] == s[i + k];
    }
  }

  /** `s.TrimStart()`: drops the leading white space. */
  function TrimStart(s: string): (r: string)
    ensures |r| <= |s| && r == s[|s| - |r|..]
    ensures AllWhite(s[..|s| - |r|])
    ensures r == [] || !IsWhiteSpace(r[0])
  {
    var n := SkipWhite(s, 0);
    WhiteSlice(s, 0, n);
    assert s[..n] == s[0..n];
    s[n..]
  }

  /** `s.TrimEnd()`: drops the trailing white space. */
  function TrimEnd(s: string): (r: string)
    ensures |r| <= |s| && r == s[..|r|]
    ensures AllWhite(s[|r|..])
    ensures r == [] || !IsWhiteSpace(r[|r| - 1])
  {
    var n := SkipWhiteBack(s, |s|);
    WhiteSlice(s, n, |s|);
    assert s[n..] == s[n..|s|];
    s[..n]
  }

  /** `r` is `s` with `i` white-space characters cut from its front and white space only cut from its back. */
  predicate StripsTo(s: string, r: string, i: int) {
    && 0 <= i <= |s| - |r|
    && r == s[i..i + |r|]
    && AllWhite(s[..i]) && AllWhite(s[i + |r|..])
  }

  /** `s.Trim()`. */
  function Trim(s: string): (r: string)
    ensures |r| <= |s|
    ensures r == [] <==> AllWhite(s)
    ensures r != [] ==> !IsWhiteSpace(r[0]) && !IsWhiteSpace(r[|r| - 1])
  {
    TrimBlank(s);
    TrimEnd(TrimStart(s))
  }

  /** Only a white-space string trims to nothing. */
  lemma TrimBlank(s: string)
    ensures TrimEnd(TrimStart(s)) == [] ==> AllWhite(s)
  {
    TrimStrips(s);
    if TrimEnd(TrimStart(s)) == [] {
      WhiteHalves(s, |s| - |TrimStart(s)|);
    }
  }

  /**
   * The trimmed string is the part of `s` that is left once the leading
   * white space, as many characters as `TrimStart` drops, and the trailing
   * white space are cut off.
   */
  lemma TrimIsInfix(s: string)
    ensures StripsTo(s, Trim(s), |s| - |TrimStart(s)|)
  {
    TrimStrips(s);
  }

  lemma TrimStrips(s: string)
    ensures StripsTo(s, TrimEnd(TrimStart(s)), |s| - |TrimStart(s)|)
  {
    var t := TrimStart(s);
    CutBothEnds(s, t, TrimEnd(t));
  }

  /** Cutting a white-space prefix and then a white-space suffix strips `s` to `r`. */
  lemma CutBothEnds(s: string, t: string, r: string)
    requires |t| <= |s| && t == s[|s| - |t|..] && AllWhite(s[..|s| - |t|])
    requires |r| <= |t| && r == t[..|r|] && AllWhite(t[|r|..])
    ensures StripsTo(s, r, |s| - |t|)
  {
    var i := |s| - |t|;
    assert t[..|r|] == s[i..i + |r|];
    assert t[|r|..] == s[i + |r|..];
  }

  /** A string whose halves at `i` are white space is white space. */
  lemma WhiteHalves(s: string, i: int)
    requires 0 <= i <= |s| && AllWhite(s[..i]) && AllWhite(s[i..])
    ensures AllWhite(s)
  {
    forall k | 0 <= k < |s| ensures IsWhiteSpace(s[k]) {
      if k < i { assert s[..i][k] == s[k]; } else { assert s[i..][k - i] == s[k]; }
    }
  }

  /**
   * `Trim` is the only way to strip white space from both ends down to a
   * string that neither starts nor ends with white space.
   */
  lemma TrimUnique(s: string, t: string, i: int)
    requires StripsTo(s, t, i)
    requires t != [] ==> !IsWhiteSpace(t[0]) && !IsWhiteSpace(t[|t| - 1])
    ensures t == Trim(s)
  {
    TrimIsInfix(s);
    StripsUnique(s, t, i, Trim(s), |s| - |TrimStart(s)|);
  }

  /** Two strippings of `s` whose ends are not white space are the same string. */
  lemma StripsUnique(s: string, t: string, i: int, r: string, j: int)
    requires StripsTo(s, t, i) && (t != [] ==> !IsWhiteSpace(t[0]) && !IsWhiteSpace(t[|t| - 1]))
    requires StripsTo(s, r, j) && (r != [] ==> !IsWhiteSpace(r[0]) && !IsWhiteSpace(r[|r| - 1]))
    ensures t == r
  {
    if t == [] {
      assert s[i..] == s[i + |t|..];
      WhiteHalves(s, i);
    }
    if r == [] {
      assert s[j..] == s[j + |r|..];
      WhiteHalves(s, j);
    }
    if t != [] && r != [] {
      assert s[i] == t[0] && s[i + |t| - 1] == t[|t| - 1];
      assert s[j] == r[0] && s[j + |r| - 1] == r[|r| - 1];
      FirstNonWhite(s, i, j);
      LastNonWhite(s, i + |t|, j + |r|);
    }
  }

  /** Two white-space prefixes followed by a non-white-space character have the same length. */
  lemma FirstNonWhite(s: string, i: int, j: int)
    requires 0 <= i < |s| && 0 <= j < |s|
    requires AllWhite(s[..i]) && !IsWhiteSpace(s[i])
    requires AllWhite(s[..j]) && !IsWhiteSpace(s[j])
    ensures i == j
  {
    WhitePrefix(s, i);
    WhitePrefix(s, j);
  }

  /** Two white-space suffixes preceded by a non-white-space character have the same length. */
  lemma LastNonWhite(s: string, i: int, j: int)
    requires 0 < i <= |s| && 0 < j <= |s|
    requires AllWhite(s[i..]) && !IsWhiteSpace(s[i - 1])
    requires AllWhite(s[j..]) && !IsWhiteSpace(s[j - 1])
    ensures i == j
  {
    WhiteSuffix(s, i);
    WhiteSuffix(s, j);
  }

  lemma WhitePrefix(s: string, i: int)
    requires 0 <= i <= |s| && AllWhite(s[..i])
    ensures forall k :: 0 <= k < i ==> IsWhiteSpace(s[k])
  {
    forall k | 0 <= k < i ensures IsWhiteSpace(s[k]) {
      assert s[..i][k] == s[k];
    }
  }

  lemma WhiteSuffix(s: string, i: int)
    requires 0 <= i <= |s| && AllWhite(s[i..])
    ensures forall k :: i <= k < |s| ==> IsWhiteSpace(s[k])
  {
    forall k | i <= k < |s| ensures IsWhiteSpace(s[k]) {
      assert s[i..][k - i] == s[k];
    }
  }

  /** Trimming twice trims once. */
  lemma TrimIdempotent(s: string)
    ensures Trim(Trim(s)) == Trim(s)
  {
    var r := Trim(s);
    assert StripsTo(r, r, 0) by {
      assert r[..0] == [] && r[0..|r|] == r && r[|r|..] == [];
    }
    TrimUnique(r, r, 0);
  }

  /** Trimming is blind to one extra trailing space. */
  lemma TrimEndSpace(s: string)
    ensures TrimEnd(s + " ") == TrimEnd(s)
  {
    var u := s + " ";
    var n := SkipWhiteBack(s, |s|);
    assert forall k :: 0 <= k < |s| ==> u[k] == s[k];
    SkipWhiteBackUnique(u, |u|, n);
    assert u[..n] == s[..n];
  }

  lemma TrimStartSpace(s: string)
    ensures TrimStart(s + " ") == if AllWhite(s) then "" else TrimStart(s) + " "
  {
    var u := s + " ";
    var n := SkipWhite(s, 0);
    assert forall k :: 0 <= k < |s| ==> u[k] == s[k];
    if AllWhite(s) {
      SkipWhiteUnique(u, 0, |u|);
    } else {
      SkipWhiteUnique(u, 0, n);
      assert u[n..] == s[n..] + " ";
    }
  }

  lemma TrimSpace(s: string)
    ensures Trim(s + " ") == Trim(s)
  {
    TrimStartSpace(s);
    if !AllWhite(s) {
      TrimEndSpace(TrimStart(s));
    }
  }

  /** `sub` occurs in `s` starting at index `i`. */
  predicate OccursAt(s: string, sub: string, i: int) {
    0 <= i && i + |sub| <= |s| && s[i..i + |sub|] == sub
  }

  /** .NET `s.Contains(sub)` (ordinal) and Python `sub in s`. */
  predicate Contains(s: string, sub: string) {
    exists i :: 0 <= i <= |s| - |sub| && OccursAt(s, sub, i)
  }

  /** The first index at or after `from` where `sub` occurs. */
  function IndexOfFrom(s: string, sub: string, from: nat): (r: Option<nat>)
    requires from <= |s|
    ensures r.Some? ==> from <= r.value && OccursAt(s, sub, r.value)
    ensures r.Some? ==> forall j :: from <= j < r.value ==> !OccursAt(s, sub, j)
    ensures r.None? ==> forall j :: from <= j ==> !OccursAt(s, sub, j)
    decreases |s| - from
  {
    if OccursAt(s, sub, from) then Some(from)
    else if from + |sub| >= |s| then None
    else IndexOfFrom(s, sub, from + 1)
  }

  /** The first occurrence of `sub` in `s`. */
  function IndexOf(s: string, sub: string): (r: Option<nat>)
    ensures r.Some? <==> Contains(s, sub)
    ensures r.Some? ==> OccursAt(s, sub, r.value) && forall j :: 0 <= j < r.value ==> !OccursAt(s, sub, j)
  {
    IndexOfFrom(s, sub, 0)
  }

  /**
   * Python `s.split(sep)[0]` for a non-empty separator: the text before the
   * first occurrence of `sep`, or all of `s` when there is none.
   */
  function Before(s: string, sep: string): (r: string)
    requires |sep| > 0
    ensures r <= s
    ensures !Contains(r, sep)
    ensures r == s || OccursAt(s, sep, |r|)
  {
    match IndexOf(s, sep)
    case None => s
    case Some(i) =>
      var r := s[..i];
      assert !Contains(r, sep) by {
        forall j | 0 <= j <= |r| - |sep| ensures !OccursAt(r, sep, j) {
          if OccursAt(r, sep, j) {
            assert r[j..j + |sep|] == s[j..j + |sep|];
            assert OccursAt(s, sep, j);
          }
        }
      }
      r
  }

  /** The text after the first occurrence of `sep` (which must occur). */
  function After(s: string, sep: string): (r: string)
    requires |sep| > 0 && Contains(s, sep)
    ensures s == Before(s, sep) + sep + r
  {
    var i := IndexOf(s, sep).value;
    assert s == s[..i] + s[i..i + |sep|] + s[i + |sep|..];
    s[i + |sep|..]
  }

  /** .NET `s.Split(c)` and Python `s.split(c)` for a one-character separator. */
  function Split(s: string, c: char): (parts: seq<string>)
    ensures |parts| >= 1
    ensures forall k :: 0 <= k < |parts| ==> c !in parts[k]
    ensures Join(parts, [c]) == s
    decreases |s|
  {
    if c in s then
      var i := FirstIndexOfChar(s, c);
      var rest := Split(s[i + 1..], c);
      assert s == s[..i] + [c] + s[i + 1..];
      [s[..i]] + rest
    else
      [s]
  }

  /** The first index of `c` in `s`. */
  function FirstIndexOfChar(s: string, c: char): (i: nat)
    requires c in s
    ensures i < |s| && s[i] == c && c !in s[..i]
  {
    if s[0] == c then 0 else 1 + FirstIndexOfChar(s[1..], c)
  }

  /** The text of each item, in order: the strings a caption or transcript loop joins. */
  function TextsOf<T>(items: seq<T>, text: T -> string): (r: seq<string>)
    ensures |r| == |items| && forall i :: 0 <= i < |r| ==> r[i] == text(items[i])
  {
    seq(|items|, i requires 0 <= i < |items| => text(items[i]))
  }

  /** Python `sep.join(parts)`. */
  function Join(parts: seq<string>, sep: string): string {
    if |parts| == 0 then ""
    else if |parts| == 1 then parts[0]
    else parts[0] + sep + Join(parts[1..], sep)
  }

  /** A join starts with its first part. */
  lemma JoinStartsWithFirst(parts: seq<string>, sep: string)
    requires |parts| > 0
    ensures parts[0] <= Join(parts, sep)
  {
  }

  /** Joining two non-empty lists is joining each and putting one separator between. */
  lemma {:induction false} JoinAppend(p: seq<string>, q: seq<string>, sep: string)
    requires |p| > 0 && |q| > 0
    ensures Join(p + q, sep) == Join(p, sep) + sep + Join(q, sep)
    decreases |p|
  {
    if |p| == 1 {
      assert (p + q)[0] == p[0] && (p + q)[1..] == q;
    } else {
      assert (p + q)[0] == p[0] && (p + q)[1..] == p[1..] + q;
      JoinAppend(p[1..], q, sep);
      assert p[0] + sep + (Join(p[1..], sep) + sep + Join(q, sep))
        == (p[0] + sep + Join(p[1..], sep)) + sep + Join(q, sep);
    }
  }

  /** In `p + [c] + t` with `c` absent from `p`, the first `c` is the one after `p`. */
  lemma {:induction false} FirstIndexAfterPrefix(p: string, c: char, t: string)
    requires c !in p
    ensures c in p + [c] + t && FirstIndexOfChar(p + [c] + t, c) == |p|
    decreases |p|
  {
    var s := p + [c] + t;
    assert s[|p|] == c;
    if |p| > 0 {
      assert s[1..] == p[1..] + [c] + t;
      FirstIndexAfterPrefix(p[1..], c, t);
    }
  }

  /** Splitting a join on a character no part contains gives the parts back. */
  lemma {:induction false} SplitJoin(parts: seq<string>, c: char)
    requires |parts| >= 1
    requires forall k :: 0 <= k < |parts| ==> c !in parts[k]
    ensures Split(Join(parts, [c]), c) == parts
    decreases |parts|
  {
    if |parts| > 1 {
      var tail := Join(parts[1..], [c]);
      var s := parts[0] + [c] + tail;
      assert Join(parts, [c]) == s;
      FirstIndexAfterPrefix(parts[0], c, tail);
      var i := |parts[0]|;
      assert s[..i] == parts[0];
      assert s[i + 1..] == tail;
      SplitJoin(parts[1..], c);
      assert Split(s, c) == [parts[0]] + Split(tail, c);
      assert parts == [parts[0]] + parts[1..];
    }
  }

  function DigitChar(d: int): char
    requires 0 <= d < 10
  {
    "0123456789"[d]
  }

  /** Decimal rendering of a natural number, as string interpolation prints it. */
  function NatToString(n: nat): (r: string)
    ensures |r| >= 1 && forall k :: 0 <= k < |r| ==> '0' <= r[k] <= '9'
    decreases n
  {
    if n < 10 then [DigitChar(n)] else NatToString(n / 10) + [DigitChar(n % 10)]
  }

  /** Decimal rendering of an integer, with a leading `-` when negative. */
  function IntToString(i: int): string {
    if i < 0 then "-" + NatToString(-i) else NatToString(i)
  }

  /** The value of a non-empty string of decimal digits. */
  function ParseNat(s: string): nat
    requires |s| >= 1 && forall k :: 0 <= k < |s| ==> '0' <= s[k] <= '9'
    decreases |s|
  {
    var d := (s[|s| - 1] as int) - ('0' as int);
    if |s| == 1 then d else ParseNat(s[..|s| - 1]) * 10 + d
  }

  function ParseInt(s: string): int
    requires |s| >= 1
    requires s[0] == '-' ==> |s| >= 2
    requires forall k :: (if s[0] == '-' then 1 else 0) <= k < |s| ==> '0' <= s[k] <= '9'
  {
    if s[0] == '-' then
      var n: int := ParseNat(s[1..]);
      -n
    else
      ParseNat(s)
  }

  lemma {:induction false} ParseNatToString(n: nat)
    ensures ParseNat(NatToString(n)) == n
    decreases n
  {
    if n >= 10 {
      var s := NatToString(n);
      assert s[..|s| - 1] == NatToString(n / 10);
      ParseNatToString(n / 10);
    }
  }

  /** Rendering an integer in decimal loses nothing: parsing gives it back. */
  lemma IntToStringRoundTrip(i: int)
    ensures var s := IntToString(i);
      |s| >= 1 && (s[0] == '-' ==> |s| >= 2) &&
      (forall k :: (if s[0] == '-' then 1 else 0) <= k < |s| ==> '0' <= s[k] <= '9') &&
      ParseInt(s) == i
  {
    if i < 0 {
      NegativeRoundTrip(i);
    } else {
      ParseNatToString(i);
    }
  }

  /** A negative number renders as `-` and the digits of its magnitude, and parses back. */
  lemma NegativeRoundTrip(i: int)
    requires i < 0
    ensures var s := IntToString(i);
      |s| >= 2 && s[0] == '-' && (forall k :: 1 <= k < |s| ==> '0' <= s[k] <= '9') && ParseInt(s) == i
  {
    var n: nat := -i;
    var t := NatToString(n);
    assert IntToString(i) == "-" + t;
    SignedDigits(t);
    ParseNatToString(n);
    assert ParseNat(t) == n;
  }

  /** `-` before a digit string parses to the negated value of the digits. */
  lemma SignedDigits(t: string)
    requires |t| >= 1 && forall k :: 0 <= k < |t| ==> '0' <= t[k] <= '9'
    ensures var s := "-" + t;
      |s| >= 2 && s[0] == '-' && (forall k :: 1 <= k < |s| ==> '0' <= s[k] <= '9') && ParseInt(s) + ParseNat(t) == 0
  {
    var s := "-" + t;
    assert s[1..] == t;
    assert forall k :: 1 <= k < |s| ==> s[k] == t[k - 1];
  }


}

=== FILE: vector_store.dfy ===
/**
 * The in-memory vector database of VectorDatabaseService.cs (OpenAI
 * embeddings) and HuggingFaceVectorDatabaseService.cs (Hugging Face
 * embeddings): a list of (chunk, embedding) records, cosine-similarity
 * search, and a JSON snapshot file `vectordb.json`.
 *
 * The embedding service is the parameter `embed`, `Math.Sqrt` the parameter
 * `sqrt`, and the file system a map from paths to snapshot files. Scores are
 * exact reals.
 */
module VectorStore {
  import opened Common
  import opened Models
  import opened Ranking

  datatype Record = Record(chunk: TextChunk, embedding: seq<real>)

  datatype Store = Store(records: seq<Record>)

  /** The two services differ only in how they report a failed query embedding. */
  datatype Variant = OpenAI | HuggingFace

  type Embedder = string -> Result<seq<real>, Exception>

  /** `InitializeAsync`: the store is cleared. */
  function Initialize(): (s: Store)
    ensures Count(s) == 0
  {
    Store([])
  }

  /** `GetChunkCount`: one per stored record, whatever the records hold. */
  function Count(s: Store): (n: nat)
    ensures n == |s.records|
  {
    |s.records|
  }

  // ---------------------------------------------------------------------
  // Cosine similarity (VectorDatabaseService.cs:136-163)
  // ---------------------------------------------------------------------

  /** The sum of the pairwise products. */
  function Dot(a: seq<real>, b: seq<real>): real
    requires |a| == |b|
  {
    if |a| == 0 then 0.0 else a[0] * b[0] + Dot(a[1..], b[1..])
  }

  /** `sqrt` is a square root on the non-negative reals, as `Math.Sqrt` is. */
  ghost predicate IsSqrt(sqrt: real -> real) {
    && sqrt(0.0) == 0.0
    && forall x :: x >= 0.0 ==> sqrt(x) >= 0.0 && sqrt(x) * sqrt(x) == x
  }

  /** The score of two equally long vectors; 0 when either has zero magnitude. */
  function Similarity(a: seq<real>, b: seq<real>, sqrt: real -> real): real
    requires |a| == |b|
  {
    var magA := sqrt(Dot(a, a));
    var magB := sqrt(Dot(b, b));
    if magA == 0.0 || magB == 0.0 then 0.0 else Dot(a, b) / (magA * magB)
  }

  function LengthMismatch(): Exception {
    Exception(Argument, "Vectors must have the same length", None)
  }

  /** `CosineSimilarity`: throws for vectors of different lengths. */
  function CosineSimilarity(a: seq<real>, b: seq<real>, sqrt: real -> real): (r: Result<real, Exception>)
    ensures r.Err? <==> |a| != |b|
    ensures r.Err? ==> r.error == LengthMismatch()
    ensures r.Ok? ==> r.value == Similarity(a, b, sqrt)
  {
    if |a| != |b| then Err(LengthMismatch()) else Ok(Similarity(a, b, sqrt))
  }

  lemma {:induction false} DotSymmetric(a: seq<real>, b: seq<real>)
    requires |a| == |b|
    ensures Dot(a, b) == Dot(b, a)
    decreases |a|
  {
    if |a| > 0 {
      DotSymmetric(a[1..], b[1..]);
    }
  }

  /** The score does not depend on which vector is the query. */
  lemma SimilaritySymmetric(a: seq<real>, b: seq<real>, sqrt: real -> real)
    requires |a| == |b|
    ensures Similarity(a, b, sqrt) == Similarity(b, a, sqrt)
  {
    DotSymmetric(a, b);
  }

  /** The zero vector has squared magnitude zero. */
  lemma {:induction false} DotSelfZero(a: seq<real>)
    requires forall i :: 0 <= i < |a| ==> a[i] == 0.0
    ensures Dot(a, a) == 0.0
    decreases |a|
  {
    if |a| > 0 {
      assert forall i :: 0 <= i < |a[1..]| ==> a[1..][i] == a[i + 1];
      DotSelfZero(a[1..]);
    }
  }

  /** A vector that is all zeros scores 0 against anything. */
  lemma ZeroVectorScoresZero(a: seq<real>, b: seq<real>, sqrt: real -> real)
    requires |a| == |b| && IsSqrt(sqrt)
    requires forall i :: 0 <= i < |a| ==> a[i] == 0.0
    ensures Similarity(a, b, sqrt) == 0.0
  {
    DotSelfZero(a);
  }

  /** A vector whose magnitude is not zero scores exactly 1 against itself. */
  lemma SelfSimilarityIsOne(a: seq<real>, sqrt: real -> real)
    requires IsSqrt(sqrt)
    requires sqrt(Dot(a, a)) != 0.0
    ensures Similarity(a, a, sqrt) == 1.0
  {
    var m := Dot(a, a);
    var s := sqrt(m);
    assert m != 0.0;
    assert m >= 0.0 ==> s * s == m;
    DotSelfNonNegative(a);
    SelfQuotient(m, s);
  }

  lemma {:induction false} DotSelfNonNegative(a: seq<real>)
    ensures Dot(a, a) >= 0.0
    decreases |a|
  {
    if |a| > 0 {
      DotSelfNonNegative(a[1..]);
      assert a[0] * a[0] >= 0.0;
    }
  }

  lemma SelfQuotient(m: real, s: real)
    requires m != 0.0 && s * s == m
    ensures m / (s * s) == 1.0
  {
  }

  // ---------------------------------------------------------------------
  // AddChunksAsync
  // ---------------------------------------------------------------------

  /**
   * `AddChunksAsync`: embeds each chunk's content in order and appends the
   * record. An embedding failure propagates; the records added before it
   * stay in the store.
   */
  method AddChunks(s: Store, chunks: seq<TextChunk>, embed: Embedder) returns (r: Store, outcome: Result<(), Exception>)
    ensures |s.records| <= |r.records| <= |s.records| + |chunks|
    ensures r.records[..|s.records|] == s.records
    ensures var n := |r.records| - |s.records|;
      forall i :: 0 <= i < n ==>
        embed(chunks[i].content).Ok? && r.records[|s.records| + i] == Record(chunks[i], embed(chunks[i].content).value)
    ensures outcome.Ok? <==> forall i :: 0 <= i < |chunks| ==> embed(chunks[i].content).Ok?
    ensures outcome.Ok? ==> |r.records| == |s.records| + |chunks|
    ensures outcome.Ok? ==> Count(r) == Count(s) + |chunks|
    ensures outcome.Err? ==> var n := |r.records| - |s.records|;
      n < |chunks| && embed(chunks[n].content) == Err(outcome.error)
  {
    r := s;
    var k := 0;
    while k < |chunks|
      invariant 0 <= k <= |chunks|
      invariant |r.records| == |s.records| + k
      invariant r.records[..|s.records|] == s.records
      invariant forall i :: 0 <= i < k ==>
        embed(chunks[i].content).Ok? && r.records[|s.records| + i] == Record(chunks[i], embed(chunks[i].content).value)
    {
      var embedding := embed(chunks[k].content);
      if embedding.Err? {
        outcome := Err(embedding.error);
        return;
      }
      r := Store(r.records + [Record(chunks[k], embedding.value)]);
      k := k + 1;
    }
    outcome := Ok(());
  }

  // ---------------------------------------------------------------------
  // SearchAsync
  // ---------------------------------------------------------------------

  const OPENAI_EMBEDDING_NETWORK_ERROR: string :=
    "Network error generating embeddings. This could be due to:\n"
    + "1. Invalid OpenAI API key\n"
    + "2. Firewall/proxy blocking api.openai.com\n"
    + "3. Network connectivity issues\n"
    + "Original error: "

  const HF_EMBEDDING_ERROR: string := "Error generating query embedding: "

  /**
   * How a failed query embedding surfaces: the OpenAI store wraps only
   * network errors (VectorDatabaseService.cs:70-77), the Hugging Face store
   * wraps every error (HuggingFaceVectorDatabaseService.cs:52-55).
   */
  function QueryFailure(variant: Variant, e: Exception): (r: Exception)
    ensures variant.OpenAI? && !e.kind.HttpRequest? ==> r == e
    ensures variant.OpenAI? && e.kind.HttpRequest? ==> r == WrapException(OPENAI_EMBEDDING_NETWORK_ERROR + e.message, e)
    ensures variant.HuggingFace? ==> r == WrapException(HF_EMBEDDING_ERROR + e.message, e)
  {
    match variant
    case OpenAI => if e.kind.HttpRequest? then WrapException(OPENAI_EMBEDDING_NETWORK_ERROR + e.message, e) else e
    case HuggingFace => WrapException(HF_EMBEDDING_ERROR + e.message, e)
  }

  /** Every record's embedding is as long as the query's. */
  predicate AllComparable(records: seq<Record>, q: seq<real>) {
    forall p :: 0 <= p < |records| ==> |records[p].embedding| == |q|
  }

  /** The `Select` step: each record with its score, numbered by its place in the store. */
  function ScoreAll(records: seq<Record>, q: seq<real>, sqrt: real -> real): (r: seq<Ranked<TextChunk>>)
    requires AllComparable(records, q)
    ensures |r| == |records|
    ensures forall p :: 0 <= p < |r| ==>
      r[p] == Ranked(p, records[p].chunk, Similarity(q, records[p].embedding, sqrt))
  {
    seq(|records|, p requires 0 <= p < |records| => Ranked(p, records[p].chunk, Similarity(q, records[p].embedding, sqrt)))
  }

  /**
   * `SearchAsync(query, topK)`. An empty store answers nothing without
   * embedding the query. Otherwise the query is embedded; a non-positive
   * `topK` then answers nothing without scoring (LINQ's `Take` returns an
   * empty sequence without enumerating); else every record is scored,
   * which throws if any embedding's length differs from the query's, and
   * the `topK` best are returned, best first.
   */
  function Search(variant: Variant, s: Store, query: string, topK: int, embed: Embedder, sqrt: real -> real)
    : (r: Result<seq<Ranked<TextChunk>>, Exception>)
    ensures |s.records| == 0 ==> r == Ok([])
    ensures |s.records| > 0 && embed(query).Err? ==> r == Err(QueryFailure(variant, embed(query).error))
    ensures |s.records| > 0 && embed(query).Ok? ==>
      var q := embed(query).value;
      && (r.Err? <==> topK > 0 && !AllComparable(s.records, q))
      && (r.Err? ==> r.error == LengthMismatch())
      && (r.Ok? ==> |r.value| == Min(Max(topK, 0), |s.records|))
  {
    if |s.records| == 0 then
      Ok([])
    else
      match embed(query)
      case Err(e) => Err(QueryFailure(variant, e))
      case Ok(q) =>
        if topK <= 0 then Ok([])
        else if !AllComparable(s.records, q) then Err(LengthMismatch())
        else Ok(Take(SortDesc(ScoreAll(s.records, q, sqrt)), topK))
  }

  /**
   * What a successful search returns: distinct records of the store, each
   * with its cosine score against the query embedding, best first, ties in
   * store order.
   */
  lemma SearchHits(variant: Variant, s: Store, query: string, topK: int, embed: Embedder, sqrt: real -> real)
    requires Search(variant, s, query, topK, embed, sqrt).Ok?
    ensures var hits := Search(variant, s, query, topK, embed, sqrt).value;
      && Ordered(hits)
      && DistinctPositions(hits)
      && forall i :: 0 <= i < |hits| ==>
        && hits[i].pos < |s.records|
        && hits[i].item == s.records[hits[i].pos].chunk
        && hits[i].score == Similarity(embed(query).value, s.records[hits[i].pos].embedding, sqrt)
  {
    var hits := Search(variant, s, query, topK, embed, sqrt).value;
    if |hits| > 0 {
      var q := embed(query).value;
      var scored := ScoreAll(s.records, q, sqrt);
      var sorted := SortDesc(scored);
      assert hits == Take(sorted, topK);
      SortDescOfNumbered(scored);
      forall i | 0 <= i < |hits| ensures hits[i] == sorted[i] { }
    }
  }

  /**
   * The search returns the best `topK` records: every record left out
   * scores no higher than any hit, and loses a tie to every hit that
   * scores the same.
   */
  lemma SearchReturnsBest(variant: Variant, s: Store, query: string, topK: int, embed: Embedder, sqrt: real -> real, p: nat)
    requires Search(variant, s, query, topK, embed, sqrt).Ok?
    requires p < |s.records| && |s.records| > 0 && topK > 0
    requires forall i :: 0 <= i < |Search(variant, s, query, topK, embed, sqrt).value| ==>
      Search(variant, s, query, topK, embed, sqrt).value[i].pos != p
    ensures var hits := Search(variant, s, query, topK, embed, sqrt).value;
      var score := Similarity(embed(query).value, s.records[p].embedding, sqrt);
      forall i :: 0 <= i < |hits| ==> hits[i].score > score || (hits[i].score == score && hits[i].pos < p)
  {
    var q := embed(query).value;
    var scored := ScoreAll(s.records, q, sqrt);
    var sorted := SortDesc(scored);
    var hits := Take(sorted, topK);
    var x := scored[p];
    assert x in multiset(sorted);
    assert x !in hits;
    TakeIsTop(scored, topK, x);
    forall i | 0 <= i < |hits| ensures hits[i].pos != p {
    }
    forall i | 0 <= i < |hits| ensures Precedes(hits[i], x) {
      assert hits[i] in hits;
    }
  }

  // ---------------------------------------------------------------------
  // SaveToFileAsync / LoadFromFileAsync
  // ---------------------------------------------------------------------

  /** What `vectordb.json` can hold: a list of records, the JSON `null`, or text that is not a record list. */
  datatype SnapshotFile = Snapshot(records: seq<Record>) | NullSnapshot | Malformed

  type FileSystem = map<string, SnapshotFile>

  const SNAPSHOT_NAME: string := "vectordb.json"

  /** `Path.Combine(directory, "vectordb.json")` with the Unix separator. */
  function SnapshotPath(directory: string): (path: string)
    ensures |path| >= |SNAPSHOT_NAME| && path[|path| - |SNAPSHOT_NAME|..] == SNAPSHOT_NAME
    ensures directory <= path
    ensures |path| == |directory| + |SNAPSHOT_NAME| + (if directory == [] || directory[|directory| - 1] == '/' then 0 else 1)
    ensures directory != [] ==> path[|path| - |SNAPSHOT_NAME| - 1] == '/'
  {
    if directory == [] then SNAPSHOT_NAME
    else if directory[|directory| - 1] == '/' then directory + SNAPSHOT_NAME
    else directory + "/" + SNAPSHOT_NAME
  }

  /** `Directory.CreateDirectory("")` rejects the empty path. */
  function EmptyPathError(): Exception {
    Exception(Argument, "", None)
  }

  /** `SaveToFileAsync(directory)`: writes every record to the snapshot file, replacing it. */
  function Save(s: Store, directory: string, fs: FileSystem): (r: Result<FileSystem, Exception>)
    ensures r.Err? <==> directory == []
    ensures r.Err? ==> r.error == EmptyPathError()
    ensures r.Ok? ==> SnapshotPath(directory) in r.value && r.value[SnapshotPath(directory)] == Snapshot(s.records)
    ensures r.Ok? ==> forall path :: path != SnapshotPath(directory) ==> (path in r.value <==> path in fs)
    ensures r.Ok? ==> forall path :: path in fs && path != SnapshotPath(directory) ==> r.value[path] == fs[path]
  {
    if directory == [] then Err(EmptyPathError())
    else Ok(fs[SnapshotPath(directory) := Snapshot(s.records)])
  }

  const FILE_NOT_FOUND_PREFIX: string := "Vector database file not found: "

  /** The deserializer's complaint about a file that is not a record list. */
  function MalformedSnapshotError(): Exception {
    Exception(Json, "", None)
  }

  /**
   * `LoadFromFileAsync(directory)`: replaces the store with the snapshot's
   * records; a `null` snapshot leaves the store as it was.
   */
  function Load(s: Store, directory: string, fs: FileSystem): (r: Result<Store, Exception>)
    ensures SnapshotPath(directory) !in fs ==>
      r == Err(Exception(FileNotFound, FILE_NOT_FOUND_PREFIX + SnapshotPath(directory), None))
    ensures SnapshotPath(directory) in fs ==> match fs[SnapshotPath(directory)]
      case Snapshot(records) => r == Ok(Store(records))
      case NullSnapshot => r == Ok(s)
      case Malformed => r == Err(MalformedSnapshotError())
  {
    var path := SnapshotPath(directory);
    if path !in fs then
      Err(Exception(FileNotFound, FILE_NOT_FOUND_PREFIX + path, None))
    else
      match fs[path]
      case Snapshot(records) => Ok(Store(records))
      case NullSnapshot => Ok(s)
      case Malformed => Err(MalformedSnapshotError())
  }

  /** Loading what was just saved, into any store, gives the saved store back. */
  lemma LoadAfterSave(saved: Store, current: Store, directory: string, fs: FileSystem)
    requires directory != []
    ensures Save(saved, directory, fs).Ok?
    ensures Load(current, directory, Save(saved, directory, fs).value) == Ok(saved)
  {
  }

  /** A second save to the same directory replaces the first. */
  lemma SaveOverwrites(a: Store, b: Store, directory: string, fs: FileSystem)
    requires directory != []
    ensures Save(b, directory, Save(a, directory, fs).value) == Save(b, directory, fs)
  {
    var once := Save(b, directory, fs).value;
    var twice := Save(b, directory, Save(a, directory, fs).value).value;
    assert twice.Keys == once.Keys;
    assert twice == once;
  }

  /** Saving and loading preserve what searches see: the same records answer the same queries. */
  lemma SearchAfterReload(variant: Variant, s: Store, current: Store, directory: string, fs: FileSystem,
                          query: string, topK: int, embed: Embedder, sqrt: real -> real)
    requires directory != []
    ensures var loaded := Load(current, directory, Save(s, directory, fs).value).value;
      Search(variant, loaded, query, topK, embed, sqrt) == Search(variant, s, query, topK, embed, sqrt)
      && Count(loaded) == Count(s)
  {
    LoadAfterSave(s, current, directory, fs);
  }
}
